=== FILE: README.md ===
# Stock valuation core, modelled in Dafny

The backend of an AI-assisted stock analysis service turns one company's
extracted financial data into a valuation. This project models that core:

- **ValuationEngine**: the credit spread from interest coverage, the
  weighted average cost of capital (WACC), a three-scenario discounted cash
  flow (DCF) with decaying growth and a Gordon-growth terminal value, the
  Graham Number, Graham's seven-criterion defensive screen, the 60/40
  composite value, the verdict bands, the margin of safety, the confidence
  score and the risk-factor list (`Dcf`, `CostOfCapital`, `Graham`,
  `Valuation`).
- **FlexibleInputAdapter**: the duck-typed view the engine reads off a
  partial AI extraction. It supplies defaults and derives missing figures
  such as gross profit, free cash flow, market cap, ratios and the 5-year
  revenue CAGR (`InputAdapter`). The engine is written against one record
  of the attributes it reads (`EngineView.EngineInput`). Both input paths
  produce that record: the adapter and the strict `StandardizedValuationInput`.
- **The pydantic models**: the validation and normalisation they apply, as
  `Result`-returning constructors. This covers tickers upper-cased and
  stripped, history sorted newest first, the bounds on prices, years and
  scores, and the verdict enumeration (`FlexibleInput`, `ValuationInput`,
  `ValuationOutput`).
- **The HTTP layer's helpers**:
  - ticker format and existence checks (`Dependencies`);
  - the screener endpoint's filtering and sorting (`Screener`);
  - CSV record sanitising, ticker lookup and the unique sector and
    industry lists (`DataLoader`);
  - CORS origin parsing (`Config`).
- **The AI extractor's pure helpers**: cleaning and slicing the model's
  reply down to one JSON object, and `truncate_json`, which cuts a stock
  document down to the sections the prompt needs, each trimmed to its
  most recent periods (`AiExtractor`).

Python semantics are written out where they matter:

- `x or d` treats `0.0` and `None` alike (`RealMath.OrDefault`, `Truthy`).
- `sorted(..., reverse=True)` is a stable sort with the comparison flipped (`Sequences.SortStable`).
- `str.strip` uses Python's whitespace set; `upper` and `lower` are ASCII.
- Division by zero, indexing an empty list and comparing incomparable
  values become `ZeroDivisionError`, `IndexError` and `TypeError` results.
- Pydantic validation failures become `ValidationError(field)`.
- `math.sqrt` and the fractional power `x ** (1/5)` are parameters. Each
  is constrained by a predicate stating its defining property (`IsSqrtFn`,
  `IsFifthRootFn`), so results never depend on a particular
  implementation.

Behaviour the code has and its comments or docstrings describe differently:

- The screener's sort puts stocks without the sort value *first* when
  sorting descending. The key `(1, 0)` is the largest, and `reverse=True`
  places it first. Ascending, a missing value sorts as `0`, not first.
  A missing value on an ascending sort of a text column raises
  `TypeError`, because `(0, 0)` and `(0, "text")` cannot be compared
  (`Screener.DescendingNoneFirst`, `Screener.AscendingNoneAsZero`,
  `Screener.AscendingTextWithNoneRaises`).
- The adapter's 5-year revenue CAGR takes `hist[-5]` as its base year but
  always uses the exponent `1/5`. With more than five history rows, the
  base is more than five years older than the latest row.
- The margin of safety `u / (1 + u)` falls steeply as the upside `u`
  approaches `-0.99`, then jumps to `-1` (`Valuation.MarginOfSafetyJump`).

## Model

| member | source | states |
|---|---|---|
| CostOfCapital.ScanTable | backend/app/services/valuation_engine.py:653-657 | the spread is that of the first row whose threshold lies strictly above the coverage, or the best spread when no row does |
| CostOfCapital.RatingBandSpread | backend/app/services/valuation_engine.py:572-580 | every rating band's spread lies between the best (0.7%) and the distressed (5%) spread |
| CostOfCapital.ScanTableMatchesBands | backend/app/services/valuation_engine.py:572-580 | for positive coverage, scanning the threshold table gives exactly the rating band the table's comments describe |
| CostOfCapital.CreditSpread | backend/app/services/valuation_engine.py:631-657 | missing or non-positive coverage is distressed; otherwise the spread is the coverage's rating band, always within [0.7%, 5%] |
| CostOfCapital.CreditSpreadMonotone | backend/app/services/valuation_engine.py:631-657 | better interest coverage never raises the credit spread |
| CostOfCapital.CreditSpreadEdges | backend/app/services/valuation_engine.py:573-579 | coverage of exactly 1.5 already earns the B spread, coverage of 12 or more earns the best spread, and coverage in (0, 1.5) earns 4% |
| CostOfCapital.CapitalWeights | backend/app/services/valuation_engine.py:697-709 | the weights are fractions summing to one, proportional to the clamped market cap and debt; with no capital or no debt the structure is all equity, and with debt but no equity it is all debt |
| CostOfCapital.CostOfEquity | backend/app/services/valuation_engine.py:686-690 | a missing beta prices equity at the market's premium; a non-negative beta and premium never put the cost below the risk-free rate |
| CostOfCapital.Blend | backend/app/services/valuation_engine.py:711-712 | the weighted rate lies between the two rates it blends and equals one of them when its weight is one |
| CostOfCapital.CalculateWacc | backend/app/services/valuation_engine.py:659-735 | the reported components are the input's rates, the CAPM cost of equity and the spread-based cost of debt; WACC lies between the cost of equity and the after-tax cost of debt, equalling the former without debt and the latter without equity |
| Dcf.YearGrowth | backend/app/services/valuation_engine.py:793-795 | year growth starts at the initial rate, reaches the terminal rate in year 10 and stays between the two until then |
| Dcf.EffectiveRoic | backend/app/services/valuation_engine.py:781-782 | the ROIC used is always positive: the reported one when positive, else 10% |
| Dcf.ReinvestmentRate | backend/app/services/valuation_engine.py:801-804 | reinvestment is growth over ROIC clamped to [0, 80%], and one half when ROIC is not positive |
| Dcf.Project | backend/app/services/valuation_engine.py:784-811 | the projection holds one revenue, EBIT, NOPAT and FCF entry per year |
| Dcf.ProjectEntry | backend/app/services/valuation_engine.py:792-811 | entry t of the projection is projection year t + 1 |
| Dcf.ProjectRevenue | backend/app/services/valuation_engine.py:797 | projected revenue in year t + 1 is the base revenue compounded by each year's decayed growth |
| Dcf.ProjectDerived | backend/app/services/valuation_engine.py:798-806 | each year's EBIT is revenue at the margin, NOPAT is EBIT after 21% tax, and FCF is NOPAT less that year's reinvestment |
| Dcf.ProjectRecurrence | backend/app/services/valuation_engine.py:790-806 | each projected year grows the previous year's revenue (the base revenue for the first year) and derives its other figures from it |
| Dcf.ProjectPrefix | backend/app/services/valuation_engine.py:792-811 | projecting fewer years gives a prefix of the longer projection |
| Dcf.FcfShareOfNopat | backend/app/services/valuation_engine.py:803-806 | with non-negative NOPAT, FCF keeps between 20% and 100% of it |
| Dcf.ProjectSnoc | backend/app/services/valuation_engine.py:808-811 | one more projection year appends exactly that year's figures to each series |
| Dcf.ProjectLoop | backend/app/services/valuation_engine.py:785-811 | the loop that appends year by year builds the same four series as the year-indexed definition |
| Dcf.EffectiveTerminalGrowth | backend/app/services/valuation_engine.py:815-817 | the terminal growth used is always below WACC: the given rate when WACC exceeds it, else exactly one point below WACC |
| Dcf.Discount | backend/app/services/valuation_engine.py:830 | compounding the discounted value back over the years restores the value, and discounting keeps its sign |
| Dcf.PresentValue | backend/app/services/valuation_engine.py:829-832 | non-negative cash flows have a non-negative present value, and no cash flows have none |
| Dcf.PresentValueAppend | backend/app/services/valuation_engine.py:829-832 | one more year's cash flow adds its value discounted over its year number |
| Dcf.PresentValueLoop | backend/app/services/valuation_engine.py:829-832 | the running sum over the enumerated cash flows equals the present value |
| Dcf.PerShareValue | backend/app/services/valuation_engine.py:839-846 | value per share times shares restores a non-negative equity value; otherwise the value is zero, and it is never negative |
| Dcf.Upside | backend/app/services/valuation_engine.py:849-853 | the upside times the price is value less price, so it is positive exactly when the value exceeds the price; it is zero without a positive price |
| Dcf.TerminalValue | backend/app/services/valuation_engine.py:825-826 | the terminal value times (WACC less the effective growth) restores the terminal FCF, the last FCF grown once |
| Dcf.Valuate | backend/app/services/valuation_engine.py:855-875 | the scenario carries its parameters, the input's price and the projected series unchanged |
| Dcf.ValuateEnterprise | backend/app/services/valuation_engine.py:825-837 | enterprise value is the explicit-period present value plus the terminal value discounted over the projection, and equity value is that less net debt |
| Dcf.ValuatePerShare | backend/app/services/valuation_engine.py:839-853 | intrinsic value per share is non-negative and restores a non-negative equity value over the shares; the upside relates it to the price |
| Dcf.ScenarioFigures | backend/app/services/valuation_engine.py:737-875 | a scenario covers exactly the requested years and carries the input's price |
| Dcf.Scenario | backend/app/services/valuation_engine.py:825-875 | a scenario fails with IndexError without projection years, with ZeroDivisionError when 1 + WACC is zero, and with a validation error unless there are 3 to 10 years and a positive price; otherwise it is a valid scenario |
| Dcf.BaseGrowth | backend/app/services/valuation_engine.py:902-905 | base growth is the reported CAGR when positive, 3% when negative and 5% when missing or zero, so it is never negative |
| Dcf.ScenarioBounds | backend/app/services/valuation_engine.py:910-926 | conservative growth is at least 2%, optimistic growth at most 25% and optimistic margin at most 35%, and terminal rates rise 2% < 2.5% < 3% |
| Dcf.GrowthOrderingIff | backend/app/services/valuation_engine.py:910-926 | the scenarios' growth rates bracket the base rate exactly when it lies in [2%, 25%] |
| Dcf.MarginOrderingIff | backend/app/services/valuation_engine.py:910-926 | the scenarios' margins bracket the current margin exactly when it lies in [0, 35%] |
| Dcf.WeightedIntrinsicValue | backend/app/services/valuation_engine.py:940-949 | the 25/50/25 weighted value lies between the smallest and largest scenario value and equals their common value when all agree |
| Dcf.CalculateDcf | backend/app/services/valuation_engine.py:877-1011 | the DCF succeeds exactly when every discounting base (WACC and the ±1% sensitivities) is non-zero and the price is positive, reporting which error otherwise; on success it uses the computed WACC, the default weights and the fixed terminal rates, and its weighted value is non-negative and lies within the scenarios' range; the scenario parameters, the weighting and the sensitivity reruns are stated by `Dcf.CalculateDcfParts` |
| Dcf.CalculateDcfParts | backend/app/services/valuation_engine.py:908-991 | a successful DCF values the conservative case at max(2%, half the growth) and 85% of the margin, the base case at the base growth and margin, and the optimistic case at min(25%, 1.5 times the growth) and min(35%, 115% of the margin); its weighted value is the 25/50/25 blend of their per-share values; the four sensitivities are the base case rerun at WACC -1% and +1% and at terminal growth 1.5% and 3.5% |
| Graham.BookValuePerShare | backend/app/services/valuation_engine.py:1037-1040 | book value per share times shares restores equity when there are shares, else it is zero; it is positive exactly when shares and equity both are |
| Graham.GrahamValue | backend/app/services/valuation_engine.py:1048-1051 | the Graham Number is non-negative, positive exactly when EPS and book value both are, and then its square is 22.5 × EPS × BVPS |
| Graham.GrahamValueOracleFree | backend/app/services/valuation_engine.py:1049 | any two square-root functions give the same Graham Number |
| Graham.GrahamUpside | backend/app/services/valuation_engine.py:1060-1063 | the upside times the price is number less price; it is -1 exactly when the number or the price is not positive |
| Graham.CalculateGrahamNumber | backend/app/services/valuation_engine.py:1013-1073 | the result validates exactly when the price is positive; it reports EPS, BVPS and the multiplier, a number that is positive exactly when EPS, shares and equity are, and -1 as upside exactly when the number is zero |
| Graham.GrahamUpsideIffSquare | backend/app/services/valuation_engine.py:1048-1063 | the Graham upside is non-negative exactly when 22.5 × EPS × BVPS is at least the squared price |
| Graham.CountTrueExtremes | backend/app/services/valuation_engine.py:1151-1159 | the count of passed criteria is the total exactly when all pass and zero exactly when none does |
| Graham.PositiveYears | backend/app/services/valuation_engine.py:1108-1111 | the number of positive-earnings years never exceeds the years of history |
| Graham.PositiveYearsExtremes | backend/app/services/valuation_engine.py:1108-1111 | every year counts exactly when all have positive net income, none exactly when none has |
| Graham.GrowthFromCagr | backend/app/services/valuation_engine.py:1127-1129 | one plus the ten-year growth is one plus the CAGR compounded ten times; a non-negative CAGR gives non-negative growth |
| Graham.GrowthFromCagrMonotone | backend/app/services/valuation_engine.py:1127-1129 | a higher CAGR never gives lower ten-year growth |
| Graham.EpsGrowth10y | backend/app/services/valuation_engine.py:1121-1129 | with ten or more years, growth exists exactly when the oldest EPS is positive and the newest is known, and relates them as (new − old) / old; with fewer it exists exactly when the CAGR does, compounded over ten years |
| Graham.Criteria | backend/app/services/valuation_engine.py:1151-1159 | there are seven criteria |
| Graham.PePbProduct | backend/app/services/valuation_engine.py:1142-1147 | the product exists exactly when both ratios are reported and positive, and is then positive |
| Graham.HasDividends | backend/app/services/valuation_engine.py:1116 | `(dividend_yield or 0) > 0` holds exactly for a reported positive yield |
| Graham.GrahamScreen | backend/app/services/valuation_engine.py:1075-1190 | each criterion holds exactly when its threshold is met, the product test can stand in for the P/E and P/B tests, the count is the number of passed criteria, and the screen passes exactly when five or more do |
| Graham.ProductTestCountsTwice | backend/app/services/valuation_engine.py:1157-1158 | a passing P/E × P/B product alone earns two criteria |
| Graham.ScreenCountMeaning | backend/app/services/valuation_engine.py:1151-1161 | the screen reports seven passed exactly when every criterion holds, zero exactly when none does, and fails exactly when three or more criteria are missed |
| Valuation.Composite | backend/app/services/valuation_engine.py:1192-1219 | the composite blends DCF and Graham exactly when the Graham Number is positive, lies between the two values, and moves above the DCF value exactly when Graham does; otherwise it is the DCF value |
| Valuation.DetermineVerdict | backend/app/services/valuation_engine.py:1221-1247 | the verdict is the unique one whose band contains the upside |
| Valuation.VerdictMonotone | backend/app/services/valuation_engine.py:1238-1247 | more upside never gives a less attractive verdict |
| Valuation.VerdictEdges | backend/app/services/valuation_engine.py:1238-1247 | exactly 40% upside is undervalued, ±15% is fairly valued and -40% is overvalued |
| Valuation.MarginOfSafety | backend/app/services/valuation_engine.py:1441-1447 | above -99% upside the margin times one plus the upside restores the upside, below it is -1; it is always below one, and has the upside's sign |
| Valuation.MarginOfSafetyMonotone | backend/app/services/valuation_engine.py:1443-1444 | above -99% upside, more upside never lowers the margin of safety |
| Valuation.MarginOfSafetyJump | backend/app/services/valuation_engine.py:1443-1447 | just above the -99% cut-off the margin is far below -1 (-49 at -98%), and below it the margin is -1 |
| Valuation.HistoryScore | backend/app/services/valuation_engine.py:1272-1274 | the history score is the share of ten years available, capped at one |
| Valuation.Consistency | backend/app/services/valuation_engine.py:1276-1291 | consistency is 1 when both scenario values are positive and within 3×, 0.8 when within 5×, and 0.5 otherwise, each case stated as an exact condition |
| Valuation.ConfidenceScore | backend/app/services/valuation_engine.py:1249-1300 | confidence lies in [0, 1], is at least 1/8 for non-negative data quality, and is full exactly when data quality, history and consistency all are |
| Valuation.ConfidenceMonotone | backend/app/services/valuation_engine.py:1294-1300 | better data quality and longer history never lower confidence |
| Valuation.WarningsMembership | backend/app/services/valuation_engine.py:1335-1360 | a warning is listed exactly when its condition holds: leverage above 2, a current ratio in (0, 1), reported coverage below 3, growth above 20%, WACC below 6%, a failed screen, or missing fields (the first three named) |
| Valuation.WarningsRanked | backend/app/services/valuation_engine.py:1335-1360 | warnings appear at most once each, in the code's fixed order, and none is an extraction anomaly |
| Valuation.RiskFactors | backend/app/services/valuation_engine.py:1322-1362 | the risk factors are the extraction anomalies, in order, followed by the warnings |
| Valuation.Assess | backend/app/services/valuation_engine.py:1429-1450 | the assessment uses the composite value, its upside over the price, that upside's margin of safety, and the verdict whose band holds the upside |
| Valuation.Assemble | backend/app/services/valuation_engine.py:1460-1485 | the result validates exactly when price, market cap and shares are positive and data quality lies in [0, 1]; it then carries the DCF and Graham results, a non-negative composite and a verdict matching its upside |
| Valuation.AssembleRiskFactors | backend/app/services/valuation_engine.py:1322-1362 | a built result's risk factors are the extraction anomalies in order, each stripped of surrounding whitespace by the result model, followed by the warnings unchanged |
| Valuation.CalculateValuation | backend/app/services/valuation_engine.py:1423-1485 | a valuation succeeds exactly when the DCF does and the result validates; a DCF failure is passed on, and no valuation exists without a positive price |
| InputAdapter.Sector | backend/app/services/valuation_engine.py:79-80 | the sector is never empty: the reported one if non-empty, else a placeholder |
| InputAdapter.Industry | backend/app/services/valuation_engine.py:83-84 | the industry is never empty: the reported one if non-empty, else a placeholder |
| InputAdapter.CurrentPrice | backend/app/services/valuation_engine.py:88-91 | the price is never negative and is positive exactly when the reported price is, and then equals it |
| InputAdapter.SharesOutstanding | backend/app/services/valuation_engine.py:94-102 | shares are the reported count, else market cap over a positive price (so shares × price restores the cap), else one million |
| InputAdapter.MarketCap | backend/app/services/valuation_engine.py:105-108 | market cap is the reported one, else price times shares |
| InputAdapter.MarketCapConsistent | backend/app/services/valuation_engine.py:94-108 | without reported shares, market cap equals price times shares whenever the price is positive or no cap is reported |
| InputAdapter.MarketCapFallbackInconsistent | backend/app/services/valuation_engine.py:94-108 | with a reported cap but no positive price and no shares, the one-million fallback makes price × shares disagree with the cap |
| InputAdapter.TtmRevenue | backend/app/services/valuation_engine.py:116-119 | TTM revenue is the reported figure, and zero when it is missing or zero |
| InputAdapter.TtmGrossProfit | backend/app/services/valuation_engine.py:136-147 | gross profit is the reported one; without revenue it is zero; derived from cost of revenue, the two add up to revenue |
| InputAdapter.TtmCostOfRevenue | backend/app/services/valuation_engine.py:122-133 | cost of revenue is the reported one; without revenue it is zero; derived from a positive gross profit, the two add up to revenue |
| InputAdapter.CostAndGrossProfitSplitRevenue | backend/app/services/valuation_engine.py:122-147 | whenever cost of revenue is derived from a gross profit or margin, derived cost and gross profit add up to revenue |
| InputAdapter.TtmOperatingIncome | backend/app/services/valuation_engine.py:159-161 | TTM operating income is the reported figure, and zero when it is missing or zero |
| InputAdapter.TtmEbitda | backend/app/services/valuation_engine.py:167-169 | TTM EBITDA is the reported figure, and zero when it is missing or zero |
| InputAdapter.TtmOperatingExpenses | backend/app/services/valuation_engine.py:150-157 | operating expenses are reported, else gross profit less operating income when both are positive, else zero |
| InputAdapter.TtmFreeCashFlow | backend/app/services/valuation_engine.py:185-191 | FCF is the reported one, else operating cash flow less the magnitude of capex (never above operating cash flow), else zero |
| InputAdapter.FreeCashFlowAgreesWithFcf | backend/app/services/valuation_engine.py:185-191 | with non-zero operating cash flow and reported capex, the adapter's FCF agrees with the model's `fcf` property |
| InputAdapter.FreeCashFlowZeroOperating | backend/app/services/valuation_engine.py:185-191 | with zero operating cash flow and non-zero capex the adapter reports zero FCF while the model's `fcf` property is negative |
| InputAdapter.TotalCash | backend/app/services/valuation_engine.py:194-196 | total cash is the reported figure, and zero when it is missing or zero |
| InputAdapter.TotalDebt | backend/app/services/valuation_engine.py:198-200 | total debt is the reported figure, and zero when it is missing or zero |
| InputAdapter.EnterpriseValue | backend/app/services/valuation_engine.py:111-114 | enterprise value is the reported one, else market cap plus debt less cash |
| InputAdapter.ShareholdersEquity | backend/app/services/valuation_engine.py:211-214 | equity is the reported one, else assets less liabilities |
| InputAdapter.NetDebt | backend/app/services/valuation_engine.py:226-229 | net debt is the reported one, else debt less cash |
| InputAdapter.EnterpriseValueFromNetDebt | backend/app/services/valuation_engine.py:111-114 | without reported enterprise value or net debt, enterprise value is market cap plus net debt |
| InputAdapter.WorkingCapital | backend/app/services/valuation_engine.py:232-235 | working capital is the reported one, else current assets less current liabilities |
| InputAdapter.InvestedCapital | backend/app/services/valuation_engine.py:238-241 | invested capital is the reported one, else equity plus debt less cash |
| InputAdapter.InvestedCapitalFromNetDebt | backend/app/services/valuation_engine.py:238-241 | without reported invested capital or net debt, invested capital is equity plus net debt |
| InputAdapter.GrossMargin | backend/app/services/valuation_engine.py:245-250 | the margin is the reported one, else a positive ratio that restores gross profit from revenue, else zero |
| InputAdapter.OperatingMargin | backend/app/services/valuation_engine.py:253-258 | the margin is the reported one, else the ratio that restores operating income from positive revenue, else zero |
| InputAdapter.Roic | backend/app/services/valuation_engine.py:273-274 | ROIC is the reported one unless missing or zero, then 10% |
| InputAdapter.DebtToEquity | backend/app/services/valuation_engine.py:278-283 | the ratio is the reported one, else the ratio restoring debt from positive equity, else zero |
| InputAdapter.CurrentRatio | backend/app/services/valuation_engine.py:291-296 | the ratio is the reported one, else the ratio restoring current assets from positive current liabilities, else zero |
| InputAdapter.RevenueGrowth5yCagr | backend/app/services/valuation_engine.py:325-337 | the reported CAGR wins; else, with five usable history rows, one plus the CAGR raised to the fifth restores the revenue ratio, and a negative ratio is a TypeError; else the 1-year growth or 5% |
| InputAdapter.FifthRootUnique | backend/app/services/valuation_engine.py:335 | the non-negative fifth root is unique, so the CAGR does not depend on how the root is taken |
| InputAdapter.NormalizeName | backend/app/services/valuation_engine.py:391 | the normalised name is no longer than the field name and holds no underscore |
| InputAdapter.Calculable | backend/app/services/valuation_engine.py:376-386 | each income field counts as calculable exactly when the adapter derives a positive value for it |
| InputAdapter.MissingFields | backend/app/services/valuation_engine.py:371-394 | a field is truly missing exactly when the extraction reports it missing and it is not calculable under name normalisation |
| InputAdapter.EstimatedFields | backend/app/services/valuation_engine.py:397-409 | the reported estimated fields come first, followed by at most three additions, and there are none exactly when no unreported income field was derived positive |
| InputAdapter.View | backend/app/services/valuation_engine.py:1401-1407 | the adapter gives the engine a view exactly unless the CAGR fallback meets a negative revenue ratio; the view carries the adapter's price, cap, ROIC, rates and history, and never a 10-year earnings CAGR |
| FlexibleInput.DefaultRiskParameters | backend/app/models/flexible_input.py:165-170 | risk parameters default to no beta and a 4.5% risk-free rate |
| FlexibleInput.NormalizeTicker | backend/app/models/flexible_input.py:249-252 | the ticker is the upper-cased input stripped, which equals the stripped input upper-cased |
| FlexibleInput.NormalizeTickerIdempotent | backend/app/models/flexible_input.py:249-252 | normalising a normalised ticker changes nothing |
| FlexibleInput.NewerOrSameTotalPreorder | backend/app/models/flexible_input.py:254-257 | ordering by fiscal year is a total preorder, as a sort key requires |
| FlexibleInput.SortHistorical | backend/app/models/flexible_input.py:254-257 | sorting history is a permutation that puts the newest fiscal year first |
| FlexibleInput.SortHistoricalStable | backend/app/models/flexible_input.py:254-257 | rows of the same fiscal year keep the order they were given in, since `sorted` is stable |
| FlexibleInput.Create | backend/app/models/flexible_input.py:216-257 | construction succeeds exactly when the confidence score lies in [0, 1]; it normalises the ticker, sorts the history newest first as a permutation, and changes nothing else |
| FlexibleInput.Fcf | backend/app/models/flexible_input.py:279-287 | FCF is the reported one, else exists exactly when operating cash flow and capex are reported, and is operating cash flow less the magnitude of capex |
| FlexibleInput.HasDcfDataIffFcf | backend/app/models/flexible_input.py:261-287 | the DCF-data check holds exactly when an FCF can be produced |
| FlexibleInput.BookValuePerShare | backend/app/models/flexible_input.py:289-296 | book value per share exists exactly when equity and a positive share count are reported, and times the shares restores equity |
| FlexibleInput.BookValueNeedsGrahamData | backend/app/models/flexible_input.py:270-296 | a reported EPS together with a book value per share means the Graham-data check holds |
| FlexibleInput.GetGrowthRate | backend/app/models/flexible_input.py:298-308 | growth for 1, 3, 5 and 10 years is the matching reported rate, and nothing for any other horizon |
| ValuationInput.ValidateTicker | backend/app/models/valuation_input.py:570-574 | the ticker is the stripped input upper-cased, never longer than the input |
| ValuationInput.ValidateTickerIdempotent | backend/app/models/valuation_input.py:570-574 | validating a validated ticker changes nothing |
| ValuationInput.NewerOrSameTotalPreorder | backend/app/models/valuation_input.py:576-583 | ordering by fiscal year is a total preorder, as a sort key requires |
| ValuationInput.ValidateHistoricalOrder | backend/app/models/valuation_input.py:576-583 | the validated history is a permutation of the given one, newest first |
| ValuationInput.ValidateHistoricalOrderStable | backend/app/models/valuation_input.py:576-583 | rows of the same fiscal year keep the order they were given in, since `sorted` is stable |
| ValuationInput.HistoryValidPermutation | backend/app/models/valuation_input.py:33-38 | whether history rows are valid does not depend on their order |
| ValuationInput.FirstInvalidBalanceSheetField | backend/app/models/valuation_input.py:245-324 | no balance-sheet field is flagged exactly when every `ge=0` bound there holds (an absent optional figure passes) and total assets are positive |
| ValuationInput.FirstInvalidRiskField | backend/app/models/valuation_input.py:509-547 | no risk or dividend field is flagged exactly when the risk-free rate is in [0, 0.20], the equity risk premium in [0.01, 0.15], and each given dividend figure and dividend-growth year count is non-negative |
| ValuationInput.FirstInvalidFieldNone | backend/app/models/valuation_input.py:93-583 | no field fails exactly when the stripped ticker has 1 to 10 characters, the company name is not blank, every numeric bound of the model holds and every history row is valid |
| ValuationInput.StripAll | backend/app/models/valuation_input.py:110-114 | every item of a list-of-strings field is its stripped self, in the same positions |
| ValuationInput.Create | backend/app/models/valuation_input.py:93-583 | the input validates exactly when no field fails, reporting the first failing field otherwise; on success it is valid, the ticker is normalised, the name, sector, industry and list items stripped, history reordered as a permutation, and nothing else changes |
| ValuationInput.ToEngineInput | backend/app/models/valuation_input.py:93-568 | the engine sees the record's rates, beta, price, cap, debt and every history year with its EPS |
| ValuationInput.CapitalWeightsUnclamped | backend/app/models/valuation_input.py:158-162 | for a valid record the WACC weights are the plain market-cap and debt shares, since validation rules out the clamping |
| ValuationInput.StandardDcfSucceeds | backend/app/models/valuation_input.py:148-162 | for a valid record with a non-negative beta the DCF cannot fail |
| ValuationOutput.VerdictRank | backend/app/models/valuation_output.py:21-37 | the five verdicts have five ranks |
| ValuationOutput.VerdictsDistinct | backend/app/models/valuation_output.py:33-37 | distinct verdicts have distinct ranks and distinct string values |
| ValuationOutput.MakeScenario | backend/app/models/valuation_output.py:86-148 | a scenario validates exactly when it has 3 to 10 projection years and a positive price, and is then unchanged; the projection-year error is reported first |
| ValuationOutput.DefaultWeightsDistribution | backend/app/models/valuation_output.py:248-255 | the default scenario weights form a distribution, symmetric in the outer scenarios and heaviest on the base case |
| ValuationOutput.MakeGrahamNumber | backend/app/models/valuation_output.py:314-323 | a Graham result validates exactly when its number is non-negative and its price positive, and is then unchanged |
| ValuationOutput.StripRiskFactors | backend/app/models/valuation_output.py:490-494 | every anomaly text among the risk factors is replaced by its strip and keeps its place; every other risk factor is kept as it is |
| ValuationOutput.StripRiskFactorsIdempotent | backend/app/models/valuation_output.py:490-494 | stripping the risk factors twice gives the same list as stripping them once |
| ValuationOutput.MakeResult | backend/app/models/valuation_output.py:490-589 | a result validates exactly when its bounds hold, with ticker, company name and each anomaly text in the risk factors stripped; a non-positive price is always a validation error |
| Dependencies.ValidateTickerFormat | backend/app/dependencies.py:25-49 | a ticker is accepted exactly when its stripped form matches the symbol pattern, and is returned upper-cased; a blank ticker is the empty-ticker error |
| Dependencies.UpperKeepsPattern | backend/app/dependencies.py:22 | upper-casing keeps a symbol inside the pattern |
| Dependencies.AcceptedIsUpper | backend/app/dependencies.py:43-49 | an accepted symbol contains no lower-case letter |
| Dependencies.ValidateTickerFormatIdempotent | backend/app/dependencies.py:25-49 | validating an accepted symbol again returns it unchanged |
| Dependencies.VerifyTickerExists | backend/app/dependencies.py:128-134 | a ticker exists exactly when its upper-cased form is available, and the not-found error names that form |
| Dependencies.VerifyTickerExistsCaseInsensitive | backend/app/dependencies.py:128-134 | the case of the queried ticker does not matter |
| Config.StrippedNonEmpty | backend/app/config.py:126 | the kept pieces are non-empty and already stripped, and there are no more of them than the parts |
| Config.StrippedNonEmptyMembership | backend/app/config.py:126 | an origin is kept exactly when it is the stripped form of a part that is not blank |
| Config.SplitOrigins | backend/app/config.py:126 | the comma branch yields non-empty stripped origins, at most one per comma-separated part |
| Config.ParseCorsOrigins | backend/app/config.py:114-127 | a list passes through; a bracketed string is its JSON decoding when that succeeds, and every other string goes through the comma branch |
| Config.SplitOriginsJoin | backend/app/config.py:126 | splitting plain origins joined with commas gives them back |
| Config.StrippedNonEmptyPlain | backend/app/config.py:126 | plain origins pass the strip-and-drop step unchanged |
| Config.SingleOrigin | backend/app/config.py:126 | a string without commas is one origin, stripped |
| DataLoader.SanitizeCell | backend/app/core/data_loader.py:68-79 | non-finite floats become null, a debt-to-equity number is divided by 100, and every other cell is unchanged |
| DataLoader.SanitizeRecord | backend/app/core/data_loader.py:68-79 | sanitising keeps the record's keys and sanitises each cell; a text debt-to-equity is a TypeError |
| DataLoader.SanitizeRecordAgain | backend/app/core/data_loader.py:68-79 | a sanitised record holds no non-finite value, and sanitising it again changes nothing but debt-to-equity |
| DataLoader.DebtToEquityRoundTrip | backend/app/core/data_loader.py:73-76 | the sanitised debt-to-equity times 100 restores the percentage |
| DataLoader.ScanStop | backend/app/core/data_loader.py:197-202 | the scan stops at the first record that matches or whose ticker is not text, or at the end |
| DataLoader.ScanStopPassed | backend/app/core/data_loader.py:197-202 | every record before the stop has a text ticker that does not match |
| DataLoader.GetStockByTicker | backend/app/core/data_loader.py:197-202 | lookup returns the first matching record, nothing when the scan finds none, and an AttributeError when it first meets a non-text ticker |
| DataLoader.GetStockByTickerFirst | backend/app/core/data_loader.py:197-202 | when lookup succeeds and some record matches, a record is found no later than that one |
| DataLoader.GetStockByTickerNone | backend/app/core/data_loader.py:197-202 | with text tickers throughout, lookup succeeds and finds nothing exactly when no record matches, ignoring case |
| DataLoader.InsertUnique | backend/app/core/data_loader.py:223-229 | adding to a strictly ascending list keeps it strictly ascending and adds exactly the new value |
| DataLoader.SortedUnique | backend/app/core/data_loader.py:223-229 | `sorted(set(xs))` is strictly ascending and has exactly the values of xs |
| DataLoader.StrictlyAscendingUnique | backend/app/core/data_loader.py:223-229 | a strictly ascending list is determined by its values |
| DataLoader.TruthyCells | backend/app/core/data_loader.py:223-227 | the collected cells are exactly the truthy values of the column |
| DataLoader.UniqueValues | backend/app/core/data_loader.py:223-229 | the result is strictly ascending and holds exactly the non-empty texts of the column; a truthy non-text cell is a TypeError |
| DataLoader.UniqueSectors | backend/app/core/data_loader.py:223-229 | the sectors are strictly ascending and exactly the non-empty sector texts |
| DataLoader.UniqueIndustries | backend/app/core/data_loader.py:250-256 | the industries are strictly ascending and exactly the non-empty industry texts |
| DataLoader.UniqueValuesOrderFree | backend/app/core/data_loader.py:223-229 | the unique list does not depend on the order of the records |
| Screener.Attr | backend/app/api/v1/endpoints/screener.py:205 | a numeric attribute is the stored number or nothing, and only text fields hold text |
| Screener.ApplyFilters | backend/app/api/v1/endpoints/screener.py:129-181 | filtering never adds stocks |
| Screener.PassesAllSelected | backend/app/api/v1/endpoints/screener.py:129-181 | passing all seven filter stages is the one selection predicate |
| Screener.ApplyFiltersIsSelection | backend/app/api/v1/endpoints/screener.py:129-181 | the filtered list keeps the input's order, and a stock survives exactly when it matches sector, industry, search and the market-cap and P/E bounds |
| Screener.KeyOf | backend/app/api/v1/endpoints/screener.py:204-209 | a present value keys as (0, value); a missing one as (1, 0) descending and (0, 0) ascending |
| Screener.KeyLeTotalPreorder | backend/app/api/v1/endpoints/screener.py:204-212 | comparing sort keys is total and transitive |
| Screener.StockLe | backend/app/api/v1/endpoints/screener.py:204-212 | the stock ordering in each direction is a total preorder |
| Screener.GetStocks | backend/app/api/v1/endpoints/screener.py:46-224 | a negative `min_market_cap` or `max_market_cap` is HTTP 422 before anything else; then an unknown sort column is HTTP 400 and incomparable keys a TypeError, each exactly when it happens; otherwise the list is a permutation of the filtered stocks, unsorted without a sort column and sorted by the key with one, and the total is its length |
| Screener.GetStocksStable | backend/app/api/v1/endpoints/screener.py:204-212 | stocks whose sort keys tie keep the order the filters left them in |
| Screener.DescendingNoneFirst | backend/app/api/v1/endpoints/screener.py:204-212 | sorting descending, every stock before one without the value also lacks it |
| Screener.AscendingNoneAsZero | backend/app/api/v1/endpoints/screener.py:204-212 | sorting a numeric column ascending, a missing value sits where zero would |
| Screener.AscendingTextWithNoneRaises | backend/app/api/v1/endpoints/screener.py:204-212 | sorting a text column ascending with a missing and a present value is a TypeError, unless a negative market-cap bound has already been rejected with 422 |
| Screener.NumericSortSucceeds | backend/app/api/v1/endpoints/screener.py:204-212 | sorting by a numeric column succeeds exactly when the market-cap bounds are not negative |
| AiExtractor.Unfence | backend/app/services/ai_extractor.py:401-408 | removing the fences never lengthens the text |
| AiExtractor.CleanResponse | backend/app/services/ai_extractor.py:398-410 | the cleaned reply is stripped and no longer than the reply |
| AiExtractor.UnfenceJsonBlock | backend/app/services/ai_extractor.py:401-408 | a "```json … ```" block unfences to its inner text |
| AiExtractor.CleanFenced | backend/app/services/ai_extractor.py:398-410 | a fenced JSON block surrounded by any whitespace cleans to exactly its body |
| AiExtractor.CleanUnfenced | backend/app/services/ai_extractor.py:398-410 | a stripped reply without fences cleans to itself |
| AiExtractor.SliceJsonObject | backend/app/services/ai_extractor.py:412-421 | slicing fails with InvalidResponse exactly when no '{' precedes a '}', else it is the widest span from the first '{' to the last '}' |
| AiExtractor.SliceWidest | backend/app/services/ai_extractor.py:412-421 | when a span is the widest brace span, slicing returns exactly it |
| AiExtractor.SliceEmbedded | backend/app/services/ai_extractor.py:412-421 | an object surrounded by text without braces on the wrong side is sliced out exactly |
| AiExtractor.ExtractJsonText | backend/app/services/ai_extractor.py:398-421 | the extracted text is brace-delimited, and extraction fails exactly when the cleaned reply has no object span |
| AiExtractor.ExtractFencedObject | backend/app/services/ai_extractor.py:398-421 | a fenced object padded with whitespace is extracted exactly |
| AiExtractor.Lookup | backend/app/services/ai_extractor.py:184-282 | a key is found exactly when the dict has it, with a value stored under it |
| AiExtractor.GetOr | backend/app/services/ai_extractor.py:178-180 | `get` returns the stored value, or the default when the key is absent |
| AiExtractor.LookupDistinct | backend/app/services/ai_extractor.py:184-282 | in a dict, whose keys are distinct, the lookup finds the value stored under the key |
| AiExtractor.LookupAppend | backend/app/services/ai_extractor.py:177-284 | looking up in a concatenation finds the first part's entry when it has the key, else the second's |
| AiExtractor.Descending | backend/app/services/ai_extractor.py:213 | `reverse=True` orders keys by flipped code-point order, a total preorder |
| AiExtractor.LatestKeys | backend/app/services/ai_extractor.py:213 | the kept keys are at most n of the dict's own keys, and all of them when fewer |
| AiExtractor.Window | backend/app/services/ai_extractor.py:213-216 | the window has min(n, size) entries, each a key of the dict with its own value |
| AiExtractor.Pick | backend/app/services/ai_extractor.py:214-216 | the comprehension pairs each chosen key with its value, in the chosen order |
| AiExtractor.WindowKeepsLatest | backend/app/services/ai_extractor.py:213-216 | the window's keys are newest first, and no dropped key is newer than a kept one |
| AiExtractor.WindowDistinct | backend/app/services/ai_extractor.py:213-216 | a window of a dict has no repeated key |
| AiExtractor.WindowKeepsAll | backend/app/services/ai_extractor.py:213-216 | a window at least as large as the dict keeps every key |
| AiExtractor.In | backend/app/services/ai_extractor.py:210 | `in` on a dict tests its keys, and on anything but a dict, list or string it is a TypeError |
| AiExtractor.Index | backend/app/services/ai_extractor.py:211 | subscripting succeeds exactly on a dict holding the key, giving its value |
| AiExtractor.WindowOf | backend/app/services/ai_extractor.py:220-225 | trimming a value succeeds exactly on a dict, giving its window |
| AiExtractor.Remove | backend/app/services/ai_extractor.py:187 | after `pop` the key is gone |
| AiExtractor.RemoveLookup | backend/app/services/ai_extractor.py:187 | `pop` removes only its key; every other lookup is unchanged |
| AiExtractor.CompanyInfo | backend/app/services/ai_extractor.py:184-188 | company info is kept exactly when it is a dict; a list fails at `pop` (TypeError) and anything else at `copy` (AttributeError) |
| AiExtractor.CompanyInfoDropsOfficers | backend/app/services/ai_extractor.py:184-188 | the kept company info is the original without officers |
| AiExtractor.Shareholders | backend/app/services/ai_extractor.py:199-204 | the kept shareholders section holds exactly the two share counts, each the original's or null |
| AiExtractor.Replace | backend/app/services/ai_extractor.py:214 | assigning an existing key keeps the dict's keys and their order |
| AiExtractor.ReplaceLookup | backend/app/services/ai_extractor.py:214 | assigning an existing key changes only that key's value |
| AiExtractor.CalculatedMetricsKeepsOthers | backend/app/services/ai_extractor.py:207-217 | on a dict, only `historical` changes, keeping its five latest years; it fails exactly when `historical` is not a dict |
| AiExtractor.YahooStep | backend/app/services/ai_extractor.py:233-282 | each statement kind writes at most one entry, under its output name |
| AiExtractor.Found | backend/app/services/ai_extractor.py:233-282 | a present statement kind writes exactly one entry under its output name |
| AiExtractor.YahooStepOnDict | backend/app/services/ai_extractor.py:264-272 | a kind is skipped when its chosen key is absent, else is the chosen value's window, and fails when that value is not a dict |
| AiExtractor.YahooFold | backend/app/services/ai_extractor.py:228-282 | the trimmed Yahoo section has at most one entry per statement kind |
| AiExtractor.Yahoo | backend/app/services/ai_extractor.py:228-282 | a trimmed Yahoo section is a dict |
| AiExtractor.YahooFoldKeys | backend/app/services/ai_extractor.py:228-282 | the trimmed section writes only the statement kinds' output names |
| AiExtractor.YahooFoldLookup | backend/app/services/ai_extractor.py:228-282 | each output name holds exactly what its statement kind contributed |
| AiExtractor.YahooOutputsDistinct | backend/app/services/ai_extractor.py:236-280 | the six statement kinds write six different keys |
| AiExtractor.YahooOnDict | backend/app/services/ai_extractor.py:228-282 | each kind is absent when its chosen key is, else the window of the chosen statement (8, 5, 4, 5, 8 and 5 periods), preferring the `cash_flow_*` name and writing the `cash_flow_statement_*` one |
| AiExtractor.Reduce | backend/app/services/ai_extractor.py:183-282 | sections other than the trimmed ones are kept as they are |
| AiExtractor.Header | backend/app/services/ai_extractor.py:177-181 | the truncated document starts with ticker, company name and collection time |
| AiExtractor.TruncateJson | backend/app/services/ai_extractor.py:154-284 | the truncated document starts with its three header entries |
| AiExtractor.ReduceSectionsKeys | backend/app/services/ai_extractor.py:183-282 | the reduced sections are the listed ones the document holds, in the listed order |
| AiExtractor.ReduceSectionsFailure | backend/app/services/ai_extractor.py:183-282 | reducing fails exactly when some held section fails to reduce |
| AiExtractor.ReduceSectionsLookup | backend/app/services/ai_extractor.py:183-282 | each held listed section maps to its reduction, and nothing else appears |
| AiExtractor.TruncateJsonKeys | backend/app/services/ai_extractor.py:154-284 | the truncated keys are the header followed by the kept sections the document holds, in the code's order, with no repeats |
| AiExtractor.SectionsKeptDistinct | backend/app/services/ai_extractor.py:177-282 | header keys and kept section names never repeat |
| AiExtractor.TruncateJsonSections | backend/app/services/ai_extractor.py:183-282 | every non-header key of the truncated document is a held section in reduced form, and nothing else |
| AiExtractor.TruncateJsonFailure | backend/app/services/ai_extractor.py:154-284 | truncation fails exactly when some held section fails to reduce |

## Left out

- Caching, the async flow, the engine and extractor singletons, locking, and logging. These do not affect any computed value.
- The AI calls, the Gemini rate limiter, HTTP routing and the network. The extraction that produces a `FlexibleValuationInput` is the model's input.
- The current time (`calculation_timestamp`, `extraction_timestamp`). Timestamps are not modelled.
- `_generate_key_assumptions` and every message text: formatting only. A risk factor is modelled by its kind and the value it reports, not its wording. The composite methodology string is modelled as a two-valued enumeration.
- The `ValuationError` wrapping of any failure inside `calculate_valuation`. Failures are reported with their original error.
- Pydantic's error aggregation. A failed validation reports the first failing field only.
- Pydantic's `str_strip_whitespace`, which strips with Unicode `White_Space`. The model strips with Python's `isspace` set; the two differ on U+001C–U+001F.
- Unicode case mapping. `upper()` and `lower()` are modelled on ASCII letters only.
- Floating point. All arithmetic is exact real arithmetic, so rounding, infinities and NaN inputs to the engine are not modelled; the CSV loader's NaN and infinity cells are modelled as one non-finite cell kind.
- `math.sqrt` and `** (1/5)`: taken as parameters constrained by their defining equations. Python's complex result for a negative base is modelled by the `TypeError` that the engine's later comparison raises.
- Adapter accessors the engine never reads, such as `net_margin`, `roe`, `roa`, forward P/E and EV/EBITDA. They are plain reads with a default.
- CostOfCapital.CalculateWacc: the contract does not repeat the after-tax cost of debt or the WACC products. It states their bounds and the all-equity and all-debt cases; the formulas are the body.
- Dcf.ScenarioFigures: states only the year count and price. The projected figures are stated by `Dcf.Valuate`, `Dcf.ValuateEnterprise` and `Dcf.ValuatePerShare`.
- Dcf.Project: states only the series lengths. The entries are stated by `Dcf.ProjectEntry`, `Dcf.ProjectDerived` and `Dcf.ProjectRecurrence`.
- ValuationOutput.MakeResult: strips anomaly texts only. The other risk factors are modelled by kind, and their messages are fixed text around a figure. The one exception is the missing-data message, which ends with a field name; the model does not represent stripping that name's trailing whitespace. Such whitespace cannot occur: standard-path field names are already stripped, and flexible-path names are fixed identifiers. The only case left unrepresented is an empty last listed field name, whose message ends in ", " that the source would strip to ",".
- Screener.GetStocks: its own contract states a sorted permutation of the filtered stocks. Stability is stated separately by `Screener.GetStocksStable`.
- The screener's `StockSummary.model_validate` step, which drops invalid rows. The model takes the validated stocks as its input.
- `get_column_names` and the list of available tickers are parameters. Reading them from disk is I/O.
- `json.loads` after slicing, `_fix_json`, and the pydantic validation of the extracted object. JSON decoding in `parse_cors_origins` is a decoder parameter.
- AiExtractor.Lookup: a JSON object is an association list, and the lookup returns the first entry for a key. The input to `truncate_json` is a Python dict, so its keys are distinct and the first entry is the only one (`AiExtractor.LookupDistinct`). A list with a repeated key is not a dict. `json.loads` would keep the last value for such a key, and the model does not represent that case.
- DataLoader.UniqueValues: a truthy non-text cell in the column is reported as a `TypeError`. The real `sorted` succeeds when all such cells are mutually comparable numbers; the CSV loader never produces such a column.
- ValuationInput.Create: the record keeps the fields that carry a bound or a validator, `sector`, `industry`, the string lists, and the figures the engine reads. The other fields of `StandardizedValuationInput` (for example `ttm_net_income`, `retained_earnings`, the margins, returns, turnovers and growth rates) have no bound, so in a typed record they cannot make validation fail; they are left out.
- ValuationInput.Create: parsing of `extraction_timestamp` and `extra="forbid"` are not modelled. A typed record always holds a timestamp and has no extra keys, so the model cannot express either failure.
- ValuationInput.FirstInvalidFieldNone: covers every `ge`, `gt`, `le` and length bound of the model, but not the timestamp parsing or `extra="forbid"` failures named above.
- ValuationInput.HistoricalFinancials keeps `fiscal_year` (the only bounded field) and the revenue, net income and EPS the engine reads. The other required per-year figures carry no bound and are left out.
- The CSV reading, column renaming and NaN replacement done by pandas before `sanitize_record`.

=== FILE: ai_extractor.dfy ===
/** The pure steps around the extraction call to the language model:
    `_parse_response` cleaning the reply down to its `{...}` span, and
    `truncate_json` cutting the stock document down to the sections and the
    most recent periods the prompt needs. */
module AiExtractor {
  import opened Wrappers
  import opened Errors
  import opened Strings
  import opened Sequences

  // ---------------------------------------------------------------------
  // Cleaning the reply
  // ---------------------------------------------------------------------

  const Fence: string := "```"
  const JsonFence: string := "```json"

  /** Drops a leading "```json" (or else a leading "```") and then a
      trailing "```". */
  function Unfence(s: string): (r: string)
    ensures |r| <= |s|
  {
    var body := if StartsWith(s, JsonFence) then s[|JsonFence|..]
                else if StartsWith(s, Fence) then s[|Fence|..]
                else s;
    if EndsWith(body, Fence) then body[..|body| - |Fence|] else body
  }

  /** The cleaning half of `_parse_response`: strip, take the fences off,
      strip again. */
  function CleanResponse(response: string): (r: string)
    ensures Strip(r) == r
    ensures |r| <= |response|
  {
    var closed := Unfence(Strip(response));
    StripIdempotent(closed);
    Strip(closed)
  }

  /** A JSON code block unfences to exactly what lies between its fences. */
  lemma UnfenceJsonBlock(inner: string)
    ensures Unfence(JsonFence + inner + Fence) == inner
  {
    var block := JsonFence + inner + Fence;
    assert block[..|JsonFence|] == JsonFence;
    var body := block[|JsonFence|..];
    assert body == inner + Fence;
    assert body[|body| - |Fence|..] == Fence;
    assert body[..|body| - |Fence|] == inner;
  }

  /** A reply fenced as a JSON code block, with any whitespace around the
      body and around the block, cleans to the body. */
  lemma CleanFenced(body: string, pad1: string, pad2: string, pad3: string, pad4: string)
    requires |body| > 0 && !IsSpace(body[0]) && !IsSpace(body[|body| - 1])
    requires AllSpace(pad1) && AllSpace(pad2) && AllSpace(pad3) && AllSpace(pad4)
    ensures CleanResponse(pad1 + JsonFence + pad2 + body + pad3 + Fence + pad4) == body
  {
    var inner := pad2 + body + pad3;
    var block := JsonFence + inner + Fence;
    var text := pad1 + JsonFence + pad2 + body + pad3 + Fence + pad4;
    assert text == pad1 + block + pad4;
    StripPadded(pad1, block, pad4);
    UnfenceJsonBlock(inner);
    StripPadded(pad2, body, pad3);
    CleanSteps(text, block, inner, body);
  }

  lemma CleanSteps(text: string, block: string, inner: string, body: string)
    requires Strip(text) == block && Unfence(block) == inner && Strip(inner) == body
    ensures CleanResponse(text) == body
  {
  }

  /** A reply that is already a stripped text without fences is kept as it
      is. */
  lemma CleanUnfenced(text: string)
    requires Strip(text) == text
    requires !StartsWith(text, Fence) && !EndsWith(text, Fence)
    ensures CleanResponse(text) == text
  {
    JsonFenceIsFence(text);
  }

  /** A "```json" opening is also a "```" opening. */
  lemma JsonFenceIsFence(text: string)
    ensures StartsWith(text, JsonFence) ==> StartsWith(text, Fence)
  {
    if StartsWith(text, JsonFence) {
      assert text[..|Fence|] == JsonFence[..|Fence|];
    }
  }

  // ---------------------------------------------------------------------
  // Slicing out the JSON object
  // ---------------------------------------------------------------------

  /** Opens with '{' and closes with '}'. */
  predicate BraceDelimited(s: string) {
    |s| >= 2 && s[0] == '{' && s[|s| - 1] == '}'
  }

  /** The text holds a '{' and, at or after the first one, a '}'. */
  predicate HasObjectSpan(text: string) {
    && '{' in text
    && '}' in text
    && Find(text, '{').value <= RFind(text, '}').value
  }

  /** `text[i..j]` runs from the first '{' of `text` to its last '}'. */
  predicate WidestBraceSpan(text: string, i: nat, j: nat) {
    && i < j <= |text|
    && text[i] == '{' && text[j - 1] == '}'
    && (forall k :: 0 <= k < i ==> text[k] != '{')
    && (forall k :: j <= k < |text| ==> text[k] != '}')
  }

  /** The slicing half of `_parse_response`: the widest `{...}` span, or
      `InvalidResponseError` when there is none. */
  function SliceJsonObject(text: string): (r: Result<string, Error>)
    ensures r.Failure? <==> !HasObjectSpan(text)
    ensures r.Failure? ==> r.error == InvalidResponse
    ensures r.Success? ==> BraceDelimited(r.value)
    ensures r.Success? ==> exists i: nat, j: nat :: WidestBraceSpan(text, i, j) && r.value == text[i..j]
  {
    match (Find(text, '{'), RFind(text, '}'))
    case (Some(start), Some(last)) =>
      if last + 1 <= start then Failure(InvalidResponse)
      else
        assert forall k :: 0 <= k < start ==> text[k] == text[..start][k];
        assert forall k :: last + 1 <= k < |text| ==> text[k] == text[last + 1..][k - last - 1];
        assert WidestBraceSpan(text, start, last + 1);
        Success(text[start..last + 1])
    case _ => Failure(InvalidResponse)
  }

  /** The widest span is what the slicing returns. */
  lemma SliceWidest(text: string, i: nat, j: nat)
    requires WidestBraceSpan(text, i, j)
    ensures SliceJsonObject(text) == Success(text[i..j])
  {
    assert Find(text, '{') == Some(i);
    assert RFind(text, '}') == Some(j - 1);
  }

  /** An object embedded in text with no '{' before it and no '}' after it
      is sliced out exactly. */
  lemma SliceEmbedded(before: string, obj: string, after: string)
    requires BraceDelimited(obj)
    requires '{' !in before && '}' !in after
    ensures SliceJsonObject(before + obj + after) == Success(obj)
  {
    var text := before + obj + after;
    var i, j := |before|, |before| + |obj|;
    EmbeddedIsWidest(before, obj, after);
    SliceWidest(text, i, j);
    assert text[i..j] == obj;
  }

  lemma EmbeddedIsWidest(before: string, obj: string, after: string)
    requires BraceDelimited(obj)
    requires '{' !in before && '}' !in after
    ensures WidestBraceSpan(before + obj + after, |before|, |before| + |obj|)
  {
    var text := before + obj + after;
    var i, j := |before|, |before| + |obj|;
    assert forall k :: 0 <= k < i ==> text[k] == before[k];
    assert forall k :: j <= k < |text| ==> text[k] == after[k - j];
  }

  /** Cleaning followed by slicing: the text `json.loads` is given. */
  function ExtractJsonText(response: string): (r: Result<string, Error>)
    ensures r.Failure? <==> !HasObjectSpan(CleanResponse(response))
    ensures r.Success? ==> BraceDelimited(r.value)
  {
    SliceJsonObject(CleanResponse(response))
  }

  /** The usual reply, a fenced JSON object with newlines around it, yields
      the object. */
  lemma ExtractFencedObject(obj: string, pad1: string, pad2: string, pad3: string, pad4: string)
    requires BraceDelimited(obj)
    requires AllSpace(pad1) && AllSpace(pad2) && AllSpace(pad3) && AllSpace(pad4)
    ensures ExtractJsonText(pad1 + JsonFence + pad2 + obj + pad3 + Fence + pad4) == Success(obj)
  {
    CleanFenced(obj, pad1, pad2, pad3, pad4);
    assert obj == [] + obj + [];
    SliceEmbedded([], obj, []);
  }

  // ---------------------------------------------------------------------
  // JSON documents
  // ---------------------------------------------------------------------

  /** A decoded JSON value. An object keeps its entries in insertion
      order, as a Python `dict` does. */
  datatype Json =
    | JNull
    | JBool(b: bool)
    | JNum(x: real)
    | JStr(s: string)
    | JArr(items: seq<Json>)
    | JObj(entries: seq<(string, Json)>)

  type Entries = seq<(string, Json)>

  function KeysOf(e: Entries): (r: seq<string>)
    ensures |r| == |e|
    ensures forall i :: 0 <= i < |e| ==> r[i] == e[i].0
  {
    seq(|e|, i requires 0 <= i < |e| => e[i].0)
  }

  predicate DistinctKeys(e: Entries) {
    Distinct(KeysOf(e))
  }

  /** `d[key]` when present: the value of the first entry with that key. */
  function Lookup(e: Entries, key: string): (r: Option<Json>)
    ensures r.None? <==> key !in KeysOf(e)
    ensures r.Some? ==> (key, r.value) in e
  {
    if |e| == 0 then None
    else
      assert KeysOf(e) == [e[0].0] + KeysOf(e[1..]);
      if e[0].0 == key then Some(e[0].1) else Lookup(e[1..], key)
  }

  /** In a dict every key is distinct, so the entry stored under a key is
      the one found: the first and the last entry for it coincide. */
  lemma LookupDistinct(e: Entries, key: string, v: Json)
    requires DistinctKeys(e) && (key, v) in e
    ensures Lookup(e, key) == Some(v)
  {}

  /** `d.get(key, default)`. */
  function GetOr(e: Entries, key: string, default: Json): (r: Json)
    ensures key in KeysOf(e) ==> Some(r) == Lookup(e, key)
    ensures key !in KeysOf(e) ==> r == default
  {
    match Lookup(e, key)
    case Some(v) => v
    case None => default
  }

  /** A lookup in a concatenation finds the first part's entry when there
      is one. */
  lemma {:induction false} LookupAppend(a: Entries, b: Entries, key: string)
    ensures Lookup(a + b, key) == if key in KeysOf(a) then Lookup(a, key) else Lookup(b, key)
  {
    if |a| > 0 {
      assert (a + b)[1..] == a[1..] + b;
      assert KeysOf(a) == [a[0].0] + KeysOf(a[1..]);
      LookupAppend(a[1..], b, key);
    } else {
      assert a + b == b;
    }
  }

  // ---------------------------------------------------------------------
  // The most recent periods
  // ---------------------------------------------------------------------

  /** `reverse=True` on strings: `<=` with its arguments swapped. */
  function Descending(): (le: (string, string) -> bool)
    ensures TotalPreorder(le)
    ensures forall a, b :: le(a, b) == LessEq(b, a)
  {
    LessEqTotalOrder();
    (a, b) => LessEq(b, a)
  }

  /** `sorted(d.keys(), reverse=True)[:n]`: the keys of the `n` latest
      periods, latest first (periods are named by dates, which sort as
      strings). */
  function LatestKeys(e: Entries, n: nat): (r: seq<string>)
    ensures |r| == if n < |e| then n else |e|
    ensures forall i :: 0 <= i < |r| ==> r[i] in KeysOf(e)
  {
    var sorted := Sort(KeysOf(e), Descending());
    var top := Take(sorted, n);
    assert forall i :: 0 <= i < |top| ==> top[i] in KeysOf(e) by {
      forall i | 0 <= i < |top|
        ensures top[i] in KeysOf(e)
      {
        assert top[i] in multiset(sorted);
      }
    }
    top
  }

  /** `{k: d[k] for k in sorted(d.keys(), reverse=True)[:n]}`. */
  function Window(e: Entries, n: nat): (r: Entries)
    ensures |r| == if n < |e| then n else |e|
    ensures forall i :: 0 <= i < |r| ==> Lookup(e, r[i].0) == Some(r[i].1)
  {
    Pick(e, LatestKeys(e, n))
  }

  /** `{k: d[k] for k in keys}`. */
  function Pick(e: Entries, keys: seq<string>): (r: Entries)
    requires forall i :: 0 <= i < |keys| ==> keys[i] in KeysOf(e)
    ensures |r| == |keys|
    ensures forall i :: 0 <= i < |r| ==> r[i].0 == keys[i] && Lookup(e, keys[i]) == Some(r[i].1)
  {
    if |keys| == 0 then []
    else [(keys[0], Lookup(e, keys[0]).value)] + Pick(e, keys[1..])
  }

  /** The window keeps the latest keys, latest first: every key it keeps
      is at least every key it drops, and the values are the document's. */
  lemma WindowKeepsLatest(e: Entries, n: nat)
    ensures forall i, j :: 0 <= i < j < |Window(e, n)| ==>
      LessEq(Window(e, n)[j].0, Window(e, n)[i].0)
    ensures forall i, k :: (0 <= i < |Window(e, n)| && k in KeysOf(e) && k !in KeysOf(Window(e, n))) ==>
      LessEq(k, Window(e, n)[i].0)
  {
    var w := Window(e, n);
    var sorted := Sort(KeysOf(e), Descending());
    assert forall i :: 0 <= i < |w| ==> w[i].0 == sorted[i];
    forall i, k | 0 <= i < |w| && k in KeysOf(e) && k !in KeysOf(w)
      ensures LessEq(k, w[i].0)
    {
      assert k in multiset(sorted);
      var p :| 0 <= p < |sorted| && sorted[p] == k;
      assert forall q :: 0 <= q < |w| ==> KeysOf(w)[q] == sorted[q];
    }
  }

  /** A window of a document without repeated keys has none either. */
  lemma WindowDistinct(e: Entries, n: nat)
    requires DistinctKeys(e)
    ensures DistinctKeys(Window(e, n))
  {
    var sorted := Sort(KeysOf(e), Descending());
    DistinctPermutation(KeysOf(e), sorted);
    assert KeysOf(Window(e, n)) == Take(sorted, n);
  }

  /** With room for every key, the window drops nothing. */
  lemma WindowKeepsAll(e: Entries, n: nat)
    requires DistinctKeys(e) && n >= |e|
    ensures forall k :: k in KeysOf(e) <==> k in KeysOf(Window(e, n))
  {
    var sorted := Sort(KeysOf(e), Descending());
    assert KeysOf(Window(e, n)) == sorted;
    forall k
      ensures k in KeysOf(e) <==> k in sorted
    {
      assert k in multiset(sorted) <==> k in multiset(KeysOf(e));
    }
  }

  // ---------------------------------------------------------------------
  // Python operations on a decoded value
  // ---------------------------------------------------------------------

  /** `key in v`: membership for a dict, element test for a list,
      substring test for a string, `TypeError` for anything else. */
  function In(v: Json, key: string): (r: Result<bool, Error>)
    ensures v.JObj? ==> r == Success(key in KeysOf(v.entries))
    ensures r.Failure? <==> !(v.JObj? || v.JArr? || v.JStr?)
  {
    match v
    case JObj(e) => Success(key in KeysOf(e))
    case JArr(items) => Success(JStr(key) in items)
    case JStr(text) => Success(Contains(text, key))
    case _ => Failure(TypeError)
  }

  /** `v[key]` with a string key: only a dict can be indexed so. */
  function Index(v: Json, key: string): (r: Result<Json, Error>)
    ensures r.Success? <==> v.JObj? && key in KeysOf(v.entries)
    ensures r.Success? ==> Some(r.value) == Lookup(v.entries, key)
  {
    match v
    case JObj(e) =>
      (match Lookup(e, key)
       case Some(x) => Success(x)
       case None => Failure(KeyError(key)))
    case _ => Failure(TypeError)
  }

  /** The window of a section that must be a dict (`.keys()` raises
      `AttributeError` on anything else). */
  function WindowOf(v: Json, n: nat): (r: Result<Json, Error>)
    ensures r.Success? <==> v.JObj?
    ensures r.Success? ==> r.value == JObj(Window(v.entries, n))
  {
    match v
    case JObj(e) => Success(JObj(Window(e, n)))
    case _ => Failure(AttributeError)
  }

  // ---------------------------------------------------------------------
  // The sections `truncate_json` keeps
  // ---------------------------------------------------------------------

  /** The entries of `e` under any key but `key` (`d.pop(key, None)`). */
  function Remove(e: Entries, key: string): (r: Entries)
    ensures key !in KeysOf(r)
  {
    Filter(e, (p: (string, Json)) => p.0 != key)
  }

  lemma {:induction false} RemoveLookup(e: Entries, key: string, k: string)
    ensures Lookup(Remove(e, key), k) == if k == key then None else Lookup(e, k)
  {
    if |e| > 0 {
      RemoveLookup(e[1..], key, k);
      var rest := Remove(e[1..], key);
      if e[0].0 != key {
        assert Remove(e, key) == [e[0]] + rest;
        assert ([e[0]] + rest)[1..] == rest;
      }
    }
  }

  /** `company_info` without its `officers` list. */
  function CompanyInfo(v: Json): (r: Result<Json, Error>)
    ensures r.Success? <==> v.JObj?
    ensures r.Failure? ==> r.error == (if v.JArr? then TypeError else AttributeError)
  {
    match v
    case JObj(e) => Success(JObj(Remove(e, "officers")))
    case JArr(_) => Failure(TypeError)
    case _ => Failure(AttributeError)
  }

  /** Only `officers` goes: every other key keeps its value. */
  lemma CompanyInfoDropsOfficers(e: Entries, k: string)
    ensures CompanyInfo(JObj(e)).Success?
    ensures Lookup(CompanyInfo(JObj(e)).value.entries, k) == if k == "officers" then None else Lookup(e, k)
  {
    RemoveLookup(e, "officers", k);
  }

  /** `shareholders` cut down to its two share counts, `None` (JSON
      `null`) where a count is missing. */
  function Shareholders(v: Json): (r: Result<Json, Error>)
    ensures r.Success? <==> v.JObj?
    ensures r.Success? ==> r.value.JObj? && KeysOf(r.value.entries) == ["shares_outstanding", "float_shares"]
    ensures r.Success? ==> forall k :: k in KeysOf(r.value.entries) ==>
      Lookup(r.value.entries, k) == Some(GetOr(v.entries, k, JNull))
  {
    match v
    case JObj(e) =>
      var counts := [("shares_outstanding", GetOr(e, "shares_outstanding", JNull)),
                     ("float_shares", GetOr(e, "float_shares", JNull))];
      assert KeysOf(counts) == ["shares_outstanding", "float_shares"];
      Success(JObj(counts))
    case _ => Failure(AttributeError)
  }

  /** `d[key] = x` for a key `d` already holds: the value changes in
      place. */
  function Replace(e: Entries, key: string, x: Json): (r: Entries)
    ensures KeysOf(r) == KeysOf(e)
  {
    if |e| == 0 then []
    else
      var r := [if e[0].0 == key then (key, x) else e[0]] + Replace(e[1..], key, x);
      assert KeysOf(r) == [e[0].0] + KeysOf(e[1..]) == KeysOf(e);
      r
  }

  lemma {:induction false} ReplaceLookup(e: Entries, key: string, x: Json, k: string)
    ensures Lookup(Replace(e, key, x), k) ==
      if k == key && Lookup(e, key).Some? then Some(x) else Lookup(e, k)
  {
    if |e| > 0 {
      var h := if e[0].0 == key then (key, x) else e[0];
      assert Replace(e, key, x) == [h] + Replace(e[1..], key, x);
      assert e == [e[0]] + e[1..];
      LookupCons(h, Replace(e[1..], key, x), k);
      LookupCons(e[0], e[1..], k);
      LookupCons(e[0], e[1..], key);
      ReplaceLookup(e[1..], key, x, k);
    }
  }

  /** Looking up in a dict with a leading entry. */
  lemma LookupCons(h: (string, Json), t: Entries, k: string)
    ensures Lookup([h] + t, k) == if h.0 == k then Some(h.1) else Lookup(t, k)
  {
    assert ([h] + t)[1..] == t;
  }

  /** `calculated_metrics` with its `historical` map cut to five years. */
  function CalculatedMetrics(v: Json): (r: Result<Json, Error>)
  {
    match v
    case JObj(e) =>
      if "historical" in KeysOf(e) then
        var historical :- WindowOf(Lookup(e, "historical").value, 5);
        Success(JObj(Replace(e, "historical", historical)))
      else Success(v)
    case JArr(items) =>
      if JStr("historical") in items then Failure(TypeError) else Success(v)
    case _ => Failure(AttributeError)
  }

  /** On a dict, only `historical` changes, and it keeps its five latest
      years; the dict fails only when `historical` is not itself a dict. */
  lemma CalculatedMetricsKeepsOthers(e: Entries, k: string)
    ensures CalculatedMetrics(JObj(e)).Failure? <==>
      ("historical" in KeysOf(e) && !Lookup(e, "historical").value.JObj?)
    ensures CalculatedMetrics(JObj(e)).Success? ==>
      && CalculatedMetrics(JObj(e)).value.JObj?
      && KeysOf(CalculatedMetrics(JObj(e)).value.entries) == KeysOf(e)
      && Lookup(CalculatedMetrics(JObj(e)).value.entries, k) ==
           if k == "historical" && k in KeysOf(e)
           then Some(JObj(Window(Lookup(e, k).value.entries, 5)))
           else Lookup(e, k)
  {
    if "historical" in KeysOf(e) && Lookup(e, "historical").value.JObj? {
      ReplaceLookup(e, "historical", JObj(Window(Lookup(e, "historical").value.entries, 5)), k);
    }
  }

  /** One part of `yahoo_financials`: the key to read (`preferred` when
      present, else `fallback`), the key to write, and how many periods to
      keep. */
  datatype YahooPart = YahooPart(preferred: string, fallback: string, output: string, keep: nat)

  function Fixed(key: string, keep: nat): YahooPart {
    YahooPart(key, key, key, keep)
  }

  /** Eight and five income statements, four and five balance sheets,
      eight and five cash-flow statements; the cash-flow parts accept both
      names and write the `cash_flow_statement_*` one. */
  const YahooParts: seq<YahooPart> := [
    Fixed("income_statement_quarterly", 8),
    Fixed("income_statement_annual", 5),
    Fixed("balance_sheet_quarterly", 4),
    Fixed("balance_sheet_annual", 5),
    YahooPart("cash_flow_quarterly", "cash_flow_statement_quarterly", "cash_flow_statement_quarterly", 8),
    YahooPart("cash_flow_annual", "cash_flow_statement_annual", "cash_flow_statement_annual", 5)
  ]

  /** One part: nothing when the key is absent, else its window. */
  function YahooStep(y: Json, part: YahooPart): (r: Result<Entries, Error>)
    ensures r.Success? ==> |r.value| <= 1
    ensures r.Success? && |r.value| == 1 ==> r.value[0].0 == part.output
  {
    var hasPreferred :- In(y, part.preferred);
    if hasPreferred then Found(y, part.preferred, part)
    else
      match In(y, part.fallback)
      case Failure(err) => Failure(err)
      case Success(present) => if present then Found(y, part.fallback, part) else Success([])
  }

  /** A part whose key is present: the window of its value. */
  function Found(y: Json, key: string, part: YahooPart): (r: Result<Entries, Error>)
    ensures r.Success? ==> |r.value| == 1 && r.value[0].0 == part.output
  {
    var section :- Index(y, key);
    var window :- WindowOf(section, part.keep);
    Success([(part.output, window)])
  }

  /** The key a part reads from a dict. */
  function Chosen(e: Entries, part: YahooPart): string {
    if part.preferred in KeysOf(e) then part.preferred else part.fallback
  }

  /** On a dict, a part is the window of the chosen key's dict, absent
      when that key is, and an `AttributeError` when its value is not a
      dict. */
  lemma YahooStepOnDict(e: Entries, part: YahooPart)
    ensures Chosen(e, part) !in KeysOf(e) ==> YahooStep(JObj(e), part) == Success([])
    ensures Chosen(e, part) in KeysOf(e) ==>
      YahooStep(JObj(e), part) ==
        match Lookup(e, Chosen(e, part)).value
        case JObj(periods) => Success([(part.output, JObj(Window(periods, part.keep)))])
        case _ => Failure(AttributeError)
  {
  }

  function YahooFold(y: Json, parts: seq<YahooPart>): (r: Result<Entries, Error>)
    ensures r.Success? ==> |r.value| <= |parts|
  {
    if |parts| == 0 then Success([])
    else
      var first :- YahooStep(y, parts[0]);
      var rest :- YahooFold(y, parts[1..]);
      Success(first + rest)
  }

  /** `yahoo_financials`: a fresh dict holding the windowed parts. */
  function Yahoo(y: Json): (r: Result<Json, Error>)
    ensures r.Success? ==> r.value.JObj?
  {
    var parts :- YahooFold(y, YahooParts);
    Success(JObj(parts))
  }

  function Outputs(parts: seq<YahooPart>): (r: seq<string>)
    ensures |r| == |parts|
    ensures forall i :: 0 <= i < |parts| ==> r[i] == parts[i].output
  {
    seq(|parts|, i requires 0 <= i < |parts| => parts[i].output)
  }

  /** What one part contributes: nothing, or one window. */
  function Contribution(written: Entries): Option<Json> {
    if |written| == 0 then None else Some(written[0].1)
  }

  lemma {:induction false} YahooFoldKeys(y: Json, parts: seq<YahooPart>)
    requires YahooFold(y, parts).Success?
    ensures forall k :: k in KeysOf(YahooFold(y, parts).value) ==> k in Outputs(parts)
  {
    if |parts| > 0 {
      YahooFoldKeys(y, parts[1..]);
      var first := YahooStep(y, parts[0]).value;
      var rest := YahooFold(y, parts[1..]).value;
      KeysAppend(first, rest);
      assert Outputs(parts) == [parts[0].output] + Outputs(parts[1..]);
    }
  }

  /** The new `yahoo_financials` dict holds each part under its output
      name, as that part alone computes it. */
  lemma {:induction false} YahooFoldLookup(y: Json, parts: seq<YahooPart>, i: nat)
    requires YahooFold(y, parts).Success?
    requires Distinct(Outputs(parts))
    requires i < |parts|
    ensures YahooStep(y, parts[i]).Success?
    ensures Lookup(YahooFold(y, parts).value, parts[i].output) == Contribution(YahooStep(y, parts[i]).value)
  {
    var first := YahooStep(y, parts[0]).value;
    var rest := YahooFold(y, parts[1..]).value;
    LookupAppend(first, rest, parts[i].output);
    assert Outputs(parts) == [parts[0].output] + Outputs(parts[1..]);
    assert Distinct(Outputs(parts[1..]));
    if |first| == 1 {
      assert KeysOf(first) == [parts[0].output];
    }
    if i == 0 {
      YahooFoldKeys(y, parts[1..]);
      assert parts[0].output !in Outputs(parts[1..]);
    } else {
      assert parts[i].output != parts[0].output by {
        assert Outputs(parts)[0] != Outputs(parts)[i];
      }
      YahooFoldLookup(y, parts[1..], i - 1);
    }
  }

  /** The six parts write six different keys. */
  lemma YahooOutputsDistinct()
    ensures Distinct(Outputs(YahooParts))
  {
  }

  /** On a dict, each of the six parts of the new `yahoo_financials` is
      absent when its chosen key is, and otherwise the window of that key's
      periods; a cash-flow part reads `cash_flow_*` when present and
      `cash_flow_statement_*` otherwise. */
  lemma YahooOnDict(e: Entries, i: nat)
    requires Yahoo(JObj(e)).Success?
    requires i < |YahooParts|
    ensures Chosen(e, YahooParts[i]) !in KeysOf(e) ==>
      Lookup(Yahoo(JObj(e)).value.entries, YahooParts[i].output) == None
    ensures Chosen(e, YahooParts[i]) in KeysOf(e) ==>
      && Lookup(e, Chosen(e, YahooParts[i])).value.JObj?
      && Lookup(Yahoo(JObj(e)).value.entries, YahooParts[i].output) ==
           Some(JObj(Window(Lookup(e, Chosen(e, YahooParts[i])).value.entries, YahooParts[i].keep)))
  {
    YahooOutputsDistinct();
    YahooFoldLookup(JObj(e), YahooParts, i);
    YahooStepOnDict(e, YahooParts[i]);
  }

  // ---------------------------------------------------------------------
  // truncate_json
  // ---------------------------------------------------------------------

  /** The sections copied across, in the order they are written. */
  const Sections: seq<string> := [
    "company_info", "market_data", "valuation", "shareholders",
    "calculated_metrics", "financials_annual", "yahoo_financials"
  ]

  const HeaderKeys: seq<string> := ["ticker", "company_name", "collected_at"]

  /** What a kept section becomes: `market_data` and `valuation` are copied
      whole, annual financials keep ten years, the rest as above. */
  function Reduce(key: string, v: Json): (r: Result<Json, Error>)
    ensures key !in Sections ==> r == Success(v)
  {
    if key == "company_info" then CompanyInfo(v)
    else if key == "shareholders" then Shareholders(v)
    else if key == "calculated_metrics" then CalculatedMetrics(v)
    else if key == "financials_annual" then WindowOf(v, 10)
    else if key == "yahoo_financials" then Yahoo(v)
    else Success(v)
  }

  /** Whether the document holds the key. */
  function Present(stock: Entries): string -> bool {
    k => k in KeysOf(stock)
  }

  /** How each kept section is reduced. */
  type Reducer = (string, Json) -> Result<Json, Error>

  /** The listed sections the document holds, each reduced, in order; the
      first failing reduction is the error. */
  function ReduceSections(stock: Entries, keys: seq<string>, reduce: Reducer): (r: Result<Entries, Error>)
  {
    if |keys| == 0 then Success([])
    else if keys[0] !in KeysOf(stock) then ReduceSections(stock, keys[1..], reduce)
    else
      var x :- reduce(keys[0], Lookup(stock, keys[0]).value);
      var rest :- ReduceSections(stock, keys[1..], reduce);
      Success([(keys[0], x)] + rest)
  }

  /** The three identifying fields, `""` where missing. */
  function Header(stock: Entries): (r: Entries)
    ensures KeysOf(r) == HeaderKeys
  {
    var r := [("ticker", GetOr(stock, "ticker", JStr(""))),
              ("company_name", GetOr(stock, "company_name", JStr(""))),
              ("collected_at", GetOr(stock, "collected_at", JStr("")))];
    assert KeysOf(r) == HeaderKeys;
    r
  }

  /** `truncate_json`: the identifying fields and the reduced sections. */
  function TruncateJson(stock: Entries): (r: Result<Entries, Error>)
    ensures r.Success? ==> |r.value| >= 3 && r.value[..3] == Header(stock)
  {
    var sections :- ReduceSections(stock, Sections, Reduce);
    Success(Header(stock) + sections)
  }

  /** The reduction of a section the document holds fails. */
  predicate Fails(stock: Entries, key: string, reduce: Reducer) {
    key in KeysOf(stock) && reduce(key, Lookup(stock, key).value).Failure?
  }

  /** The reduced sections appear in the listed order, exactly when the
      document holds them. */
  lemma {:induction false} ReduceSectionsKeys(stock: Entries, keys: seq<string>, reduce: Reducer)
    requires ReduceSections(stock, keys, reduce).Success?
    ensures KeysOf(ReduceSections(stock, keys, reduce).value) == Filter(keys, Present(stock))
  {
    if |keys| > 0 {
      ReduceSectionsKeys(stock, keys[1..], reduce);
      var rest := ReduceSections(stock, keys[1..], reduce).value;
      if keys[0] in KeysOf(stock) {
        var x := reduce(keys[0], Lookup(stock, keys[0]).value).value;
        assert KeysOf([(keys[0], x)] + rest) == [keys[0]] + KeysOf(rest);
      }
    }
  }

  /** Reducing fails exactly when some listed section the document holds
      fails. */
  lemma {:induction false} ReduceSectionsFailure(stock: Entries, keys: seq<string>, reduce: Reducer)
    ensures ReduceSections(stock, keys, reduce).Failure? <==> exists k :: k in keys && Fails(stock, k, reduce)
  {
    if |keys| > 0 {
      ReduceSectionsFailure(stock, keys[1..], reduce);
      assert forall k :: k in keys <==> k == keys[0] || k in keys[1..];
      if Fails(stock, keys[0], reduce) {
        assert keys[0] in keys;
      }
    }
  }

  /** Each listed section the document holds is its reduction, and nothing
      else is there. */
  lemma {:induction false} ReduceSectionsLookup(stock: Entries, keys: seq<string>, reduce: Reducer, k: string)
    requires ReduceSections(stock, keys, reduce).Success?
    ensures (k in keys && k in KeysOf(stock)) ==>
      && reduce(k, Lookup(stock, k).value).Success?
      && Lookup(ReduceSections(stock, keys, reduce).value, k) == Some(reduce(k, Lookup(stock, k).value).value)
    ensures !(k in keys && k in KeysOf(stock)) ==> Lookup(ReduceSections(stock, keys, reduce).value, k) == None
  {
    if |keys| > 0 {
      ReduceSectionsLookup(stock, keys[1..], reduce, k);
      var rest := ReduceSections(stock, keys[1..], reduce).value;
      if keys[0] in KeysOf(stock) {
        var first := [(keys[0], reduce(keys[0], Lookup(stock, keys[0]).value).value)];
        LookupAppend(first, rest, k);
        assert KeysOf(first) == [keys[0]];
      }
    }
  }

  /** The keys of the result: the identifying fields, then the sections
      the document holds, in order, none twice. */
  lemma TruncateJsonKeys(stock: Entries)
    requires TruncateJson(stock).Success?
    ensures KeysOf(TruncateJson(stock).value) == HeaderKeys + Filter(Sections, Present(stock))
    ensures DistinctKeys(TruncateJson(stock).value)
  {
    var body := ReduceSections(stock, Sections, Reduce).value;
    ReduceSectionsKeys(stock, Sections, Reduce);
    KeysAppend(Header(stock), body);
    SectionsKeptDistinct(stock);
  }

  lemma KeysAppend(a: Entries, b: Entries)
    ensures KeysOf(a + b) == KeysOf(a) + KeysOf(b)
  {
  }

  lemma SectionsKeptDistinct(stock: Entries)
    ensures Distinct(HeaderKeys + Filter(Sections, Present(stock)))
  {
    SectionsDistinct();
    HeaderDistinct();
    forall x | x in Sections
      ensures x !in HeaderKeys
    {
      HeaderNotSection(x);
    }
    DistinctFilterAppend(HeaderKeys, Sections, Present(stock));
  }

  lemma SectionsDistinct()
    ensures Distinct(Sections)
  {
  }

  lemma HeaderDistinct()
    ensures Distinct(HeaderKeys)
  {
  }

  lemma HeaderNotSection(x: string)
    requires x in Sections
    ensures x !in HeaderKeys
  {
  }

  /** Each kept section is its reduction, and a listed section the
      document lacks stays out. */
  lemma TruncateJsonSections(stock: Entries, k: string)
    requires TruncateJson(stock).Success?
    requires k !in HeaderKeys
    ensures (k in Sections && k in KeysOf(stock)) ==>
      && Reduce(k, Lookup(stock, k).value).Success?
      && Lookup(TruncateJson(stock).value, k) == Some(Reduce(k, Lookup(stock, k).value).value)
    ensures !(k in Sections && k in KeysOf(stock)) ==> Lookup(TruncateJson(stock).value, k) == None
  {
    var body := ReduceSections(stock, Sections, Reduce).value;
    LookupAppend(Header(stock), body, k);
    ReduceSectionsLookup(stock, Sections, Reduce, k);
  }

  /** `truncate_json` raises exactly when a section it keeps has the wrong
      shape for its reduction. */
  lemma TruncateJsonFailure(stock: Entries)
    ensures TruncateJson(stock).Failure? <==> exists k :: k in Sections && Fails(stock, k, Reduce)
  {
    ReduceSectionsFailure(stock, Sections, Reduce);
  }
}

=== FILE: config.dfy ===
/** `Settings.parse_cors_origins`: the allowed CORS origins, given either
    as a list or as one string holding a JSON array or comma-separated
    origins. */
module Config {
  import opened Wrappers
  import opened Strings

  /** What the setting may hold before validation. */
  datatype CorsSetting = Text(text: string) | Origins(origins: seq<string>)

  /** A JSON decoder for arrays of strings: `None` where `json.loads`
      raises `JSONDecodeError`. */
  type JsonDecoder = string -> Option<seq<string>>

  /** The string looks like a JSON array. */
  predicate Bracketed(s: string) {
    StartsWith(s, "[") && EndsWith(s, "]")
  }

  /** The stripped, non-empty pieces of `parts`, in order. */
  function StrippedNonEmpty(parts: seq<string>): (r: seq<string>)
    ensures |r| <= |parts|
    ensures forall k :: 0 <= k < |r| ==> |r[k]| > 0 && Strip(r[k]) == r[k]
  {
    if |parts| == 0 then []
    else
      var piece := Strip(parts[0]);
      StripIdempotent(parts[0]);
      (if |piece| > 0 then [piece] else []) + StrippedNonEmpty(parts[1..])
  }

  /** Each non-blank piece contributes its stripped form, and nothing else
      appears. */
  lemma {:induction false} StrippedNonEmptyMembership(parts: seq<string>, o: string)
    ensures o in StrippedNonEmpty(parts) <==> exists p :: p in parts && |Strip(p)| > 0 && Strip(p) == o
  {
    if |parts| > 0 {
      StrippedNonEmptyMembership(parts[1..], o);
      assert forall p :: p in parts <==> p == parts[0] || p in parts[1..];
    }
  }

  /** The comma-separated branch. */
  function SplitOrigins(v: string): (r: seq<string>)
    ensures |r| <= |Split(v, ',')|
    ensures forall k :: 0 <= k < |r| ==> |r[k]| > 0 && Strip(r[k]) == r[k]
  {
    StrippedNonEmpty(Split(v, ','))
  }

  /** `parse_cors_origins`. A list passes through; a bracketed string is
      decoded as JSON when it can be and split on commas otherwise. */
  function ParseCorsOrigins(v: CorsSetting, decode: JsonDecoder): (r: seq<string>)
    ensures v.Origins? ==> r == v.origins
    ensures v.Text? && Bracketed(v.text) && decode(v.text).Some? ==> r == decode(v.text).value
    ensures (v.Text? && !(Bracketed(v.text) && decode(v.text).Some?)) ==> r == SplitOrigins(v.text)
  {
    match v
    case Origins(origins) => origins
    case Text(text) =>
      if Bracketed(text) then
        match decode(text)
        case Some(origins) => origins
        case None => SplitOrigins(text)
      else SplitOrigins(text)
  }

  /** A plain origin is non-empty, stripped, and free of commas. */
  predicate PlainOrigin(o: string) {
    |o| > 0 && Strip(o) == o && ',' !in o
  }

  /** The comma branch inverts joining plain origins with commas. */
  lemma {:induction false} SplitOriginsJoin(origins: seq<string>)
    requires |origins| >= 1
    requires forall k :: 0 <= k < |origins| ==> PlainOrigin(origins[k])
    ensures SplitOrigins(Join(origins, ',')) == origins
  {
    SplitJoin(origins, ',');
    StrippedNonEmptyPlain(origins);
  }

  lemma {:induction false} StrippedNonEmptyPlain(origins: seq<string>)
    requires forall k :: 0 <= k < |origins| ==> PlainOrigin(origins[k])
    ensures StrippedNonEmpty(origins) == origins
  {
    if |origins| > 0 {
      assert PlainOrigin(origins[0]);
      StrippedNonEmptyPlain(origins[1..]);
      assert origins == [origins[0]] + origins[1..];
    }
  }

  /** A string without commas and with content is one origin, stripped. */
  lemma SingleOrigin(v: string)
    requires ',' !in v && |Strip(v)| > 0
    ensures SplitOrigins(v) == [Strip(v)]
  {
    assert Split(v, ',') == [v];
  }
}

=== FILE: data_loader.dfy ===
/** The pure parts of the summary loader: cleaning one CSV record, finding
    a stock by ticker, and listing the distinct sectors and industries. A
    record is a dictionary from column name to cell. */
module DataLoader {
  import opened Wrappers
  import opened Errors
  import opened Strings

  /** One cell of a summary record: `None`, a finite float, a NaN or
      infinite float, or text. */
  datatype Cell = Null | Number(x: real) | NotFinite | Text(text: string)

  type Record = map<string, Cell>

  /** The column yfinance reports as a percentage. */
  const DebtToEquity: string := "debt_to_equity"

  /** Python truthiness of a cell: NaN is truthy, `0.0` and `""` are not. */
  predicate TruthyCell(c: Cell) {
    match c
    case Null => false
    case Number(x) => x != 0.0
    case NotFinite => true
    case Text(t) => |t| > 0
  }

  /** One cleaned cell: non-finite floats become `None`, and a present
      debt-to-equity number is scaled from percent to ratio. */
  function SanitizeCell(key: string, c: Cell): (r: Cell)
    ensures c.NotFinite? ==> r.Null?
    ensures key != DebtToEquity && !c.NotFinite? ==> r == c
    ensures key == DebtToEquity && c.Number? ==> r.Number? && r.x * 100.0 == c.x
    ensures !c.Number? && !c.NotFinite? ==> r == c
  {
    match c
    case NotFinite => Null
    case Number(x) => if key == DebtToEquity then Number(x / 100.0) else c
    case _ => c
  }

  /** `sanitize_record`. Dividing a text debt-to-equity cell by `100.0`
      raises. */
  function SanitizeRecord(record: Record): (r: Result<Record, Error>)
    ensures r.Failure? <==> DebtToEquity in record && record[DebtToEquity].Text?
    ensures r.Failure? ==> r.error == TypeError
    ensures r.Success? ==> r.value.Keys == record.Keys
    ensures r.Success? ==> forall k :: k in record ==> r.value[k] == SanitizeCell(k, record[k])
  {
    if DebtToEquity in record && record[DebtToEquity].Text? then Failure(TypeError)
    else Success(map k | k in record :: SanitizeCell(k, record[k]))
  }

  /** A cleaned record holds no non-finite number, and cleaning it again
      changes only the debt-to-equity column, which it divides again. */
  lemma SanitizeRecordAgain(record: Record)
    requires SanitizeRecord(record).Success?
    ensures var clean := SanitizeRecord(record).value;
      && (forall k :: k in clean ==> !clean[k].NotFinite?)
      && SanitizeRecord(clean).Success?
      && (forall k :: k in clean && k != DebtToEquity ==> SanitizeRecord(clean).value[k] == clean[k])
  {}

  /** Multiplying the cleaned ratio by 100 gives back the reported
      percentage. */
  lemma DebtToEquityRoundTrip(record: Record, pct: real)
    requires DebtToEquity in record && record[DebtToEquity] == Number(pct)
    ensures SanitizeRecord(record).Success?
    ensures SanitizeRecord(record).value[DebtToEquity].x * 100.0 == pct
  {}

  /** `stock.get("ticker", "")`. */
  function TickerCell(record: Record): Cell {
    if "ticker" in record then record["ticker"] else Text("")
  }

  /** The record's ticker is text, so `.upper()` applies. */
  predicate HasTextTicker(record: Record) {
    TickerCell(record).Text?
  }

  /** The record's ticker equals the query, ignoring ASCII case. */
  predicate TickerMatches(record: Record, ticker: string) {
    HasTextTicker(record) && Upper(TickerCell(record).text) == Upper(ticker)
  }

  /** The index where the scan of `get_stock_by_ticker` stops: the first
      record that matches or whose ticker is not text, else the length. */
  function ScanStop(stocks: seq<Record>, ticker: string): (i: nat)
    ensures i <= |stocks|
    ensures i < |stocks| ==> TickerMatches(stocks[i], ticker) || !HasTextTicker(stocks[i])
  {
    if |stocks| == 0 then 0
    else if !HasTextTicker(stocks[0]) || TickerMatches(stocks[0], ticker) then 0
    else 1 + ScanStop(stocks[1..], ticker)
  }

  /** Every record before the stop has a text ticker that does not match. */
  lemma {:induction false} ScanStopPassed(stocks: seq<Record>, ticker: string, j: nat)
    requires j < ScanStop(stocks, ticker)
    ensures HasTextTicker(stocks[j]) && !TickerMatches(stocks[j], ticker)
  {
    if j > 0 {
      ScanStopPassed(stocks[1..], ticker, j - 1);
      assert stocks[1..][j - 1] == stocks[j];
    }
  }

  /** `get_stock_by_ticker`: the first record whose upper-cased ticker is
      the upper-cased query. Calling `.upper()` on a ticker that is not
      text raises before any later record is looked at. */
  function GetStockByTicker(ticker: string, stocks: seq<Record>): (r: Result<Option<Record>, Error>)
    ensures r.Failure? <==> ScanStop(stocks, ticker) < |stocks| && !HasTextTicker(stocks[ScanStop(stocks, ticker)])
    ensures r.Failure? ==> r.error == AttributeError
    ensures r == Success(None) <==> ScanStop(stocks, ticker) == |stocks|
    ensures r.Success? && r.value.Some? ==>
      r.value.value == stocks[ScanStop(stocks, ticker)] && TickerMatches(r.value.value, ticker)
  {
    var i := ScanStop(stocks, ticker);
    if i == |stocks| then Success(None)
    else if !HasTextTicker(stocks[i]) then Failure(AttributeError)
    else Success(Some(stocks[i]))
  }

  /** A found record is the first match: each earlier record has a text
      ticker that does not match. */
  lemma GetStockByTickerFirst(ticker: string, stocks: seq<Record>, j: nat)
    requires GetStockByTicker(ticker, stocks).Success?
    requires j < |stocks| && TickerMatches(stocks[j], ticker)
    ensures GetStockByTicker(ticker, stocks).value.Some?
    ensures ScanStop(stocks, ticker) <= j
  {
    if j < ScanStop(stocks, ticker) {
      ScanStopPassed(stocks, ticker, j);
    }
  }

  /** When every ticker is text, the search fails to find only when no
      record matches. */
  lemma GetStockByTickerNone(ticker: string, stocks: seq<Record>)
    requires forall k :: 0 <= k < |stocks| ==> HasTextTicker(stocks[k])
    ensures GetStockByTicker(ticker, stocks).Success?
    ensures GetStockByTicker(ticker, stocks).value.None? <==>
      forall k :: 0 <= k < |stocks| ==> !TickerMatches(stocks[k], ticker)
  {
    var i := ScanStop(stocks, ticker);
    if i == |stocks| {
      forall k | 0 <= k < |stocks|
        ensures !TickerMatches(stocks[k], ticker)
      {
        ScanStopPassed(stocks, ticker, k);
      }
    }
  }

  /** Strictly ascending in Python's string order, hence without
      duplicates. */
  predicate StrictlyAscending(s: seq<string>) {
    forall i, j :: 0 <= i < j < |s| ==> Less(s[i], s[j])
  }

  /** Adds `x` to a strictly ascending sequence unless already there. */
  function InsertUnique(x: string, s: seq<string>): (r: seq<string>)
    requires StrictlyAscending(s)
    ensures StrictlyAscending(r)
    ensures forall y :: y in r <==> y == x || y in s
  {
    if |s| == 0 then [x]
    else if x == s[0] then s
    else if Less(x, s[0]) then
      var r := [x] + s;
      assert StrictlyAscending(r) by {
        forall i, j | 0 <= i < j < |r|
          ensures Less(r[i], r[j])
        {
          if i == 0 && j > 1 {
            LessTransitive(x, s[0], s[j - 1]);
          }
        }
      }
      r
    else
      LessTotal(x, s[0]);
      var rest := InsertUnique(x, s[1..]);
      var r := [s[0]] + rest;
      assert StrictlyAscending(r) by {
        forall j | 1 <= j < |r|
          ensures Less(s[0], r[j])
        {
          assert r[j] == rest[j - 1];
          if r[j] != x {
            assert r[j] in s[1..];
            var k :| 0 <= k < |s[1..]| && s[1..][k] == r[j];
            assert Less(s[0], s[k + 1]);
          }
        }
      }
      r
  }

  /** `sorted(set(xs))`. */
  function SortedUnique(xs: seq<string>): (r: seq<string>)
    ensures StrictlyAscending(r)
    ensures forall y :: y in r <==> y in xs
  {
    if |xs| == 0 then []
    else InsertUnique(xs[0], SortedUnique(xs[1..]))
  }

  /** The first element of a strictly ascending sequence is below every
      other element. */
  lemma FirstIsLeast(a: seq<string>, y: string)
    requires StrictlyAscending(a) && y in a && |a| > 0 && y != a[0]
    ensures Less(a[0], y)
  {
    var k :| 0 <= k < |a| && a[k] == y;
  }

  /** Sequences with the same elements are empty together. */
  lemma SameEmptiness(a: seq<string>, b: seq<string>)
    requires forall y :: y in a <==> y in b
    ensures |a| == 0 <==> |b| == 0
  {
    if |a| > 0 {
      assert a[0] in a;
    }
    if |b| > 0 {
      assert b[0] in b;
    }
  }

  /** A strictly ascending sequence is determined by its elements, so any
      two listings of the same set agree. */
  lemma {:induction false} StrictlyAscendingUnique(a: seq<string>, b: seq<string>)
    requires StrictlyAscending(a) && StrictlyAscending(b)
    requires forall y :: y in a <==> y in b
    ensures a == b
    decreases |a|
  {
    SameEmptiness(a, b);
    if |a| > 0 {
      assert a[0] == b[0] by {
        if a[0] != b[0] {
          assert a[0] in a && b[0] in b;
          FirstIsLeast(b, a[0]);
          FirstIsLeast(a, b[0]);
          LessAsymmetric(a[0], b[0]);
        }
      }
      forall y
        ensures y in a[1..] <==> y in b[1..]
      {
        LessIrreflexive(a[0]);
        if y in a[1..] {
          var k :| 0 <= k < |a[1..]| && a[1..][k] == y;
          assert Less(a[0], a[k + 1]);
          assert y in a;
          assert b == [b[0]] + b[1..];
        }
        if y in b[1..] {
          var k :| 0 <= k < |b[1..]| && b[1..][k] == y;
          assert Less(b[0], b[k + 1]);
          assert y in b;
          assert a == [a[0]] + a[1..];
        }
      }
      StrictlyAscendingUnique(a[1..], b[1..]);
      assert a == [a[0]] + a[1..] && b == [b[0]] + b[1..];
    }
  }

  /** The truthy cells of `column` across `stocks`, in order. */
  function TruthyCells(stocks: seq<Record>, column: string): (r: seq<Cell>)
    ensures forall c :: c in r <==>
      (exists k :: 0 <= k < |stocks| && column in stocks[k] && stocks[k][column] == c && TruthyCell(c))
  {
    if |stocks| == 0 then []
    else
      var rest := TruthyCells(stocks[1..], column);
      assert forall k :: 1 <= k < |stocks| ==> stocks[k] == stocks[1..][k - 1];
      assert forall k :: 0 <= k < |stocks| - 1 ==> stocks[1..][k] == stocks[k + 1];
      var here := column in stocks[0] && TruthyCell(stocks[0][column]);
      (if here then [stocks[0][column]] else []) + rest
  }

  /** The texts of a sequence of cells known to be text. */
  function Texts(cells: seq<Cell>): (r: seq<string>)
    requires forall k :: 0 <= k < |cells| ==> cells[k].Text?
    ensures forall t :: t in r <==> Text(t) in cells
  {
    if |cells| == 0 then []
    else [cells[0].text] + Texts(cells[1..])
  }

  /** `sorted({s.get(column) for s in stocks if s.get(column)})`. The set
      holds only text in a summary file; a truthy number in the column
      makes the model fail with `TypeError`. */
  function UniqueValues(stocks: seq<Record>, column: string): (r: Result<seq<string>, Error>)
    ensures r.Failure? <==> exists c :: c in TruthyCells(stocks, column) && !c.Text?
    ensures r.Success? ==> StrictlyAscending(r.value)
    ensures r.Success? ==> forall t :: t in r.value <==>
      (exists k :: 0 <= k < |stocks| && column in stocks[k] && stocks[k][column] == Text(t)) && |t| > 0
  {
    var cells := TruthyCells(stocks, column);
    if exists c :: c in cells && !c.Text? then Failure(TypeError)
    else
      assert forall k :: 0 <= k < |cells| ==> cells[k].Text? by {
        forall k | 0 <= k < |cells| ensures cells[k].Text? {
          assert cells[k] in cells;
        }
      }
      Success(SortedUnique(Texts(cells)))
  }

  /** `get_unique_sectors`. */
  function UniqueSectors(stocks: seq<Record>): (r: Result<seq<string>, Error>)
    ensures r.Success? ==> StrictlyAscending(r.value)
    ensures r.Success? ==> forall t :: t in r.value <==>
      (exists k :: 0 <= k < |stocks| && "sector" in stocks[k] && stocks[k]["sector"] == Text(t)) && |t| > 0
  {
    UniqueValues(stocks, "sector")
  }

  /** `get_unique_industries`. */
  function UniqueIndustries(stocks: seq<Record>): (r: Result<seq<string>, Error>)
    ensures r.Success? ==> StrictlyAscending(r.value)
    ensures r.Success? ==> forall t :: t in r.value <==>
      (exists k :: 0 <= k < |stocks| && "industry" in stocks[k] && stocks[k]["industry"] == Text(t)) && |t| > 0
  {
    UniqueValues(stocks, "industry")
  }

  /** The listing does not depend on the order of the records. */
  lemma UniqueValuesOrderFree(a: seq<Record>, b: seq<Record>, column: string)
    requires multiset(a) == multiset(b)
    requires UniqueValues(a, column).Success? && UniqueValues(b, column).Success?
    ensures UniqueValues(a, column) == UniqueValues(b, column)
  {
    var ra, rb := UniqueValues(a, column).value, UniqueValues(b, column).value;
    forall t
      ensures t in ra <==> t in rb
    {
      if t in ra {
        var k :| 0 <= k < |a| && column in a[k] && a[k][column] == Text(t);
        assert a[k] in multiset(b);
        var j :| 0 <= j < |b| && b[j] == a[k];
      }
      if t in rb {
        var k :| 0 <= k < |b| && column in b[k] && b[k][column] == Text(t);
        assert b[k] in multiset(a);
        var j :| 0 <= j < |a| && a[j] == b[k];
      }
    }
    StrictlyAscendingUnique(ra, rb);
  }
}

=== FILE: dependencies.dfy ===
/** The ticker checks the HTTP endpoints depend on: the path-parameter
    format test and the existence test against the tickers on disk. */
module Dependencies {
  import opened Wrappers
  import opened Strings

  /** Why a ticker was refused; each stands for a `ValueError`. */
  datatype TickerError = EmptyTicker | InvalidFormat | TickerNotFound(ticker: string)

  const MaxTickerLength: nat := 10

  predicate IsAsciiLetter(c: char) {
    'A' <= c <= 'Z' || 'a' <= c <= 'z'
  }

  predicate IsAsciiDigit(c: char) {
    '0' <= c <= '9'
  }

  /** The characters `[A-Za-z0-9.\-]` admits after the first. */
  predicate IsTickerChar(c: char) {
    IsAsciiLetter(c) || IsAsciiDigit(c) || c == '.' || c == '-'
  }

  /** The whole of `s` matches `^[A-Za-z][A-Za-z0-9.\-]{0,9}$`. */
  predicate MatchesTickerPattern(s: string) {
    && 1 <= |s| <= MaxTickerLength
    && IsAsciiLetter(s[0])
    && forall k :: 1 <= k < |s| ==> IsTickerChar(s[k])
  }

  /** `validate_ticker_format`: strips the input, refuses an empty or
      malformed symbol, and returns it upper-cased. */
  function ValidateTickerFormat(ticker: string): (r: Result<string, TickerError>)
    ensures r.Success? <==> MatchesTickerPattern(Strip(ticker))
    ensures r.Success? ==> r.value == Upper(Strip(ticker))
    ensures r == Failure(EmptyTicker) <==> |Strip(ticker)| == 0
    ensures r.Failure? ==> r.error.EmptyTicker? || r.error.InvalidFormat?
  {
    var stripped := Strip(ticker);
    if |stripped| == 0 then Failure(EmptyTicker)
    else if !MatchesTickerPattern(stripped) then Failure(InvalidFormat)
    else Success(Upper(stripped))
  }

  /** Upper-casing keeps a symbol inside the pattern. */
  lemma UpperKeepsPattern(s: string)
    requires MatchesTickerPattern(s)
    ensures MatchesTickerPattern(Upper(s))
  {
    assert IsAsciiLetter(Upper(s)[0]);
    forall k | 1 <= k < |s|
      ensures IsTickerChar(Upper(s)[k])
    {
      assert Upper(s)[k] == UpperChar(s[k]);
    }
  }

  /** An accepted symbol has no lower-case letter. */
  lemma AcceptedIsUpper(ticker: string)
    requires ValidateTickerFormat(ticker).Success?
    ensures forall k :: 0 <= k < |ValidateTickerFormat(ticker).value| ==>
      !('a' <= ValidateTickerFormat(ticker).value[k] <= 'z')
  {}

  /** Validating an accepted symbol again returns it unchanged. */
  lemma ValidateTickerFormatIdempotent(ticker: string)
    requires ValidateTickerFormat(ticker).Success?
    ensures ValidateTickerFormat(ValidateTickerFormat(ticker).value)
      == ValidateTickerFormat(ticker)
  {
    var s := Strip(ticker);
    var v := Upper(s);
    StripUpperCommute(s);
    StripIdempotent(ticker);
    assert Strip(v) == v;
    UpperKeepsPattern(s);
    UpperIdempotent(s);
  }

  /** `verify_ticker_exists`: the upper-cased ticker when the given list of
      available tickers holds it. */
  function VerifyTickerExists(ticker: string, available: seq<string>): (r: Result<string, TickerError>)
    ensures r.Success? <==> Upper(ticker) in available
    ensures r.Success? ==> r.value == Upper(ticker) && r.value in available
    ensures r.Failure? ==> r.error == TickerNotFound(Upper(ticker))
  {
    var upper := Upper(ticker);
    if upper !in available then Failure(TickerNotFound(upper)) else Success(upper)
  }

  /** The case of the query does not matter. */
  lemma VerifyTickerExistsCaseInsensitive(ticker: string, available: seq<string>)
    ensures VerifyTickerExists(Upper(ticker), available) == VerifyTickerExists(ticker, available)
  {
    UpperIdempotent(ticker);
  }
}

=== FILE: engine_dcf.dfy ===
/** Discounted cash flow: the five-year projection with growth decaying
    toward the terminal rate, the Gordon-growth terminal value, present
    values, one scenario end to end, and the three-scenario valuation with
    its probability weighting and sensitivity reruns. */
module Dcf {
  import opened Wrappers
  import opened Errors
  import opened RealMath
  import opened EngineView
  import opened CostOfCapital
  import opened ValuationOutput

  /** Explicit projection period of `calculate_dcf`. */
  const ProjectionYears: nat := 5

  /** `1 - TAX_RATE`: the share of EBIT kept after tax. */
  const AfterTax: real := 0.79

  /** Cap on the reinvestment rate. */
  const MaxReinvestment: real := 0.80

  /** ROIC assumed when none is known or it is not positive. */
  const DefaultRoic: real := 0.10

  /** Growth in projection year `year`: the initial rate moving linearly
      toward the terminal rate, reaching it after ten years. */
  function YearGrowth(g: real, tg: real, year: nat): (r: real)
    ensures year == 0 ==> r == g
    ensures year == 10 ==> r == tg
    ensures year <= 10 ==> Min(g, tg) <= r <= Max(g, tg)
  {
    var f := year as real / 10.0;
    var r := g - (g - tg) * f;
    assert r == (1.0 - f) * g + f * tg;
    if year <= 10 then ConvexCombination(1.0 - f, f, g, tg); r else r
  }

  /** The ROIC the projection uses: the reported one when positive. */
  function EffectiveRoic(roic: Option<real>): (r: real)
    ensures r > 0.0
    ensures roic.Some? && roic.value > 0.0 ==> r == roic.value
    ensures !(roic.Some? && roic.value > 0.0) ==> r == DefaultRoic
  {
    if roic.Some? && roic.value > 0.0 then roic.value else DefaultRoic
  }

  /** Share of NOPAT reinvested to fund a year's growth: growth over ROIC,
      kept within [0, 0.8]. */
  function ReinvestmentRate(yearGrowth: real, roic: real): (r: real)
    ensures 0.0 <= r <= MaxReinvestment
    ensures roic > 0.0 && 0.0 <= yearGrowth / roic <= MaxReinvestment ==> r == yearGrowth / roic
    ensures roic > 0.0 && yearGrowth <= 0.0 ==> r == 0.0
    ensures roic > 0.0 && yearGrowth / roic >= MaxReinvestment ==> r == MaxReinvestment
    ensures roic <= 0.0 ==> r == 0.5
  {
    var raw := if roic > 0.0 then Min(yearGrowth / roic, MaxReinvestment) else 0.50;
    assert roic > 0.0 && yearGrowth <= 0.0 ==> yearGrowth / roic <= 0.0;
    Max(raw, 0.0)
  }

  /** A revenue grown by one year's rate. */
  function Grown(revenue: real, rate: real): real {
    revenue * (1.0 + rate)
  }

  /** Revenue after `k` projection years: the base revenue grown by each
      year's rate in turn. */
  function RevenueAt(base: real, g: real, tg: real, k: nat): real {
    if k == 0 then base else Grown(RevenueAt(base, g, tg, k - 1), YearGrowth(g, tg, k))
  }

  /** The four projected series, one entry per year. */
  datatype Projection = Projection(
    revenue: seq<real>,
    ebit: seq<real>,
    nopat: seq<real>,
    fcf: seq<real>)

  /** The figures of projection year `year` given the previous revenue. */
  predicate IsYearRow(p: Projection, t: nat, prevRevenue: real,
                      g: real, tg: real, margin: real, roic: real)
    requires t < |p.revenue| && t < |p.ebit| && t < |p.nopat| && t < |p.fcf|
  {
    var yg := YearGrowth(g, tg, t + 1);
    && p.revenue[t] == Grown(prevRevenue, yg)
    && p.ebit[t] == p.revenue[t] * margin
    && p.nopat[t] == p.ebit[t] * AfterTax
    && p.fcf[t] == p.nopat[t] * (1.0 - ReinvestmentRate(yg, roic))
  }

  predicate WellFormed(p: Projection, n: nat) {
    |p.revenue| == n && |p.ebit| == n && |p.nopat| == n && |p.fcf| == n
  }

  /** One projection year: its revenue, EBIT, NOPAT and FCF. */
  datatype YearFigures = YearFigures(revenue: real, ebit: real, nopat: real, fcf: real)

  /** The figures of a year with the given revenue and growth: EBIT at the
      operating margin, NOPAT after tax, and FCF after the reinvestment
      that growth requires. */
  function RowFor(revenue: real, yearGrowth: real, margin: real, roic: real): YearFigures {
    var ebit := revenue * margin;
    var nopat := ebit * AfterTax;
    YearFigures(revenue, ebit, nopat, nopat * (1.0 - ReinvestmentRate(yearGrowth, roic)))
  }

  /** Projection year `t + 1`. */
  function YearAt(base: real, g: real, tg: real, margin: real, roic: real, t: nat): YearFigures {
    RowFor(RevenueAt(base, g, tg, t + 1), YearGrowth(g, tg, t + 1), margin, roic)
  }

  /** The first `n` projection years. */
  function Project(base: real, g: real, tg: real, margin: real, roic: real, n: nat): (p: Projection)
    ensures WellFormed(p, n)
  {
    Projection(
      seq(n, t requires 0 <= t => YearAt(base, g, tg, margin, roic, t).revenue),
      seq(n, t requires 0 <= t => YearAt(base, g, tg, margin, roic, t).ebit),
      seq(n, t requires 0 <= t => YearAt(base, g, tg, margin, roic, t).nopat),
      seq(n, t requires 0 <= t => YearAt(base, g, tg, margin, roic, t).fcf))
  }

  /** Entry `t` of each projected series is the figure of year `t + 1`. */
  lemma ProjectEntry(base: real, g: real, tg: real, margin: real, roic: real, n: nat, t: nat)
    requires t < n
    ensures var p := Project(base, g, tg, margin, roic, n);
      YearFigures(p.revenue[t], p.ebit[t], p.nopat[t], p.fcf[t]) == YearAt(base, g, tg, margin, roic, t)
  {}

  lemma ProjectRevenue(base: real, g: real, tg: real, margin: real, roic: real, n: nat, t: nat)
    requires t < n
    ensures Project(base, g, tg, margin, roic, n).revenue[t] == RevenueAt(base, g, tg, t + 1)
  {}

  /** A list holding the revenues of consecutive years follows the
      year-on-year recurrence. */
  lemma RevenueListStep(revenue: seq<real>, base: real, g: real, tg: real, t: nat)
    requires 0 < t < |revenue|
    requires revenue[t - 1] == RevenueAt(base, g, tg, t)
    requires revenue[t] == RevenueAt(base, g, tg, t + 1)
    ensures revenue[t] == Grown(revenue[t - 1], YearGrowth(g, tg, t + 1))
  {}

  /** Within a year, EBIT, NOPAT and FCF follow from that year's revenue. */
  lemma ProjectDerived(base: real, g: real, tg: real, margin: real, roic: real, n: nat, t: nat)
    requires t < n
    ensures var p := Project(base, g, tg, margin, roic, n);
      && p.ebit[t] == p.revenue[t] * margin
      && p.nopat[t] == p.ebit[t] * AfterTax
      && p.fcf[t] == p.nopat[t] * (1.0 - ReinvestmentRate(YearGrowth(g, tg, t + 1), roic))
  {
    ProjectEntry(base, g, tg, margin, roic, n, t);
  }

  /** The projection satisfies the year-on-year recurrence: the first
      year's revenue is the base revenue grown by that year's rate, each
      later year's is the previous year's grown by its rate, and EBIT,
      NOPAT and FCF follow from the revenue. */
  lemma ProjectRecurrence(base: real, g: real, tg: real, margin: real, roic: real, n: nat, t: nat)
    requires t < n
    ensures var p := Project(base, g, tg, margin, roic, n);
      t == 0 ==> IsYearRow(p, 0, base, g, tg, margin, roic)
    ensures var p := Project(base, g, tg, margin, roic, n);
      t > 0 ==> IsYearRow(p, t, p.revenue[t - 1], g, tg, margin, roic)
  {
    ProjectDerived(base, g, tg, margin, roic, n, t);
    if t == 0 {
      ProjectEntry(base, g, tg, margin, roic, n, 0);
      assert RevenueAt(base, g, tg, 1) == Grown(base, YearGrowth(g, tg, 1));
    } else {
      ProjectRevenue(base, g, tg, margin, roic, n, t - 1);
      ProjectRevenue(base, g, tg, margin, roic, n, t);
      RevenueListStep(Project(base, g, tg, margin, roic, n).revenue, base, g, tg, t);
    }
  }

  /** Extending the horizon leaves the earlier years unchanged. */
  lemma ProjectPrefix(base: real, g: real, tg: real, margin: real, roic: real, n: nat, m: nat)
    requires n <= m
    ensures var p, q := Project(base, g, tg, margin, roic, n), Project(base, g, tg, margin, roic, m);
      p.revenue == q.revenue[..n] && p.fcf == q.fcf[..n]
  {
  }

  /** Free cash flow keeps between 20% and 100% of a non-negative NOPAT. */
  lemma FcfShareOfNopat(base: real, g: real, tg: real, margin: real, roic: real, n: nat, t: nat)
    requires t < n
    ensures var p := Project(base, g, tg, margin, roic, n);
      p.nopat[t] >= 0.0 ==> (1.0 - MaxReinvestment) * p.nopat[t] <= p.fcf[t] <= p.nopat[t]
  {
    var p := Project(base, g, tg, margin, roic, n);
    var k := 1.0 - ReinvestmentRate(YearGrowth(g, tg, t + 1), roic);
    if p.nopat[t] >= 0.0 {
      MulLeLeft(p.nopat[t], 1.0 - MaxReinvestment, k);
      MulLeLeft(p.nopat[t], k, 1.0);
    }
  }

  /** One more year appends that year's figures to each series. */
  lemma ProjectSnoc(base: real, g: real, tg: real, margin: real, roic: real, n: nat)
    ensures var p, q, y := Project(base, g, tg, margin, roic, n),
                           Project(base, g, tg, margin, roic, n + 1),
                           YearAt(base, g, tg, margin, roic, n);
      q == Projection(p.revenue + [y.revenue], p.ebit + [y.ebit], p.nopat + [y.nopat], p.fcf + [y.fcf])
  {}

  /** The projection loop as the source writes it: revenue is carried from
      year to year and the four lists grow by one entry per year. It builds
      exactly the closed-form projection. */
  method ProjectLoop(base: real, g: real, tg: real, margin: real, roic: real, n: nat)
    returns (revenue: seq<real>, ebit: seq<real>, nopat: seq<real>, fcf: seq<real>)
    ensures Projection(revenue, ebit, nopat, fcf) == Project(base, g, tg, margin, roic, n)
  {
    revenue, ebit, nopat, fcf := [], [], [], [];
    var current := base;
    var year := 1;
    while year <= n
      invariant 1 <= year <= n + 1
      invariant current == RevenueAt(base, g, tg, year - 1)
      invariant Projection(revenue, ebit, nopat, fcf) == Project(base, g, tg, margin, roic, year - 1)
    {
      var yg := YearGrowth(g, tg, year);
      current := current * (1.0 + yg);
      var row := RowFor(current, yg, margin, roic);
      assert row == YearAt(base, g, tg, margin, roic, year - 1);
      ProjectSnoc(base, g, tg, margin, roic, year - 1);
      revenue, ebit, nopat, fcf := revenue + [row.revenue], ebit + [row.ebit], nopat + [row.nopat], fcf + [row.fcf];
      year := year + 1;
    }
  }

  /** The terminal growth actually used: the requested rate when the WACC
      exceeds it, else one point below the WACC. */
  function EffectiveTerminalGrowth(wacc: real, tg: real): (r: real)
    ensures r < wacc
    ensures wacc > tg ==> r == tg
    ensures wacc <= tg ==> wacc - r == 0.01
  {
    if wacc <= tg then wacc - 0.01 else tg
  }

  /** A value due at the end of year `years`, discounted to today at `wacc`. */
  function Discount(value: real, wacc: real, years: nat): (r: real)
    requires 1.0 + wacc != 0.0
    ensures r * Pow(1.0 + wacc, years) == value
    ensures 1.0 + wacc > 0.0 ==> (r >= 0.0 <==> value >= 0.0)
  {
    var d := Pow(1.0 + wacc, years);
    var r := value / d;
    DivMulCancel(value, d);
    if 1.0 + wacc > 0.0 then ScaleByPositive(r, 0.0, d); r else r
  }

  /** Sum of each year's FCF discounted back `year` periods. */
  function PresentValue(fcf: seq<real>, wacc: real): (r: real)
    requires 1.0 + wacc != 0.0
    ensures 1.0 + wacc > 0.0 && (forall t :: 0 <= t < |fcf| ==> fcf[t] >= 0.0) ==> r >= 0.0
    ensures |fcf| == 0 ==> r == 0.0
  {
    if |fcf| == 0 then 0.0
    else
      var n := |fcf|;
      PresentValue(fcf[..n - 1], wacc) + Discount(fcf[n - 1], wacc, n)
  }

  /** Each year's contribution is its FCF over the discount factor: the
      present value of a one-year list, and how a list grows by one year. */
  lemma PresentValueAppend(fcf: seq<real>, wacc: real, x: real)
    requires 1.0 + wacc != 0.0
    ensures PresentValue(fcf + [x], wacc)
         == PresentValue(fcf, wacc) + Discount(x, wacc, |fcf| + 1)
  {
    assert (fcf + [x])[..|fcf|] == fcf;
  }

  /** The present value summed front to back, year `i + 1` discounted
      `i + 1` periods, as the source's generator expression adds it up. */
  method PresentValueLoop(fcf: seq<real>, wacc: real) returns (total: real)
    requires 1.0 + wacc != 0.0
    ensures total == PresentValue(fcf, wacc)
  {
    total := 0.0;
    var i := 0;
    while i < |fcf|
      invariant 0 <= i <= |fcf|
      invariant total == PresentValue(fcf[..i], wacc)
    {
      PresentValueAppend(fcf[..i], wacc, fcf[i]);
      assert fcf[..i] + [fcf[i]] == fcf[..i + 1];
      total := total + Discount(fcf[i], wacc, i + 1);
      i := i + 1;
    }
    assert fcf[..|fcf|] == fcf;
  }

  /** Equity value per share, floored at zero; zero without a positive
      share count. */
  function PerShareValue(equity: real, shares: real): (r: real)
    ensures r >= 0.0
    ensures shares <= 0.0 ==> r == 0.0
    ensures shares > 0.0 && equity >= 0.0 ==> r * shares == equity
    ensures shares > 0.0 && equity < 0.0 ==> r == 0.0
  {
    var raw := if shares <= 0.0 then 0.0 else equity / shares;
    assert shares > 0.0 && equity < 0.0 ==> equity / shares < 0.0;
    Max(raw, 0.0)
  }

  /** `(value - price) / price`, or `0.0` without a positive price. */
  function Upside(value: real, price: real): (r: real)
    ensures price > 0.0 ==> r * price == value - price
    ensures price > 0.0 ==> (r > 0.0 <==> value > price) && (r == 0.0 <==> value == price)
    ensures price > 0.0 && value >= 0.0 ==> r >= -1.0
    ensures price <= 0.0 ==> r == 0.0
  {
    if price > 0.0 then
      var r := (value - price) / price;
      DivMulCancel(value - price, price);
      ScaleByPositive(0.0, r, price);
      ScaleByPositive(-1.0, r, price);
      r
    else 0.0
  }

  /** Gordon growth: the last projected FCF grown one more year at the
      effective terminal rate, capitalized at WACC less that rate. */
  function TerminalValue(lastFcf: real, wacc: real, tg: real): (r: (real, real))
    ensures var etg := EffectiveTerminalGrowth(wacc, tg);
      r.0 == lastFcf * (1.0 + etg) && r.1 * (wacc - etg) == r.0
  {
    var etg := EffectiveTerminalGrowth(wacc, tg);
    var terminalFcf := lastFcf * (1.0 + etg);
    DivMulCancel(terminalFcf, wacc - etg);
    (terminalFcf, terminalFcf / (wacc - etg))
  }

  /** The valuation of a projection: terminal value, present values,
      enterprise and equity value, per-share value and upside. */
  function Valuate(x: EngineInput, name: string, g: real, tg: real, margin: real,
                   wacc: real, p: Projection): (s: DCFScenario)
    requires |p.fcf| > 0 && 1.0 + wacc != 0.0
    ensures s.scenarioName == name && s.projectionYears == |p.fcf| && s.currentPrice == x.currentPrice
    ensures s.revenueGrowthRate == g && s.terminalGrowthRate == tg
    ensures s.operatingMarginAssumption == margin && s.wacc == wacc
    ensures s.projectedRevenue == p.revenue && s.projectedEbit == p.ebit
    ensures s.projectedNopat == p.nopat && s.projectedFcf == p.fcf
  {
    var years := |p.fcf|;
    var terminal := TerminalValue(p.fcf[years - 1], wacc, tg);
    var pvExplicit := PresentValue(p.fcf, wacc);
    var pvTerminal := Discount(terminal.1, wacc, years);
    var ev := pvExplicit + pvTerminal;
    var equity := ev - x.netDebt;
    var iv := PerShareValue(equity, x.sharesOutstanding);
    DCFScenario(name, g, margin, tg, wacc, years, p.revenue, p.ebit, p.nopat, p.fcf,
                terminal.0, terminal.1, pvExplicit, pvTerminal, ev, equity, iv,
                x.currentPrice, Upside(iv, x.currentPrice))
  }

  /** What a valuation means: the terminal value capitalizes the last
      projected FCF, grown one more year, at WACC less the effective
      terminal growth; the explicit period is the present value of the
      FCFs and the terminal value is discounted over the whole period;
      enterprise value is the sum of the two and equity subtracts net debt. */
  lemma ValuateEnterprise(x: EngineInput, name: string, g: real, tg: real, margin: real,
                          wacc: real, p: Projection)
    requires |p.fcf| > 0 && 1.0 + wacc != 0.0
    ensures var s := Valuate(x, name, g, tg, margin, wacc, p);
      var etg := EffectiveTerminalGrowth(wacc, tg);
      var years := |p.fcf|;
      && s.terminalFcf == p.fcf[years - 1] * (1.0 + etg)
      && s.terminalValue * (wacc - etg) == s.terminalFcf
      && s.pvExplicitPeriod == PresentValue(p.fcf, wacc)
      && s.pvTerminalValue * Pow(1.0 + wacc, years) == s.terminalValue
      && s.enterpriseValue == s.pvExplicitPeriod + s.pvTerminalValue
      && s.equityValue == s.enterpriseValue - x.netDebt
  {}

  /** The per-share value is never negative; with a positive share count
      and equity it spreads the equity over the shares; with a positive
      price the upside relates it to the price. */
  lemma ValuatePerShare(x: EngineInput, name: string, g: real, tg: real, margin: real,
                        wacc: real, p: Projection)
    requires |p.fcf| > 0 && 1.0 + wacc != 0.0
    ensures var s := Valuate(x, name, g, tg, margin, wacc, p);
      && s.intrinsicValuePerShare >= 0.0
      && (x.sharesOutstanding > 0.0 && s.equityValue >= 0.0 ==>
            s.intrinsicValuePerShare * x.sharesOutstanding == s.equityValue)
      && (x.currentPrice > 0.0 ==>
            s.upsideDownsidePct * x.currentPrice == s.intrinsicValuePerShare - x.currentPrice)
  {}

  /** The figures of one scenario, before pydantic validates them: the
      projection for the scenario's assumptions, valued. */
  function ScenarioFigures(x: EngineInput, name: string, g: real, tg: real, margin: real,
                           wacc: real, years: nat): (s: DCFScenario)
    requires years > 0 && 1.0 + wacc != 0.0
    ensures s.projectionYears == years && s.currentPrice == x.currentPrice
  {
    Valuate(x, name, g, tg, margin, wacc, Project(x.ttmRevenue, g, tg, margin, EffectiveRoic(x.roic), years))
  }

  /** `calculate_dcf_scenario`: an empty projection has no last FCF, a
      discount base of zero divides by zero, and the record must pass
      validation. */
  function Scenario(x: EngineInput, name: string, g: real, tg: real, margin: real,
                    wacc: real, years: int): (r: Result<DCFScenario, Error>)
    ensures years <= 0 ==> r == Failure(IndexError)
    ensures years > 0 && 1.0 + wacc == 0.0 ==> r == Failure(ZeroDivisionError)
    ensures years > 0 && 1.0 + wacc != 0.0 ==>
      (r.Success? <==> 3 <= years <= 10 && x.currentPrice > 0.0)
    ensures r.Failure? ==> r.error in {IndexError, ZeroDivisionError,
      ValidationError("projection_years"), ValidationError("current_price")}
    ensures r.Success? ==> ValidScenario(r.value)
    ensures r.Success? ==> r.value == ScenarioFigures(x, name, g, tg, margin, wacc, years)
  {
    if years <= 0 then Failure(IndexError)
    else if 1.0 + wacc == 0.0 then Failure(ZeroDivisionError)
    else MakeScenario(ScenarioFigures(x, name, g, tg, margin, wacc, years))
  }

  /** The starting growth rate: the five-year revenue CAGR, `0.05` when it
      is missing or zero, `0.03` when it is negative. */
  function BaseGrowth(cagr: Option<real>): (r: real)
    ensures r >= 0.0
    ensures Truthy(cagr) && cagr.value > 0.0 ==> r == cagr.value
    ensures Truthy(cagr) && cagr.value < 0.0 ==> r == 0.03
    ensures !Truthy(cagr) ==> r == 0.05
  {
    var g := OrDefault(cagr, 0.05);
    if g < 0.0 then 0.03 else g
  }

  /** Growth, terminal growth and margin of one scenario. */
  datatype ScenarioParams = ScenarioParams(growth: real, terminal: real, margin: real)

  function ConservativeParams(base: real, margin: real): ScenarioParams {
    ScenarioParams(Max(0.02, base * 0.5), 0.02, margin * 0.85)
  }

  function BaseCaseParams(base: real, margin: real): ScenarioParams {
    ScenarioParams(base, 0.025, margin)
  }

  function OptimisticParams(base: real, margin: real): ScenarioParams {
    ScenarioParams(Min(0.25, base * 1.5), 0.03, Min(margin * 1.15, 0.35))
  }

  /** The fixed bounds of the scenarios: conservative growth is at least
      2%, optimistic growth at most 25% and optimistic margin at most 35%,
      with terminal rates rising 2% < 2.5% < 3%. */
  lemma ScenarioBounds(base: real, margin: real)
    ensures ConservativeParams(base, margin).growth >= 0.02
    ensures OptimisticParams(base, margin).growth <= 0.25
    ensures OptimisticParams(base, margin).margin <= 0.35
    ensures ConservativeParams(base, margin).terminal < BaseCaseParams(base, margin).terminal
         < OptimisticParams(base, margin).terminal
  {}

  /** The scenarios are ordered by growth exactly when the base growth lies
      in [2%, 25%]: outside it one of the caps crosses the base. */
  lemma GrowthOrderingIff(base: real, margin: real)
    ensures ConservativeParams(base, margin).growth <= base <= OptimisticParams(base, margin).growth
       <==> 0.02 <= base <= 0.25
  {}

  /** The scenarios are ordered by margin exactly when the current margin
      lies in [0, 35%]. */
  lemma MarginOrderingIff(base: real, margin: real)
    ensures ConservativeParams(base, margin).margin <= margin <= OptimisticParams(base, margin).margin
       <==> 0.0 <= margin <= 0.35
  {}

  /** The 25/50/25 probability-weighted intrinsic value. */
  function WeightedIntrinsicValue(conservative: real, baseCase: real, optimistic: real): (r: real)
    ensures Min(conservative, Min(baseCase, optimistic)) <= r
    ensures r <= Max(conservative, Max(baseCase, optimistic))
    ensures conservative >= 0.0 && baseCase >= 0.0 && optimistic >= 0.0 ==> r >= 0.0
    ensures conservative == baseCase == optimistic ==> r == baseCase
  {
    var w := DefaultScenarioWeights;
    conservative * w.conservative + baseCase * w.baseCase + optimistic * w.optimistic
  }

  /** `calculate_dcf`: the cost of capital, three scenarios, their weighted
      value and four sensitivity reruns of the base case. */
  function CalculateDcf(x: EngineInput): (r: Result<DCFValuation, Error>)
    ensures var wacc := CalculateWacc(x).wacc;
      r.Success? <==>
        1.0 + wacc != 0.0 && 1.0 + (wacc - 0.01) != 0.0 && 1.0 + (wacc + 0.01) != 0.0
        && x.currentPrice > 0.0
    ensures 1.0 + CalculateWacc(x).wacc == 0.0 ==> r == Failure(ZeroDivisionError)
    ensures 1.0 + CalculateWacc(x).wacc != 0.0 && x.currentPrice <= 0.0 ==>
      r == Failure(ValidationError("current_price"))
    ensures r.Success? ==> ValidDcf(r.value)
    ensures r.Success? ==> r.value.wacc == CalculateWacc(x).wacc
    ensures r.Success? ==> r.value.scenarioWeights == DefaultScenarioWeights
    ensures r.Success? ==> r.value.baseCase.revenueGrowthRate == BaseGrowth(x.revenueGrowth5yCagr)
    ensures r.Success? ==> r.value.conservative.terminalGrowthRate == 0.02
    ensures r.Success? ==> r.value.baseCase.terminalGrowthRate == 0.025
    ensures r.Success? ==> r.value.optimistic.terminalGrowthRate == 0.03
    ensures r.Success? ==> r.value.weightedIntrinsicValue >= 0.0
    ensures r.Success? ==>
      var d := r.value;
      var ivs := [d.conservative.intrinsicValuePerShare, d.baseCase.intrinsicValuePerShare,
                  d.optimistic.intrinsicValuePerShare];
      Min(ivs[0], Min(ivs[1], ivs[2])) <= d.weightedIntrinsicValue <= Max(ivs[0], Max(ivs[1], ivs[2]))
  {
    var w := CalculateWacc(x);
    var base := BaseGrowth(x.revenueGrowth5yCagr);
    var m := x.operatingMargin;
    var pc, pb, po := ConservativeParams(base, m), BaseCaseParams(base, m), OptimisticParams(base, m);
    var n := ProjectionYears;
    match Scenario(x, "conservative", pc.growth, pc.terminal, pc.margin, w.wacc, n)
    case Failure(e) => Failure(e)
    case Success(c) =>
    match Scenario(x, "base_case", pb.growth, pb.terminal, pb.margin, w.wacc, n)
    case Failure(e) => Failure(e)
    case Success(b) =>
    match Scenario(x, "optimistic", po.growth, po.terminal, po.margin, w.wacc, n)
    case Failure(e) => Failure(e)
    case Success(o) =>
    var weighted := WeightedIntrinsicValue(c.intrinsicValuePerShare, b.intrinsicValuePerShare,
                                           o.intrinsicValuePerShare);
    match Scenario(x, "sensitivity", pb.growth, 0.025, m, w.wacc - 0.01, n)
    case Failure(e) => Failure(e)
    case Success(waccMinus) =>
    match Scenario(x, "sensitivity", pb.growth, 0.025, m, w.wacc + 0.01, n)
    case Failure(e) => Failure(e)
    case Success(waccPlus) =>
    match Scenario(x, "sensitivity", pb.growth, 0.015, m, w.wacc, n)
    case Failure(e) => Failure(e)
    case Success(growthMinus) =>
    match Scenario(x, "sensitivity", pb.growth, 0.035, m, w.wacc, n)
    case Failure(e) => Failure(e)
    case Success(growthPlus) =>
    Success(DCFValuation(
      w.riskFreeRate, w.beta, w.equityRiskPremium, w.costOfEquity, w.costOfDebtPretax,
      TaxRate, w.costOfDebtAftertax, w.debtWeight, w.equityWeight, w.wacc,
      c, b, o, DefaultScenarioWeights, weighted,
      Sensitivity(waccMinus.intrinsicValuePerShare, waccPlus.intrinsicValuePerShare),
      Sensitivity(growthMinus.intrinsicValuePerShare, growthPlus.intrinsicValuePerShare)))
  }

  /** What a successful DCF is made of: each scenario is valued with its
      documented parameters (conservative at half the growth, floored at
      2%, and 85% of the margin; optimistic at 1.5 times the growth, capped
      at 25%, and 115% of the margin, capped at 35%), the weighted value is
      the 25/50/25 blend of their per-share values, and the sensitivities
      are the base case rerun at WACC -/+ 1% and at terminal growth 1.5%
      and 3.5%. */
  lemma CalculateDcfParts(x: EngineInput)
    ensures CalculateDcf(x).Success? ==>
      var d := CalculateDcf(x).value;
      var wacc := CalculateWacc(x).wacc;
      var base := BaseGrowth(x.revenueGrowth5yCagr);
      var m := x.operatingMargin;
      var pc, pb, po := ConservativeParams(base, m), BaseCaseParams(base, m), OptimisticParams(base, m);
      && d.conservative == ScenarioFigures(x, "conservative", pc.growth, pc.terminal, pc.margin, wacc, ProjectionYears)
      && d.baseCase == ScenarioFigures(x, "base_case", pb.growth, pb.terminal, pb.margin, wacc, ProjectionYears)
      && d.optimistic == ScenarioFigures(x, "optimistic", po.growth, po.terminal, po.margin, wacc, ProjectionYears)
      && d.weightedIntrinsicValue == WeightedIntrinsicValue(d.conservative.intrinsicValuePerShare,
           d.baseCase.intrinsicValuePerShare, d.optimistic.intrinsicValuePerShare)
      && d.sensitivityToWacc.minus1pct ==
           ScenarioFigures(x, "sensitivity", base, 0.025, m, wacc - 0.01, ProjectionYears).intrinsicValuePerShare
      && d.sensitivityToWacc.plus1pct ==
           ScenarioFigures(x, "sensitivity", base, 0.025, m, wacc + 0.01, ProjectionYears).intrinsicValuePerShare
      && d.sensitivityToGrowth.minus1pct ==
           ScenarioFigures(x, "sensitivity", base, 0.015, m, wacc, ProjectionYears).intrinsicValuePerShare
      && d.sensitivityToGrowth.plus1pct ==
           ScenarioFigures(x, "sensitivity", base, 0.035, m, wacc, ProjectionYears).intrinsicValuePerShare
  {}
}

=== FILE: engine_graham.dfy ===
/** Benjamin Graham's two checks: the Graham number `sqrt(22.5 * EPS * BVPS)`
    with its upside against the price, and the seven-criterion defensive
    investor screen. */
module Graham {
  import opened Wrappers
  import opened Errors
  import opened RealMath
  import opened EngineView
  import opened ValuationOutput

  /** 15 (maximum P/E) times 1.5 (maximum P/B). */
  const GrahamMultiplier: real := 22.5

  const MinRevenue: real := 700000000.0
  const MinCurrentRatio: real := 2.0
  const MinPositiveYears: nat := 10
  const MinDividendYears: nat := 20
  /** `GRAHAM_MIN_EPS_GROWTH_PCT / 100`: 33% over ten years. */
  const MinEpsGrowth: real := 0.33
  const MaxPe: real := 15.0
  const MaxPb: real := 1.5
  const MaxPePbProduct: real := 22.5
  const MinCriteriaPass: nat := 5
  const TotalCriteria: nat := 7

  /** History length from which the EPS growth is read off the history's
      two ends instead of being estimated from a CAGR. */
  const GrowthHistoryYears: nat := 10

  /** Book value per share: equity over shares, or 0 without a positive
      share count. */
  function BookValuePerShare(equity: real, shares: real): (r: real)
    ensures shares > 0.0 ==> r * shares == equity
    ensures shares <= 0.0 ==> r == 0.0
    ensures r > 0.0 <==> shares > 0.0 && equity > 0.0
  {
    if shares > 0.0 then
      var r := equity / shares;
      DivMulCancel(equity, shares);
      ScaleByPositive(0.0, r, shares);
      ScaleByPositive(r, 0.0, shares);
      r
    else 0.0
  }

  /** The Graham number, defined only for positive EPS and BVPS and 0
      otherwise. `sqrt` stands for `math.sqrt`. */
  function GrahamValue(eps: real, bvps: real, sqrt: real -> real): (r: real)
    requires IsSqrtFn(sqrt)
    ensures r >= 0.0
    ensures r > 0.0 <==> eps > 0.0 && bvps > 0.0
    ensures r > 0.0 ==> r * r == GrahamMultiplier * eps * bvps
  {
    if eps > 0.0 && bvps > 0.0 then
      var x := GrahamMultiplier * eps * bvps;
      assert x > 0.0 by {
        assert eps * bvps > 0.0;
        assert x == GrahamMultiplier * (eps * bvps);
      }
      assert sqrt(x) >= 0.0 && sqrt(x) * sqrt(x) == x;
      sqrt(x)
    else 0.0
  }

  /** Whichever function meets the definition of a square root, the Graham
      number is the same: the model does not depend on the oracle. */
  lemma GrahamValueOracleFree(eps: real, bvps: real, s1: real -> real, s2: real -> real)
    requires IsSqrtFn(s1) && IsSqrtFn(s2)
    ensures GrahamValue(eps, bvps, s1) == GrahamValue(eps, bvps, s2)
  {
    var a, b := GrahamValue(eps, bvps, s1), GrahamValue(eps, bvps, s2);
    if a > 0.0 {
      SqrtUnique(GrahamMultiplier * eps * bvps, a, b);
    }
  }

  /** Upside of the Graham number over the price, or the "not applicable"
      sentinel -1.0 when either is not positive. A real upside is always
      above -1.0, so the sentinel cannot be confused with one. */
  function GrahamUpside(number: real, price: real): (r: real)
    ensures number > 0.0 && price > 0.0 ==> r * price == number - price
    ensures r == -1.0 <==> !(number > 0.0 && price > 0.0)
  {
    if number > 0.0 && price > 0.0 then
      var r := (number - price) / price;
      DivMulCancel(number - price, price);
      ScaleByPositive(-1.0, r, price);
      r
    else -1.0
  }

  /** `calculate_graham_number`, including the `GrahamNumber` validation,
      which rejects a non-positive price. */
  function CalculateGrahamNumber(x: EngineInput, sqrt: real -> real): (r: Result<GrahamNumber, Error>)
    requires IsSqrtFn(sqrt)
    ensures r.Success? <==> x.currentPrice > 0.0
    ensures r.Failure? ==> r.error == ValidationError("current_price")
    ensures r.Success? ==> r.value.epsTtm == x.ttmEps && r.value.currentPrice == x.currentPrice
    ensures r.Success? ==> r.value.grahamMultiplier == GrahamMultiplier
    ensures r.Success? ==>
      r.value.bookValuePerShare == BookValuePerShare(x.shareholdersEquity, x.sharesOutstanding)
    ensures r.Success? ==> (r.value.grahamNumber > 0.0 <==>
      x.ttmEps > 0.0 && x.sharesOutstanding > 0.0 && x.shareholdersEquity > 0.0)
    ensures r.Success? ==> r.value.grahamNumber == GrahamValue(x.ttmEps, r.value.bookValuePerShare, sqrt)
    ensures r.Success? ==> (r.value.upsidePct == -1.0 <==> r.value.grahamNumber == 0.0)
    ensures r.Success? ==> r.value.upsidePct == GrahamUpside(r.value.grahamNumber, x.currentPrice)
  {
    var bvps := BookValuePerShare(x.shareholdersEquity, x.sharesOutstanding);
    var number := GrahamValue(x.ttmEps, bvps, sqrt);
    MakeGrahamNumber(GrahamNumber(x.ttmEps, bvps, GrahamMultiplier, number, x.currentPrice,
                                  GrahamUpside(number, x.currentPrice)))
  }

  /** The Graham number is at or above the price exactly when
      `22.5 * EPS * BVPS` is at least the price squared: the upside is
      non-negative on the same inputs. */
  lemma GrahamUpsideIffSquare(eps: real, bvps: real, price: real, sqrt: real -> real)
    requires IsSqrtFn(sqrt)
    requires eps > 0.0 && bvps > 0.0 && price > 0.0
    ensures GrahamUpside(GrahamValue(eps, bvps, sqrt), price) >= 0.0
        <==> GrahamMultiplier * eps * bvps >= price * price
  {
    var n := GrahamValue(eps, bvps, sqrt);
    var u := GrahamUpside(n, price);
    ScaleByPositive(u, 0.0, price);
    assert u >= 0.0 <==> n >= price;
    if n < price {
      SquaresDiffer(n, price);
    } else if price < n {
      SquaresDiffer(price, n);
    }
  }

  /** Number of `true` values: Python's `sum` over a list of booleans. */
  function CountTrue(bs: seq<bool>): (r: nat)
    ensures r <= |bs|
  {
    if |bs| == 0 then 0 else (if bs[0] then 1 else 0) + CountTrue(bs[1..])
  }

  /** The count reaches the length exactly when every value is `true`, and
      is zero exactly when none is. */
  lemma {:induction false} CountTrueExtremes(bs: seq<bool>)
    ensures CountTrue(bs) == |bs| <==> forall i :: 0 <= i < |bs| ==> bs[i]
    ensures CountTrue(bs) == 0 <==> forall i :: 0 <= i < |bs| ==> !bs[i]
  {
    if |bs| > 0 {
      CountTrueExtremes(bs[1..]);
      assert forall i :: 1 <= i < |bs| ==> bs[i] == bs[1..][i - 1];
    }
  }

  /** A year counts toward earnings stability when its net income is
      reported and positive. */
  predicate PositiveEarnings(h: HistoryRow) {
    h.netIncome.Some? && h.netIncome.value > 0.0
  }

  /** Number of history years with positive net income. */
  function PositiveYears(history: seq<HistoryRow>): (r: nat)
    ensures r <= |history|
  {
    if |history| == 0 then 0
    else (if PositiveEarnings(history[0]) then 1 else 0) + PositiveYears(history[1..])
  }

  /** Every year counts exactly when all have positive earnings, and none
      counts exactly when none has. */
  lemma {:induction false} PositiveYearsExtremes(history: seq<HistoryRow>)
    ensures PositiveYears(history) == |history|
        <==> forall i :: 0 <= i < |history| ==> PositiveEarnings(history[i])
    ensures PositiveYears(history) == 0
        <==> forall i :: 0 <= i < |history| ==> !PositiveEarnings(history[i])
  {
    if |history| > 0 {
      PositiveYearsExtremes(history[1..]);
      assert forall i :: 1 <= i < |history| ==> history[i] == history[1..][i - 1];
    }
  }

  /** Ten-year growth implied by a compound annual rate: `(1 + c) ** 10 - 1`. */
  function GrowthFromCagr(cagr: real): (r: real)
    ensures r + 1.0 == Pow(1.0 + cagr, 10)
    ensures cagr >= 0.0 ==> r >= 0.0
  {
    var growth := Pow(1.0 + cagr, 10) - 1.0;
    if cagr >= 0.0 then PowAtLeastOne(1.0 + cagr, 10); growth else growth
  }

  /** A higher compound rate never implies lower ten-year growth, for rates
      above -100%. */
  lemma GrowthFromCagrMonotone(a: real, b: real)
    requires -1.0 < a <= b
    ensures GrowthFromCagr(a) <= GrowthFromCagr(b)
  {
    PowMonotone(1.0 + a, 1.0 + b, 10);
  }

  /** The EPS growth behind criterion 5. With ten or more history years
      (most recent first) it compares the newest EPS with the oldest, which
      must be positive; with fewer it compounds the ten-year earnings CAGR;
      otherwise there is none. */
  function EpsGrowth10y(history: seq<HistoryRow>, cagr: Option<real>): (r: Option<real>)
    ensures |history| >= GrowthHistoryYears ==>
      (r.Some? <==> var oldest, newest := history[|history| - 1].eps, history[0].eps;
                    oldest.Some? && newest.Some? && oldest.value > 0.0)
    ensures |history| >= GrowthHistoryYears && r.Some? ==>
      var oldest, newest := history[|history| - 1].eps.value, history[0].eps.value;
      r.value * oldest == newest - oldest
    ensures |history| < GrowthHistoryYears ==> (r.Some? <==> cagr.Some?)
    ensures |history| < GrowthHistoryYears && cagr.Some? ==> r == Some(GrowthFromCagr(cagr.value))
  {
    if |history| >= GrowthHistoryYears then
      var oldest, newest := history[|history| - 1].eps, history[0].eps;
      if oldest.Some? && newest.Some? && oldest.value > 0.0 then
        DivMulCancel(newest.value - oldest.value, Abs(oldest.value));
        Some((newest.value - oldest.value) / Abs(oldest.value))
      else None
    else if cagr.Some? then Some(GrowthFromCagr(cagr.value))
    else None
  }

  /** The seven criteria in the order the source counts them; the product
      test can stand in for either valuation criterion. */
  function Criteria(c: GrahamDefensiveCriteria): (bs: seq<bool>)
    ensures |bs| == TotalCriteria
  {
    [ c.adequateSize,
      c.strongFinancialCondition,
      c.earningsStability,
      c.dividendRecord,
      c.earningsGrowth,
      c.moderatePe || c.grahamProductPasses,
      c.moderatePb || c.grahamProductPasses ]
  }

  /** The P/E and P/B tests: the ratio is reported, positive and at most
      `max`. */
  predicate ModerateRatio(ratio: Option<real>, max: real) {
    ratio.Some? && ratio.value <= max && ratio.value > 0.0
  }

  /** `P/E * P/B`, formed only when both ratios are reported and positive. */
  function PePbProduct(pe: Option<real>, pb: Option<real>): (r: Option<real>)
    ensures r.Some? <==> pe.Some? && pb.Some? && pe.value > 0.0 && pb.value > 0.0
    ensures r.Some? ==> r.value == pe.value * pb.value && r.value > 0.0
  {
    if pe.Some? && pb.Some? && pe.value > 0.0 && pb.value > 0.0 then
      assert pe.value * pb.value > 0.0;
      Some(pe.value * pb.value)
    else None
  }

  /** The product test passes when the product exists and is below 22.5. */
  predicate ProductPasses(product: Option<real>) {
    product.Some? && product.value < MaxPePbProduct
  }

  /** Criterion 5: a known ten-year EPS growth of at least 33%. */
  predicate GrowthPasses(growth: Option<real>) {
    growth.Some? && growth.value >= MinEpsGrowth
  }

  /** Criterion 4, relaxed to any dividend: `(dividend_yield or 0) > 0`,
      which is a reported positive yield. */
  function HasDividends(dividendYield: Option<real>): (r: bool)
    ensures r <==> dividendYield.Some? && dividendYield.value > 0.0
  {
    OrDefault(dividendYield, 0.0) > 0.0
  }

  /** `calculate_graham_screen`. */
  function GrahamScreen(x: EngineInput): (c: GrahamDefensiveCriteria)
    ensures ValidCriteria(c)
    ensures c.adequateSize <==> x.ttmRevenue >= MinRevenue
    ensures c.strongFinancialCondition <==> x.currentRatio >= MinCurrentRatio
    ensures c.yearsPositiveEarnings == PositiveYears(x.history)
    ensures c.earningsStability <==> c.yearsPositiveEarnings >= MinPositiveYears
    ensures c.dividendRecord <==> HasDividends(x.dividendYield)
    ensures c.dividendRecord ==> c.yearsDividendsPaid == MinDividendYears
    ensures !c.dividendRecord ==> c.yearsDividendsPaid == 0
    ensures c.eps10yGrowth == EpsGrowth10y(x.history, x.earningsGrowth10yCagr)
    ensures c.earningsGrowth <==> GrowthPasses(c.eps10yGrowth)
    ensures c.actualPe == x.peRatio && c.actualPb == x.priceToBook
    ensures c.moderatePe <==> ModerateRatio(x.peRatio, MaxPe)
    ensures c.moderatePb <==> ModerateRatio(x.priceToBook, MaxPb)
    ensures c.grahamProduct == PePbProduct(x.peRatio, x.priceToBook)
    ensures c.grahamProductPasses <==> ProductPasses(c.grahamProduct)
    ensures c.criteriaPassed == CountTrue(Criteria(c))
    ensures c.passesScreen <==> c.criteriaPassed >= MinCriteriaPass
  {
    var adequate := x.ttmRevenue >= MinRevenue;
    var strong := x.currentRatio >= MinCurrentRatio;
    var positive := PositiveYears(x.history);
    var stability := positive >= MinPositiveYears;
    var dividends := HasDividends(x.dividendYield);
    var growth := EpsGrowth10y(x.history, x.earningsGrowth10yCagr);
    var growthOk := GrowthPasses(growth);
    var moderatePe := ModerateRatio(x.peRatio, MaxPe);
    var moderatePb := ModerateRatio(x.priceToBook, MaxPb);
    var product := PePbProduct(x.peRatio, x.priceToBook);
    var productOk := ProductPasses(product);
    var peCounts, pbCounts := moderatePe || productOk, moderatePb || productOk;
    var passed := CountTrue([adequate, strong, stability, dividends, growthOk, peCounts, pbCounts]);
    GrahamDefensiveCriteria(
      adequate, x.ttmRevenue, strong, x.currentRatio, stability, positive,
      dividends, if dividends then MinDividendYears else 0, growthOk, growth,
      moderatePe, x.peRatio, moderatePb, x.priceToBook, product, productOk,
      passed, passed >= MinCriteriaPass)
  }

  /** Passing the product test alone earns two criteria: it stands in for
      both the P/E and the P/B test. */
  lemma ProductTestCountsTwice(x: EngineInput)
    ensures GrahamScreen(x).grahamProductPasses ==> GrahamScreen(x).criteriaPassed >= 2
  {
    var c := GrahamScreen(x);
    var bs := Criteria(c);
    if c.grahamProductPasses {
      assert bs == bs[..5] + [true, true];
      CountTrueAppend(bs[..5], [true, true]);
    }
  }

  /** Counting distributes over concatenation. */
  lemma {:induction false} CountTrueAppend(a: seq<bool>, b: seq<bool>)
    ensures CountTrue(a + b) == CountTrue(a) + CountTrue(b)
  {
    if |a| > 0 {
      assert (a + b)[1..] == a[1..] + b;
      CountTrueAppend(a[1..], b);
    } else {
      assert a + b == b;
    }
  }

  /** All seven criteria are met exactly when the count is seven, none
      exactly when it is zero, and the screen is failed exactly when three
      or more of the seven are missed. */
  lemma ScreenCountMeaning(x: EngineInput)
    ensures var c := GrahamScreen(x);
      c.criteriaPassed == TotalCriteria <==> forall i :: 0 <= i < TotalCriteria ==> Criteria(c)[i]
    ensures var c := GrahamScreen(x);
      c.criteriaPassed == 0 <==> forall i :: 0 <= i < TotalCriteria ==> !Criteria(c)[i]
    ensures var c := GrahamScreen(x);
      !c.passesScreen <==> TotalCriteria - c.criteriaPassed >= 3
  {
    CountTrueExtremes(Criteria(GrahamScreen(x)));
  }
}

=== FILE: engine_view.dfy ===
/** The interface the valuation engine reads its input through.

    `ValuationEngine` is written against `StandardizedValuationInput`, but
    in the default flow it is handed a `FlexibleInputAdapter` instead; both
    answer the same attribute names. `EngineInput` records the values of
    exactly those attributes, so each engine operation is one function of
    it, and each input path is one function producing it
    (`InputAdapter.View`, `ValuationInput.ToEngineInput`). */
module EngineView {
  import opened Wrappers

  /** One year of `historical_financials`, as far as the engine looks at it. */
  datatype HistoryRow = HistoryRow(
    fiscalYear: int,
    revenue: Option<real>,
    netIncome: Option<real>,
    eps: Option<real>)

  datatype EngineInput = EngineInput(
    ticker: string,
    companyName: string,
    dataConfidenceScore: real,
    // market position
    currentPrice: real,
    sharesOutstanding: real,
    marketCap: real,
    enterpriseValue: real,
    // statements
    ttmRevenue: real,
    ttmEps: real,
    shareholdersEquity: real,
    totalDebt: real,
    netDebt: real,
    // ratios
    operatingMargin: real,
    roic: Option<real>,
    debtToEquity: real,
    interestCoverage: Option<real>,
    currentRatio: real,
    peRatio: Option<real>,
    priceToBook: Option<real>,
    dividendYield: Option<real>,
    // growth and risk
    revenueGrowth5yCagr: Option<real>,
    earningsGrowth10yCagr: Option<real>,
    beta: Option<real>,
    riskFreeRate: real,
    equityRiskPremium: real,
    // history, most recent year first
    history: seq<HistoryRow>,
    // data quality
    dataAnomalies: seq<string>,
    missingFields: seq<string>)
}

=== FILE: engine_wacc.dfy ===
/** Cost of capital: the credit spread looked up from interest coverage,
    and the weighted average cost of capital (CAPM cost of equity plus
    after-tax cost of debt, weighted by market capitalization and debt). */
module CostOfCapital {
  import opened Wrappers
  import opened RealMath
  import opened EngineView

  /** US federal corporate tax rate. */
  const TaxRate: real := 0.21

  /** A row of the credit-spread table: coverage strictly below `threshold`
      earns `spread`. A `None` threshold is `float("inf")`. */
  datatype SpreadRow = SpreadRow(threshold: Option<real>, spread: real)

  const CreditSpreadTable: seq<SpreadRow> := [
    SpreadRow(Some(0.0), 0.05),
    SpreadRow(Some(1.5), 0.04),
    SpreadRow(Some(3.0), 0.03),
    SpreadRow(Some(5.0), 0.02),
    SpreadRow(Some(8.0), 0.015),
    SpreadRow(Some(12.0), 0.01),
    SpreadRow(None, 0.007)
  ]

  /** The spread used when coverage is missing or not positive. */
  const DistressedSpread: real := 0.05

  /** The spread for coverage past every threshold. */
  const BestSpread: real := 0.007

  predicate Below(coverage: real, row: SpreadRow) {
    row.threshold.None? || coverage < row.threshold.value
  }

  /** The spread of the first row whose threshold is strictly greater than
      `coverage`, or `BestSpread` when no row is. */
  function ScanTable(table: seq<SpreadRow>, coverage: real): (r: real)
    ensures (forall k :: 0 <= k < |table| ==> !Below(coverage, table[k])) ==> r == BestSpread
    ensures forall k :: 0 <= k < |table| && Below(coverage, table[k]) ==>
      (forall j :: 0 <= j < k ==> !Below(coverage, table[j])) ==> r == table[k].spread
  {
    if |table| == 0 then BestSpread
    else if Below(coverage, table[0]) then table[0].spread
    else
      var r := ScanTable(table[1..], coverage);
      assert forall k :: 1 <= k < |table| ==> table[k] == table[1..][k - 1];
      r
  }

  /** The table written out as the cascade of rating bands it encodes. */
  function RatingBandSpread(coverage: real): (r: real)
    ensures BestSpread <= r <= DistressedSpread
  {
    if coverage <= 0.0 then 0.05
    else if coverage < 1.5 then 0.04
    else if coverage < 3.0 then 0.03
    else if coverage < 5.0 then 0.02
    else if coverage < 8.0 then 0.015
    else if coverage < 12.0 then 0.01
    else 0.007
  }

  /** For positive coverage, scanning the table gives the band's spread. */
  lemma ScanTableMatchesBands(coverage: real)
    requires coverage > 0.0
    ensures ScanTable(CreditSpreadTable, coverage) == RatingBandSpread(coverage)
  {
    var t := CreditSpreadTable;
    var r := ScanTable(t, coverage);
    assert !Below(coverage, t[0]);
    if coverage < 1.5 {
      assert Below(coverage, t[1]);
    } else if coverage < 3.0 {
      assert !Below(coverage, t[1]) && Below(coverage, t[2]);
    } else if coverage < 5.0 {
      assert !Below(coverage, t[1]) && !Below(coverage, t[2]) && Below(coverage, t[3]);
    } else if coverage < 8.0 {
      assert forall j :: 0 <= j < 4 ==> !Below(coverage, t[j]);
      assert Below(coverage, t[4]);
    } else if coverage < 12.0 {
      assert forall j :: 0 <= j < 5 ==> !Below(coverage, t[j]);
      assert Below(coverage, t[5]);
    } else {
      assert forall j :: 0 <= j < 6 ==> !Below(coverage, t[j]);
      assert Below(coverage, t[6]);
    }
  }

  /** `_get_credit_spread`: missing or non-positive coverage is distressed;
      otherwise the table decides. */
  function CreditSpread(coverage: Option<real>): (r: real)
    ensures coverage.None? || coverage.value <= 0.0 ==> r == DistressedSpread
    ensures coverage.Some? ==> r == RatingBandSpread(coverage.value)
    ensures BestSpread <= r <= DistressedSpread
  {
    if coverage.None? || coverage.value <= 0.0 then DistressedSpread
    else
      ScanTableMatchesBands(coverage.value);
      ScanTable(CreditSpreadTable, coverage.value)
  }

  /** Better coverage never costs a higher spread. */
  lemma CreditSpreadMonotone(a: real, b: real)
    requires a <= b
    ensures CreditSpread(Some(b)) <= CreditSpread(Some(a))
  {}

  /** The band edges: exactly 1.5 is already in the B band, and 12 or more
      earns the best rating. */
  lemma CreditSpreadEdges(coverage: real)
    ensures CreditSpread(Some(1.5)) == 0.03
    ensures coverage >= 12.0 ==> CreditSpread(Some(coverage)) == BestSpread
    ensures 0.0 < coverage < 1.5 ==> CreditSpread(Some(coverage)) == 0.04
  {}

  /** The components `calculate_wacc` reports alongside the rate. */
  datatype WaccComponents = WaccComponents(
    riskFreeRate: real,
    beta: real,
    equityRiskPremium: real,
    costOfEquity: real,
    creditSpread: real,
    costOfDebtPretax: real,
    costOfDebtAftertax: real,
    equityWeight: real,
    debtWeight: real,
    wacc: real)

  /** Capital-structure weights from market capitalization and debt, each
      clamped at zero; an all-zero structure counts as 100% equity. */
  function CapitalWeights(marketCap: real, totalDebt: real): (w: (real, real))
    ensures 0.0 <= w.0 <= 1.0 && 0.0 <= w.1 <= 1.0 && w.0 + w.1 == 1.0
    ensures Max(marketCap, 0.0) + Max(totalDebt, 0.0) <= 0.0 ==> w == (1.0, 0.0)
    ensures Max(marketCap, 0.0) + Max(totalDebt, 0.0) > 0.0 ==>
      w.0 * (Max(marketCap, 0.0) + Max(totalDebt, 0.0)) == Max(marketCap, 0.0)
    ensures Max(marketCap, 0.0) + Max(totalDebt, 0.0) > 0.0 ==>
      w.1 * (Max(marketCap, 0.0) + Max(totalDebt, 0.0)) == Max(totalDebt, 0.0)
    ensures totalDebt <= 0.0 ==> w == (1.0, 0.0)
    ensures marketCap <= 0.0 && totalDebt > 0.0 ==> w == (0.0, 1.0)
  {
    var e := Max(marketCap, 0.0);
    var d := Max(totalDebt, 0.0);
    var v := e + d;
    if v <= 0.0 then (1.0, 0.0)
    else
      var we, wd := e / v, d / v;
      DivMulCancel(e, v);
      DivMulCancel(d, v);
      assert (we + wd) * v == we * v + wd * v == e + d;
      ScaleByPositive(we + wd, 1.0, v);
      ScaleByPositive(we, 0.0, v);
      ScaleByPositive(wd, 0.0, v);
      (we, wd)
  }

  /** The CAPM cost of equity; a missing beta is the market's, 1.0. */
  function CostOfEquity(riskFreeRate: real, beta: Option<real>, premium: real): (r: real)
    ensures beta.None? ==> r == riskFreeRate + premium
    ensures premium >= 0.0 && beta.GetOr(1.0) >= 0.0 ==> r >= riskFreeRate
  {
    var b := beta.GetOr(1.0);
    assert premium >= 0.0 && b >= 0.0 ==> b * premium >= 0.0;
    riskFreeRate + b * premium
  }

  /** A weighted average of two rates lies between them. */
  function Blend(we: real, wd: real, a: real, b: real): (r: real)
    requires 0.0 <= we && 0.0 <= wd && we + wd == 1.0
    ensures Min(a, b) <= r <= Max(a, b)
    ensures we == 1.0 ==> r == a
    ensures wd == 1.0 ==> r == b
  {
    ConvexCombination(we, wd, a, b);
    we * a + wd * b
  }

  /** `calculate_wacc`: CAPM cost of equity (a missing beta counts as the
      market's), the risk-free rate plus the credit spread taxed at
      `TaxRate` as the cost of debt, blended by the capital weights. */
  function CalculateWacc(x: EngineInput): (c: WaccComponents)
    ensures c.riskFreeRate == x.riskFreeRate && c.equityRiskPremium == x.equityRiskPremium
    ensures c.beta == x.beta.GetOr(1.0)
    ensures x.beta.None? ==> c.costOfEquity == x.riskFreeRate + x.equityRiskPremium
    ensures c.creditSpread == CreditSpread(x.interestCoverage)
    ensures c.costOfDebtPretax == x.riskFreeRate + c.creditSpread
    ensures (c.equityWeight, c.debtWeight) == CapitalWeights(x.marketCap, x.totalDebt)
    ensures Min(c.costOfEquity, c.costOfDebtAftertax) <= c.wacc
         <= Max(c.costOfEquity, c.costOfDebtAftertax)
    ensures x.totalDebt <= 0.0 ==> c.wacc == c.costOfEquity
    ensures x.marketCap <= 0.0 && x.totalDebt > 0.0 ==> c.wacc == c.costOfDebtAftertax
  {
    var beta := x.beta.GetOr(1.0);
    var costOfEquity := CostOfEquity(x.riskFreeRate, x.beta, x.equityRiskPremium);
    var spread := CreditSpread(x.interestCoverage);
    var pretax := x.riskFreeRate + spread;
    var aftertax := pretax * (1.0 - TaxRate);
    var w := CapitalWeights(x.marketCap, x.totalDebt);
    WaccComponents(x.riskFreeRate, beta, x.equityRiskPremium, costOfEquity, spread,
                   pretax, aftertax, w.0, w.1, Blend(w.0, w.1, costOfEquity, aftertax))
  }
}

=== FILE: errors.dfy ===
/** The exceptions the modelled code raises, by kind. Every operation that
    can raise returns a `Result<_, Error>` instead. */
module Errors {

  datatype Error =
      /** pydantic rejected the named field. */
    | ValidationError(field: string)
      /** `xs[-1]` or `xs[0]` on an empty list. */
    | IndexError
      /** A float division by `0.0`. */
    | ZeroDivisionError
      /** An operation on a value of the wrong type: an ordering comparison
          on a complex number, or arithmetic or sorting across a number and
          a string. */
    | TypeError
      /** A method called on a value that lacks it, such as `.upper()` on a
          number or on `None`. */
    | AttributeError
      /** A lookup of a key that is not there. */
    | KeyError(key: string)
      /** `InvalidResponseError`: the model's reply holds no `{...}` span. */
    | InvalidResponse
      /** An `HTTPException` with its status code. */
    | HttpError(status: int)
}

=== FILE: flexible_input.dfy ===
/** `FlexibleValuationInput`: the partial, mostly optional record the AI
    extraction fills in, its two field validators and its derived
    accessors. Only the fields some part of the model reads are kept;
    every one of them is optional in the source unless noted. */
module FlexibleInput {
  import opened Wrappers
  import opened Errors
  import opened RealMath
  import opened Strings
  import opened Sequences

  /** `risk_parameters.risk_free_rate` when the extraction gives none. */
  const DefaultRiskFreeRate: real := 0.045

  datatype Metadata = Metadata(sector: Option<string>, industry: Option<string>)

  /** `current_price` is the one required number. */
  datatype MarketPosition = MarketPosition(
    currentPrice: real,
    sharesOutstanding: Option<real>,
    marketCap: Option<real>,
    enterpriseValue: Option<real>)

  datatype IncomeStatement = IncomeStatement(
    revenue: Option<real>,
    costOfRevenue: Option<real>,
    grossProfit: Option<real>,
    operatingExpenses: Option<real>,
    operatingIncome: Option<real>,
    netIncome: Option<real>,
    ebitda: Option<real>,
    eps: Option<real>)

  datatype CashFlow = CashFlow(
    operatingCashFlow: Option<real>,
    capitalExpenditures: Option<real>,
    freeCashFlow: Option<real>)

  datatype BalanceSheet = BalanceSheet(
    totalCash: Option<real>,
    totalCurrentAssets: Option<real>,
    totalAssets: Option<real>,
    totalCurrentLiabilities: Option<real>,
    totalDebt: Option<real>,
    totalLiabilities: Option<real>,
    shareholdersEquity: Option<real>)

  datatype CalculatedMetrics = CalculatedMetrics(
    netDebt: Option<real>,
    workingCapital: Option<real>,
    investedCapital: Option<real>)

  /** The profitability, leverage, liquidity and multiple ratios the model reads. */
  datatype Ratios = Ratios(
    grossMargin: Option<real>,
    operatingMargin: Option<real>,
    roic: Option<real>,
    debtToEquity: Option<real>,
    interestCoverage: Option<real>,
    currentRatio: Option<real>,
    peRatio: Option<real>,
    priceToBook: Option<real>)

  datatype GrowthRates = GrowthRates(
    revenueGrowth1y: Option<real>,
    revenueGrowth3yCagr: Option<real>,
    revenueGrowth5yCagr: Option<real>,
    revenueGrowth10yCagr: Option<real>)

  /** `risk_free_rate` is a plain float with a default. */
  datatype RiskParameters = RiskParameters(beta: Option<real>, riskFreeRate: real)

  datatype HistoricalYear = HistoricalYear(
    fiscalYear: int,
    revenue: Option<real>,
    netIncome: Option<real>,
    eps: Option<real>)

  datatype DataQuality = DataQuality(
    fieldsMissing: seq<string>,
    fieldsEstimated: seq<string>,
    dataAnomalies: seq<string>)

  datatype FlexibleValuationInput = FlexibleValuationInput(
    ticker: string,
    companyName: string,
    dataConfidenceScore: real,
    metadata: Metadata,
    marketPosition: MarketPosition,
    income: IncomeStatement,
    cashFlow: CashFlow,
    balanceSheet: BalanceSheet,
    calculatedMetrics: CalculatedMetrics,
    ratios: Ratios,
    growthRates: GrowthRates,
    riskParameters: RiskParameters,
    dividendYield: Option<real>,
    historicalFinancials: seq<HistoricalYear>,
    dataQuality: DataQuality)

  /** The risk parameters of an extraction that reported none. */
  function DefaultRiskParameters(): (p: RiskParameters)
    ensures p.beta.None? && p.riskFreeRate == DefaultRiskFreeRate
  {
    RiskParameters(None, DefaultRiskFreeRate)
  }

  /** The field constraint: `data_confidence_score` lies in [0, 1]. */
  predicate Valid(d: FlexibleValuationInput) {
    0.0 <= d.dataConfidenceScore <= 1.0
  }

  /** The `ticker` validator: `v.upper().strip()`. */
  function NormalizeTicker(v: string): (r: string)
    ensures IsStripOf(r, Upper(v))
    ensures r == Upper(Strip(v))
  {
    StripUpperCommute(v);
    StripSpec(Upper(v));
    Strip(Upper(v))
  }

  /** Normalizing an already normalized ticker changes nothing. */
  lemma NormalizeTickerIdempotent(v: string)
    ensures NormalizeTicker(NormalizeTicker(v)) == NormalizeTicker(v)
  {
    var r := NormalizeTicker(v);
    StripUpperCommute(r);
    UpperIdempotent(Strip(v));
    StripUpperCommute(v);
    StripIdempotent(Upper(v));
  }

  /** Orders history rows most recent first: the `key=fiscal_year,
      reverse=True` comparison. */
  function NewerOrSame(a: HistoricalYear, b: HistoricalYear): bool {
    a.fiscalYear >= b.fiscalYear
  }

  lemma NewerOrSameTotalPreorder()
    ensures TotalPreorder(NewerOrSame)
  {}

  /** The `historical_financials` validator: the rows sorted by fiscal year,
      most recent first. */
  function SortHistorical(v: seq<HistoricalYear>): (r: seq<HistoricalYear>)
    ensures multiset(r) == multiset(v)
    ensures forall i, j :: 0 <= i < j < |r| ==> r[i].fiscalYear >= r[j].fiscalYear
  {
    NewerOrSameTotalPreorder();
    Sort(v, NewerOrSame)
  }

  function SameYear(year: int): HistoricalYear -> bool {
    (h: HistoricalYear) => h.fiscalYear == year
  }

  /** `sorted` is stable: rows of the same fiscal year keep the order they
      were given in, so which of them the engine reads first is the input's
      choice. */
  lemma SortHistoricalStable(v: seq<HistoricalYear>, y: HistoricalYear)
    ensures Filter(SortHistorical(v), SameYear(y.fiscalYear)) == Filter(v, SameYear(y.fiscalYear))
  {
    NewerOrSameTotalPreorder();
    SortStable(v, NewerOrSame, y);
    FilterCongruent(SortHistorical(v), SameYear(y.fiscalYear), TiedWith(NewerOrSame, y));
    FilterCongruent(v, SameYear(y.fiscalYear), TiedWith(NewerOrSame, y));
  }

  /** pydantic validation of a raw extraction: the score bound is checked,
      then the two field validators run. */
  function Create(raw: FlexibleValuationInput): (r: Result<FlexibleValuationInput, Error>)
    ensures r.Success? <==> Valid(raw)
    ensures r.Success? ==> Valid(r.value)
    ensures r.Success? ==> r.value.ticker == Upper(Strip(raw.ticker))
    ensures r.Success? ==>
      multiset(r.value.historicalFinancials) == multiset(raw.historicalFinancials)
    ensures r.Success? ==> forall i, j :: 0 <= i < j < |r.value.historicalFinancials| ==>
      r.value.historicalFinancials[i].fiscalYear >= r.value.historicalFinancials[j].fiscalYear
    ensures r.Success? ==>
      r.value == raw.(ticker := r.value.ticker, historicalFinancials := r.value.historicalFinancials)
    ensures r.Failure? ==> r.error == ValidationError("data_confidence_score")
  {
    if !Valid(raw) then Failure(ValidationError("data_confidence_score"))
    else Success(raw.(ticker := NormalizeTicker(raw.ticker),
                      historicalFinancials := SortHistorical(raw.historicalFinancials)))
  }

  /** `has_dcf_data`: a free cash flow is reported, or both of the figures
      it can be derived from are. */
  predicate HasDcfData(d: FlexibleValuationInput) {
    || d.cashFlow.freeCashFlow.Some?
    || (d.cashFlow.operatingCashFlow.Some? && d.cashFlow.capitalExpenditures.Some?)
  }

  /** `has_graham_data`: EPS, equity and share count are all reported. */
  predicate HasGrahamData(d: FlexibleValuationInput) {
    && d.income.eps.Some?
    && d.balanceSheet.shareholdersEquity.Some?
    && d.marketPosition.sharesOutstanding.Some?
  }

  /** `fcf`: the reported free cash flow (a reported `0.0` counts), else
      operating cash flow less the magnitude of capital expenditure. */
  function Fcf(d: FlexibleValuationInput): (r: Option<real>)
    ensures d.cashFlow.freeCashFlow.Some? ==> r == d.cashFlow.freeCashFlow
    ensures d.cashFlow.freeCashFlow.None? ==>
      (r.Some? <==> d.cashFlow.operatingCashFlow.Some? && d.cashFlow.capitalExpenditures.Some?)
    ensures d.cashFlow.freeCashFlow.None? && r.Some? ==>
      r.value <= d.cashFlow.operatingCashFlow.value
      && r.value + Abs(d.cashFlow.capitalExpenditures.value) == d.cashFlow.operatingCashFlow.value
  {
    var cf := d.cashFlow;
    if cf.freeCashFlow.Some? then cf.freeCashFlow
    else if cf.operatingCashFlow.Some? && cf.capitalExpenditures.Some? then
      Some(cf.operatingCashFlow.value - Abs(cf.capitalExpenditures.value))
    else None
  }

  /** DCF data is available exactly when a free cash flow can be produced. */
  lemma HasDcfDataIffFcf(d: FlexibleValuationInput)
    ensures HasDcfData(d) <==> Fcf(d).Some?
  {}

  /** `book_value_per_share`: equity spread over a positive share count,
      `None` when either is missing or the count is not positive. */
  function BookValuePerShare(d: FlexibleValuationInput): (r: Option<real>)
    ensures r.Some? <==>
      d.balanceSheet.shareholdersEquity.Some?
      && d.marketPosition.sharesOutstanding.Some?
      && d.marketPosition.sharesOutstanding.value > 0.0
    ensures r.Some? ==>
      r.value * d.marketPosition.sharesOutstanding.value == d.balanceSheet.shareholdersEquity.value
  {
    var equity := d.balanceSheet.shareholdersEquity;
    var shares := d.marketPosition.sharesOutstanding;
    if equity.Some? && shares.Some? && shares.value > 0.0 then
      Some(equity.value / shares.value)
    else None
  }

  /** A book value per share exists only when Graham data does, but not
      conversely: the share count may be zero or negative. */
  lemma BookValueNeedsGrahamData(d: FlexibleValuationInput)
    ensures d.income.eps.Some? && BookValuePerShare(d).Some? ==> HasGrahamData(d)
  {}

  /** `get_growth_rate(years)`: the revenue growth field for a 1, 3, 5 or
      10 year horizon, `None` for any other horizon. */
  function GetGrowthRate(d: FlexibleValuationInput, years: int): (r: Option<real>)
    ensures years !in {1, 3, 5, 10} ==> r.None?
    ensures years == 5 ==> r == d.growthRates.revenueGrowth5yCagr
    ensures years == 1 ==> r == d.growthRates.revenueGrowth1y
    ensures years == 3 ==> r == d.growthRates.revenueGrowth3yCagr
    ensures years == 10 ==> r == d.growthRates.revenueGrowth10yCagr
  {
    if years == 1 then d.growthRates.revenueGrowth1y
    else if years == 3 then d.growthRates.revenueGrowth3yCagr
    else if years == 5 then d.growthRates.revenueGrowth5yCagr
    else if years == 10 then d.growthRates.revenueGrowth10yCagr
    else None
  }
}

=== FILE: input_adapter.dfy ===
/** `FlexibleInputAdapter`: how the engine sees a `FlexibleValuationInput`.
    Each accessor answers one attribute the engine reads, falling back to
    figures derived from other fields, or to a fixed default, when the
    extraction left the field out. Most fallbacks use Python's `x or d`,
    under which a reported `0.0` counts as missing (`OrDefault`). */
module InputAdapter {
  import opened Wrappers
  import opened Errors
  import opened RealMath
  import opened Strings
  import opened Sequences
  import opened FlexibleInput
  import opened EngineView

  /** The share count assumed when neither it nor the market cap helps. */
  const FallbackShares: real := 1000000.0

  /** `roic` when none is reported. */
  const DefaultRoic: real := 0.10

  /** The adapter's fixed equity risk premium. */
  const AdapterEquityRiskPremium: real := 0.05

  /** The revenue growth used when neither a 5-year CAGR nor a history
      long enough to derive one is available, and no 1-year growth is. */
  const DefaultRevenueGrowth: real := 0.05

  /** The sector and industry of an extraction that names none. */
  const Unknown: string := "Unknown"

  /** `sector`: the reported sector unless missing or empty. */
  function Sector(d: FlexibleValuationInput): (r: string)
    ensures |r| > 0
    ensures d.metadata.sector.Some? && |d.metadata.sector.value| > 0 ==> r == d.metadata.sector.value
  {
    match d.metadata.sector
    case Some(s) => if |s| > 0 then s else Unknown
    case None => Unknown
  }

  /** `industry`: the reported industry unless missing or empty. */
  function Industry(d: FlexibleValuationInput): (r: string)
    ensures |r| > 0
    ensures d.metadata.industry.Some? && |d.metadata.industry.value| > 0 ==>
      r == d.metadata.industry.value
  {
    match d.metadata.industry
    case Some(s) => if |s| > 0 then s else Unknown
    case None => Unknown
  }

  /** `current_price`: the reported price when positive, else `0.0` for
      the caller to reject. */
  function CurrentPrice(d: FlexibleValuationInput): (r: real)
    ensures r >= 0.0
    ensures r > 0.0 <==> d.marketPosition.currentPrice > 0.0
    ensures r > 0.0 ==> r == d.marketPosition.currentPrice
  {
    var price := d.marketPosition.currentPrice;
    if price != 0.0 && price > 0.0 then price else 0.0
  }

  /** `shares_outstanding`: the reported count, else market cap over a
      positive price, else one million. */
  function SharesOutstanding(d: FlexibleValuationInput): (r: real)
    ensures Truthy(d.marketPosition.sharesOutstanding) ==> r == d.marketPosition.sharesOutstanding.value
    ensures (!Truthy(d.marketPosition.sharesOutstanding) && Truthy(d.marketPosition.marketCap)
      && CurrentPrice(d) > 0.0) ==> r * CurrentPrice(d) == d.marketPosition.marketCap.value
    ensures (!Truthy(d.marketPosition.sharesOutstanding)
      && !(Truthy(d.marketPosition.marketCap) && CurrentPrice(d) > 0.0)) ==> r == FallbackShares
  {
    var mp := d.marketPosition;
    if Truthy(mp.sharesOutstanding) then mp.sharesOutstanding.value
    else if Truthy(mp.marketCap) && CurrentPrice(d) > 0.0 then
      DivMulCancel(mp.marketCap.value, CurrentPrice(d));
      mp.marketCap.value / CurrentPrice(d)
    else FallbackShares
  }

  /** `market_cap`: the reported value, else price times shares. */
  function MarketCap(d: FlexibleValuationInput): (r: real)
    ensures Truthy(d.marketPosition.marketCap) ==> r == d.marketPosition.marketCap.value
    ensures !Truthy(d.marketPosition.marketCap) ==> r == CurrentPrice(d) * SharesOutstanding(d)
  {
    if Truthy(d.marketPosition.marketCap) then d.marketPosition.marketCap.value
    else CurrentPrice(d) * SharesOutstanding(d)
  }

  /** Without a reported share count, the market cap is price times the
      derived share count, unless a reported market cap could not be
      divided by a missing price. */
  lemma MarketCapConsistent(d: FlexibleValuationInput)
    requires !Truthy(d.marketPosition.sharesOutstanding)
    requires CurrentPrice(d) > 0.0 || !Truthy(d.marketPosition.marketCap)
    ensures MarketCap(d) == CurrentPrice(d) * SharesOutstanding(d)
  {}

  /** A reported market cap with no share count and no price leaves the
      two figures inconsistent: the one-million fallback is used. */
  lemma MarketCapFallbackInconsistent(d: FlexibleValuationInput)
    requires !Truthy(d.marketPosition.sharesOutstanding)
    requires Truthy(d.marketPosition.marketCap) && d.marketPosition.currentPrice <= 0.0
    ensures SharesOutstanding(d) == FallbackShares
    ensures MarketCap(d) != CurrentPrice(d) * SharesOutstanding(d)
  {}

  /** `ttm_revenue`: the reported figure, and zero when it is missing or zero. */
  function TtmRevenue(d: FlexibleValuationInput): (r: real)
    ensures Truthy(d.income.revenue) ==> r == d.income.revenue.value
    ensures !Truthy(d.income.revenue) ==> r == 0.0
  {
    OrDefault(d.income.revenue, 0.0)
  }

  /** `ttm_gross_profit`: reported, else revenue times the gross margin,
      else revenue less a reported cost of revenue, else zero. */
  function TtmGrossProfit(d: FlexibleValuationInput): (r: real)
    ensures Truthy(d.income.grossProfit) ==> r == d.income.grossProfit.value
    ensures !Truthy(d.income.grossProfit) && TtmRevenue(d) <= 0.0 ==> r == 0.0
    ensures (!Truthy(d.income.grossProfit) && d.ratios.grossMargin.None?
      && Truthy(d.income.costOfRevenue) && TtmRevenue(d) > 0.0) ==>
      r + d.income.costOfRevenue.value == TtmRevenue(d)
  {
    var revenue := TtmRevenue(d);
    if Truthy(d.income.grossProfit) then d.income.grossProfit.value
    else if d.ratios.grossMargin.Some? && revenue > 0.0 then revenue * d.ratios.grossMargin.value
    else if Truthy(d.income.costOfRevenue) && revenue > 0.0 then revenue - d.income.costOfRevenue.value
    else 0.0
  }

  /** `ttm_cost_of_revenue`: reported, else revenue less a positive gross
      profit, else revenue times one minus the gross margin, else zero. */
  function TtmCostOfRevenue(d: FlexibleValuationInput): (r: real)
    ensures Truthy(d.income.costOfRevenue) ==> r == d.income.costOfRevenue.value
    ensures !Truthy(d.income.costOfRevenue) && TtmRevenue(d) <= 0.0 ==> r == 0.0
    ensures !Truthy(d.income.costOfRevenue) && TtmGrossProfit(d) > 0.0 && TtmRevenue(d) > 0.0 ==>
      r + TtmGrossProfit(d) == TtmRevenue(d)
  {
    var revenue := TtmRevenue(d);
    if Truthy(d.income.costOfRevenue) then d.income.costOfRevenue.value
    else if TtmGrossProfit(d) > 0.0 && revenue > 0.0 then revenue - TtmGrossProfit(d)
    else if d.ratios.grossMargin.Some? && revenue > 0.0 then revenue * (1.0 - d.ratios.grossMargin.value)
    else 0.0
  }

  /** Whenever the cost of revenue is derived and a gross profit or margin
      is there to derive it from, the two derived figures split revenue
      exactly. */
  lemma CostAndGrossProfitSplitRevenue(d: FlexibleValuationInput)
    requires !Truthy(d.income.costOfRevenue) && TtmRevenue(d) > 0.0
    requires TtmGrossProfit(d) > 0.0 || (d.ratios.grossMargin.Some? && !Truthy(d.income.grossProfit))
    ensures TtmCostOfRevenue(d) + TtmGrossProfit(d) == TtmRevenue(d)
  {}

  /** `ttm_operating_income`: the reported figure, and zero when it is missing or zero. */
  function TtmOperatingIncome(d: FlexibleValuationInput): (r: real)
    ensures Truthy(d.income.operatingIncome) ==> r == d.income.operatingIncome.value
    ensures !Truthy(d.income.operatingIncome) ==> r == 0.0
  {
    OrDefault(d.income.operatingIncome, 0.0)
  }

  /** `ttm_operating_expenses`: reported, else gross profit less operating
      income when both are positive, else zero. */
  function TtmOperatingExpenses(d: FlexibleValuationInput): (r: real)
    ensures Truthy(d.income.operatingExpenses) ==> r == d.income.operatingExpenses.value
    ensures (!Truthy(d.income.operatingExpenses) && TtmGrossProfit(d) > 0.0
      && TtmOperatingIncome(d) > 0.0) ==> r + TtmOperatingIncome(d) == TtmGrossProfit(d)
    ensures (!Truthy(d.income.operatingExpenses)
      && (TtmGrossProfit(d) <= 0.0 || TtmOperatingIncome(d) <= 0.0)) ==> r == 0.0
  {
    if Truthy(d.income.operatingExpenses) then d.income.operatingExpenses.value
    else if TtmGrossProfit(d) > 0.0 && TtmOperatingIncome(d) > 0.0 then
      TtmGrossProfit(d) - TtmOperatingIncome(d)
    else 0.0
  }

  /** `ttm_ebitda`: the reported figure, and zero when it is missing or zero. */
  function TtmEbitda(d: FlexibleValuationInput): (r: real)
    ensures Truthy(d.income.ebitda) ==> r == d.income.ebitda.value
    ensures !Truthy(d.income.ebitda) ==> r == 0.0
  {
    OrDefault(d.income.ebitda, 0.0)
  }

  /** `ttm_free_cash_flow`: reported unless zero, else operating cash flow
      less the magnitude of capital expenditure when operating cash flow
      is non-zero, else zero. */
  function TtmFreeCashFlow(d: FlexibleValuationInput): (r: real)
    ensures Truthy(d.cashFlow.freeCashFlow) ==> r == d.cashFlow.freeCashFlow.value
    ensures !Truthy(d.cashFlow.freeCashFlow) && !Truthy(d.cashFlow.operatingCashFlow) ==> r == 0.0
    ensures (!Truthy(d.cashFlow.freeCashFlow) && Truthy(d.cashFlow.operatingCashFlow)) ==>
      r <= d.cashFlow.operatingCashFlow.value
      && r + Abs(OrDefault(d.cashFlow.capitalExpenditures, 0.0)) == d.cashFlow.operatingCashFlow.value
  {
    var cf := d.cashFlow;
    if Truthy(cf.freeCashFlow) then cf.freeCashFlow.value
    else
      var ocf := OrDefault(cf.operatingCashFlow, 0.0);
      var capex := Abs(OrDefault(cf.capitalExpenditures, 0.0));
      if ocf != 0.0 then ocf - capex else 0.0
  }

  /** The adapter's free cash flow agrees with `fcf` whenever both derive
      it from a non-zero operating cash flow and a reported capital
      expenditure. */
  lemma FreeCashFlowAgreesWithFcf(d: FlexibleValuationInput)
    requires d.cashFlow.freeCashFlow.None? && d.cashFlow.capitalExpenditures.Some?
    requires Truthy(d.cashFlow.operatingCashFlow)
    ensures Fcf(d) == Some(TtmFreeCashFlow(d))
  {}

  /** With a reported operating cash flow of zero the two disagree: `fcf`
      subtracts capital expenditure, the adapter reports zero. */
  lemma FreeCashFlowZeroOperating(d: FlexibleValuationInput)
    requires d.cashFlow.freeCashFlow.None? && d.cashFlow.operatingCashFlow == Some(0.0)
    requires d.cashFlow.capitalExpenditures.Some? && d.cashFlow.capitalExpenditures.value != 0.0
    ensures TtmFreeCashFlow(d) == 0.0 && Fcf(d).Some? && Fcf(d).value < 0.0
  {}

  /** `total_cash`: the reported figure, and zero when it is missing or zero. */
  function TotalCash(d: FlexibleValuationInput): (r: real)
    ensures Truthy(d.balanceSheet.totalCash) ==> r == d.balanceSheet.totalCash.value
    ensures !Truthy(d.balanceSheet.totalCash) ==> r == 0.0
  {
    OrDefault(d.balanceSheet.totalCash, 0.0)
  }

  /** `total_debt`: the reported figure, and zero when it is missing or zero. */
  function TotalDebt(d: FlexibleValuationInput): (r: real)
    ensures Truthy(d.balanceSheet.totalDebt) ==> r == d.balanceSheet.totalDebt.value
    ensures !Truthy(d.balanceSheet.totalDebt) ==> r == 0.0
  {
    OrDefault(d.balanceSheet.totalDebt, 0.0)
  }

  /** `enterprise_value`: reported, else market cap plus debt less cash. */
  function EnterpriseValue(d: FlexibleValuationInput): (r: real)
    ensures Truthy(d.marketPosition.enterpriseValue) ==> r == d.marketPosition.enterpriseValue.value
    ensures !Truthy(d.marketPosition.enterpriseValue) ==>
      r == MarketCap(d) + TotalDebt(d) - TotalCash(d)
  {
    if Truthy(d.marketPosition.enterpriseValue) then d.marketPosition.enterpriseValue.value
    else MarketCap(d) + TotalDebt(d) - TotalCash(d)
  }

  /** `shareholders_equity`: reported, else assets less liabilities. */
  function ShareholdersEquity(d: FlexibleValuationInput): (r: real)
    ensures Truthy(d.balanceSheet.shareholdersEquity) ==> r == d.balanceSheet.shareholdersEquity.value
    ensures !Truthy(d.balanceSheet.shareholdersEquity) ==>
      r == OrDefault(d.balanceSheet.totalAssets, 0.0) - OrDefault(d.balanceSheet.totalLiabilities, 0.0)
  {
    if Truthy(d.balanceSheet.shareholdersEquity) then d.balanceSheet.shareholdersEquity.value
    else OrDefault(d.balanceSheet.totalAssets, 0.0) - OrDefault(d.balanceSheet.totalLiabilities, 0.0)
  }

  /** `net_debt`: reported (a `0.0` counts), else debt less cash. */
  function NetDebt(d: FlexibleValuationInput): (r: real)
    ensures d.calculatedMetrics.netDebt.Some? ==> r == d.calculatedMetrics.netDebt.value
    ensures d.calculatedMetrics.netDebt.None? ==> r == TotalDebt(d) - TotalCash(d)
  {
    match d.calculatedMetrics.netDebt
    case Some(v) => v
    case None => TotalDebt(d) - TotalCash(d)
  }

  /** With neither enterprise value nor net debt reported, the derived
      enterprise value is market cap plus the derived net debt. */
  lemma EnterpriseValueFromNetDebt(d: FlexibleValuationInput)
    requires !Truthy(d.marketPosition.enterpriseValue) && d.calculatedMetrics.netDebt.None?
    ensures EnterpriseValue(d) == MarketCap(d) + NetDebt(d)
  {}

  /** `working_capital`: reported (a `0.0` counts), else current assets
      less current liabilities. */
  function WorkingCapital(d: FlexibleValuationInput): (r: real)
    ensures d.calculatedMetrics.workingCapital.Some? ==> r == d.calculatedMetrics.workingCapital.value
    ensures d.calculatedMetrics.workingCapital.None? ==>
      r == OrDefault(d.balanceSheet.totalCurrentAssets, 0.0) - OrDefault(d.balanceSheet.totalCurrentLiabilities, 0.0)
  {
    match d.calculatedMetrics.workingCapital
    case Some(v) => v
    case None =>
      OrDefault(d.balanceSheet.totalCurrentAssets, 0.0) - OrDefault(d.balanceSheet.totalCurrentLiabilities, 0.0)
  }

  /** `invested_capital`: reported (a `0.0` counts), else equity plus debt
      less cash. */
  function InvestedCapital(d: FlexibleValuationInput): (r: real)
    ensures d.calculatedMetrics.investedCapital.Some? ==> r == d.calculatedMetrics.investedCapital.value
    ensures d.calculatedMetrics.investedCapital.None? ==>
      r == ShareholdersEquity(d) + TotalDebt(d) - TotalCash(d)
  {
    match d.calculatedMetrics.investedCapital
    case Some(v) => v
    case None => ShareholdersEquity(d) + TotalDebt(d) - TotalCash(d)
  }

  /** Derived invested capital is equity plus derived net debt. */
  lemma InvestedCapitalFromNetDebt(d: FlexibleValuationInput)
    requires d.calculatedMetrics.investedCapital.None? && d.calculatedMetrics.netDebt.None?
    ensures InvestedCapital(d) == ShareholdersEquity(d) + NetDebt(d)
  {}

  /** `gross_margin`: reported (a `0.0` counts), else gross profit over
      revenue when both are positive, else zero. */
  function GrossMargin(d: FlexibleValuationInput): (r: real)
    ensures d.ratios.grossMargin.Some? ==> r == d.ratios.grossMargin.value
    ensures (d.ratios.grossMargin.None? && TtmRevenue(d) > 0.0 && TtmGrossProfit(d) > 0.0) ==>
      r * TtmRevenue(d) == TtmGrossProfit(d) && r > 0.0
    ensures (d.ratios.grossMargin.None? && (TtmRevenue(d) <= 0.0 || TtmGrossProfit(d) <= 0.0)) ==>
      r == 0.0
  {
    match d.ratios.grossMargin
    case Some(m) => m
    case None =>
      var revenue, profit := TtmRevenue(d), TtmGrossProfit(d);
      if revenue > 0.0 && profit > 0.0 then
        DivMulCancel(profit, revenue);
        ScaleByPositive(0.0, profit / revenue, revenue);
        profit / revenue
      else 0.0
  }

  /** `operating_margin`: reported (a `0.0` counts), else operating income
      over positive revenue, else zero. */
  function OperatingMargin(d: FlexibleValuationInput): (r: real)
    ensures d.ratios.operatingMargin.Some? ==> r == d.ratios.operatingMargin.value
    ensures d.ratios.operatingMargin.None? && TtmRevenue(d) > 0.0 ==>
      r * TtmRevenue(d) == TtmOperatingIncome(d)
    ensures d.ratios.operatingMargin.None? && TtmRevenue(d) <= 0.0 ==> r == 0.0
  {
    match d.ratios.operatingMargin
    case Some(m) => m
    case None =>
      if TtmRevenue(d) > 0.0 then
        DivMulCancel(TtmOperatingIncome(d), TtmRevenue(d));
        TtmOperatingIncome(d) / TtmRevenue(d)
      else 0.0
  }

  /** `roic`: reported unless zero, else 10%. */
  function Roic(d: FlexibleValuationInput): (r: real)
    ensures Truthy(d.ratios.roic) ==> r == d.ratios.roic.value
    ensures !Truthy(d.ratios.roic) ==> r == DefaultRoic
  {
    OrDefault(d.ratios.roic, DefaultRoic)
  }

  /** `debt_to_equity`: reported (a `0.0` counts), else debt over positive
      equity, else zero. */
  function DebtToEquity(d: FlexibleValuationInput): (r: real)
    ensures d.ratios.debtToEquity.Some? ==> r == d.ratios.debtToEquity.value
    ensures d.ratios.debtToEquity.None? && ShareholdersEquity(d) > 0.0 ==>
      r * ShareholdersEquity(d) == TotalDebt(d)
    ensures d.ratios.debtToEquity.None? && ShareholdersEquity(d) <= 0.0 ==> r == 0.0
  {
    match d.ratios.debtToEquity
    case Some(v) => v
    case None =>
      var equity := ShareholdersEquity(d);
      if equity > 0.0 then
        DivMulCancel(TotalDebt(d), equity);
        TotalDebt(d) / equity
      else 0.0
  }

  /** `current_ratio`: reported (a `0.0` counts), else current assets over
      positive current liabilities, else zero. */
  function CurrentRatio(d: FlexibleValuationInput): (r: real)
    ensures d.ratios.currentRatio.Some? ==> r == d.ratios.currentRatio.value
    ensures d.ratios.currentRatio.None? && OrDefault(d.balanceSheet.totalCurrentLiabilities, 0.0) > 0.0 ==>
      r * OrDefault(d.balanceSheet.totalCurrentLiabilities, 0.0)
        == OrDefault(d.balanceSheet.totalCurrentAssets, 0.0)
    ensures d.ratios.currentRatio.None? && OrDefault(d.balanceSheet.totalCurrentLiabilities, 0.0) <= 0.0 ==>
      r == 0.0
  {
    match d.ratios.currentRatio
    case Some(v) => v
    case None =>
      var assets := OrDefault(d.balanceSheet.totalCurrentAssets, 0.0);
      var liabilities := OrDefault(d.balanceSheet.totalCurrentLiabilities, 0.0);
      if liabilities > 0.0 then
        DivMulCancel(assets, liabilities);
        assets / liabilities
      else 0.0
  }

  /** The revenue of a history row when it is truthy. */
  function TruthyRevenue(h: HistoricalYear): Option<real> {
    if Truthy(h.revenue) then h.revenue else None
  }

  /** The 5-year CAGR fallback applies: no CAGR is reported, there are at
      least five history rows, and the revenue five rows back is positive
      while the latest is non-zero. */
  predicate CagrFallback(d: FlexibleValuationInput) {
    && d.growthRates.revenueGrowth5yCagr.None?
    && |d.historicalFinancials| >= 5
    && TruthyRevenue(d.historicalFinancials[|d.historicalFinancials| - 5]).Some?
    && TruthyRevenue(d.historicalFinancials[0]).Some?
    && TruthyRevenue(d.historicalFinancials[|d.historicalFinancials| - 5]).GetOr(0.0) > 0.0
  }

  /** The ratio of the latest revenue to the one five rows back, when the
      fallback applies. */
  function FallbackRatio(d: FlexibleValuationInput): (r: real)
    requires CagrFallback(d)
  {
    var hs := d.historicalFinancials;
    hs[0].revenue.value / hs[|hs| - 5].revenue.value
  }

  /** `revenue_growth_5y_cagr`: the reported CAGR (a `0.0` counts), else
      the fifth root of the revenue ratio minus one, else the 1-year growth
      unless zero, else 5%. A negative ratio makes `** (1/5)` produce a
      complex number that the engine's `< 0` test rejects with a
      `TypeError`. */
  function RevenueGrowth5yCagr(d: FlexibleValuationInput, root5: real -> real): (r: Result<real, Error>)
    requires IsFifthRootFn(root5)
    ensures r.Failure? <==> CagrFallback(d) && FallbackRatio(d) < 0.0
    ensures r.Failure? ==> r.error == TypeError
    ensures d.growthRates.revenueGrowth5yCagr.Some? ==>
      r == Success(d.growthRates.revenueGrowth5yCagr.value)
    ensures r.Success? && CagrFallback(d) ==>
      Pow(1.0 + r.value, 5) == FallbackRatio(d) && r.value >= -1.0
    ensures d.growthRates.revenueGrowth5yCagr.None? && !CagrFallback(d) ==>
      r == Success(OrDefault(d.growthRates.revenueGrowth1y, DefaultRevenueGrowth))
  {
    match d.growthRates.revenueGrowth5yCagr
    case Some(g) => Success(g)
    case None =>
      if CagrFallback(d) then
        var ratio := FallbackRatio(d);
        if ratio < 0.0 then Failure(TypeError)
        else
          var g := root5(ratio) - 1.0;
          assert 1.0 + g == root5(ratio);
          Success(g)
      else Success(OrDefault(d.growthRates.revenueGrowth1y, DefaultRevenueGrowth))
  }

  /** The fallback growth does not depend on which fifth-root function
      is used. */
  lemma FifthRootUnique(x: real, r: real, s: real)
    requires r >= 0.0 && s >= 0.0 && Pow(r, 5) == x && Pow(s, 5) == x
    ensures r == s
  {
    if r < s {
      PowStrict(r, s, 5);
    } else if s < r {
      PowStrict(s, r, 5);
    }
  }

  /** Positive powers of non-negative bases keep strict order. */
  lemma {:induction false} PowStrict(r: real, s: real, n: nat)
    requires 0.0 <= r < s && n > 0
    ensures 0.0 <= Pow(r, n) < Pow(s, n)
  {
    if n == 1 {
      assert Pow(r, 0) == 1.0 && Pow(s, 0) == 1.0;
    } else {
      PowStrict(r, s, n - 1);
      var pr, ps := Pow(r, n - 1), Pow(s, n - 1);
      MulLeLeft(r, pr, ps);
      ScaleByPositive(r, s, ps);
      MulLeLeft(r, 0.0, pr);
      calc {
        Pow(r, n);
      ==
        r * pr;
      <=
        r * ps;
      <
        s * ps;
      ==
        Pow(s, n);
      }
    }
  }

  /** The lower-cased name with underscores removed, the form in which
      missing-field names are compared. */
  function NormalizeName(f: string): (r: string)
    ensures |r| <= |f|
    ensures forall k :: 0 <= k < |r| ==> r[k] != '_'
  {
    if |f| == 0 then ""
    else (if f[0] == '_' then "" else [LowerChar(f[0])]) + NormalizeName(f[1..])
  }

  /** The normalized names of the fields the adapter can derive. */
  function Calculable(d: FlexibleValuationInput): (s: set<string>)
    ensures "grossprofit" in s <==> TtmGrossProfit(d) > 0.0
    ensures "costofrevenue" in s <==> TtmCostOfRevenue(d) > 0.0
    ensures "operatingexpenses" in s <==> TtmOperatingExpenses(d) > 0.0
    ensures "ebitda" in s <==> TtmEbitda(d) > 0.0 || TtmOperatingIncome(d) > 0.0
  {
    (if TtmGrossProfit(d) > 0.0 then {"grossprofit"} else {})
    + (if TtmCostOfRevenue(d) > 0.0 then {"costofrevenue"} else {})
    + (if TtmOperatingExpenses(d) > 0.0 then {"operatingexpenses"} else {})
    + (if TtmEbitda(d) > 0.0 || TtmOperatingIncome(d) > 0.0 then {"ebitda"} else {})
  }

  /** `missing_fields`: the reported missing fields, in order, without
      those the adapter can derive after all. */
  function MissingFields(d: FlexibleValuationInput): (r: seq<string>)
    ensures forall f :: f in r <==>
      f in d.dataQuality.fieldsMissing && NormalizeName(f) !in Calculable(d)
    ensures |r| <= |d.dataQuality.fieldsMissing|
  {
    var calculable := Calculable(d);
    var keep := f => NormalizeName(f) !in calculable;
    assert forall f :: f in Filter(d.dataQuality.fieldsMissing, keep) <==>
      f in d.dataQuality.fieldsMissing && keep(f) by {
      forall f {
        FilterMembership(d.dataQuality.fieldsMissing, keep, f);
      }
    }
    Filter(d.dataQuality.fieldsMissing, keep)
  }

  /** `estimated_fields`: the reported estimated fields, then a note for
      each income-statement figure the adapter derived as positive. */
  function EstimatedFields(d: FlexibleValuationInput): (r: seq<string>)
    ensures |d.dataQuality.fieldsEstimated| <= |r| <= |d.dataQuality.fieldsEstimated| + 3
    ensures r[..|d.dataQuality.fieldsEstimated|] == d.dataQuality.fieldsEstimated
    ensures |r| == |d.dataQuality.fieldsEstimated| <==>
      (Truthy(d.income.grossProfit) || TtmGrossProfit(d) <= 0.0)
      && (Truthy(d.income.costOfRevenue) || TtmCostOfRevenue(d) <= 0.0)
      && (Truthy(d.income.operatingExpenses) || TtmOperatingExpenses(d) <= 0.0)
  {
    d.dataQuality.fieldsEstimated
    + (if !Truthy(d.income.grossProfit) && TtmGrossProfit(d) > 0.0
       then ["gross_profit (calculated from gross_margin)"] else [])
    + (if !Truthy(d.income.costOfRevenue) && TtmCostOfRevenue(d) > 0.0
       then ["cost_of_revenue (calculated)"] else [])
    + (if !Truthy(d.income.operatingExpenses) && TtmOperatingExpenses(d) > 0.0
       then ["operating_expenses (calculated)"] else [])
  }

  function Row(h: HistoricalYear): HistoryRow {
    HistoryRow(h.fiscalYear, h.revenue, h.netIncome, h.eps)
  }

  /** The engine's view of an extraction through the adapter, failing only
      where `revenue_growth_5y_cagr` would hand the engine a complex
      number. */
  function View(d: FlexibleValuationInput, root5: real -> real): (r: Result<EngineInput, Error>)
    requires IsFifthRootFn(root5)
    ensures r.Failure? <==> CagrFallback(d) && FallbackRatio(d) < 0.0
    ensures r.Success? ==> r.value.currentPrice >= 0.0
    ensures r.Success? ==> r.value.equityRiskPremium == AdapterEquityRiskPremium
    ensures r.Success? ==> r.value.earningsGrowth10yCagr.None?
    ensures r.Success? ==> r.value.roic == Some(Roic(d))
    ensures r.Success? ==> r.value.riskFreeRate == d.riskParameters.riskFreeRate
    ensures r.Success? ==> r.value.marketCap == MarketCap(d)
    ensures r.Success? ==> |r.value.history| == |d.historicalFinancials|
    ensures r.Success? ==> r.value.revenueGrowth5yCagr.Some?
  {
    match RevenueGrowth5yCagr(d, root5)
    case Failure(e) => Failure(e)
    case Success(growth) =>
      var hs := d.historicalFinancials;
      Success(EngineInput(
        d.ticker, d.companyName, d.dataConfidenceScore,
        CurrentPrice(d), SharesOutstanding(d), MarketCap(d), EnterpriseValue(d),
        TtmRevenue(d), OrDefault(d.income.eps, 0.0), ShareholdersEquity(d), TotalDebt(d), NetDebt(d),
        OperatingMargin(d), Some(Roic(d)), DebtToEquity(d), d.ratios.interestCoverage,
        CurrentRatio(d), d.ratios.peRatio, d.ratios.priceToBook, d.dividendYield,
        Some(growth), None, d.riskParameters.beta, d.riskParameters.riskFreeRate,
        AdapterEquityRiskPremium,
        seq(|hs|, i requires 0 <= i < |hs| => Row(hs[i])),
        d.dataQuality.dataAnomalies, MissingFields(d)))
  }
}

=== FILE: real_math.dfy ===
/** Arithmetic helpers shared by the valuation engine: clamps, integer powers,
    Python truthiness of optional floats, and the defining properties of the
    two irrational operations the engine uses (square root, fifth root). */
module RealMath {
  import opened Wrappers

  function Min(a: real, b: real): (r: real)
    ensures r <= a && r <= b && (r == a || r == b)
  {
    if a <= b then a else b
  }

  function Max(a: real, b: real): (r: real)
    ensures r >= a && r >= b && (r == a || r == b)
  {
    if a >= b then a else b
  }

  /** Python's `abs` on a float. */
  function Abs(x: real): (r: real)
    ensures r >= 0.0 && (r == x || r == -x)
  {
    if x < 0.0 then -x else x
  }

  /** `min(max(x, lo), hi)` as the source writes its clamps. */
  function Clamp(x: real, lo: real, hi: real): (r: real)
    requires lo <= hi
    ensures lo <= r <= hi
    ensures lo <= x <= hi ==> r == x
  {
    Min(Max(x, lo), hi)
  }

  /** `b ** n` for a natural exponent. A zero base gives zero for n > 0,
      which is why the engine's divisions by powers of `1 + wacc` can fail. */
  function Pow(b: real, n: nat): (r: real)
    ensures b != 0.0 ==> r != 0.0
    ensures b > 0.0 ==> r > 0.0
  {
    if n == 0 then 1.0 else b * Pow(b, n - 1)
  }

  /** `0.0 ** n` is `0.0` for every positive `n`: dividing by it raises. */
  lemma PowZeroBase(n: nat)
    requires n > 0
    ensures Pow(0.0, n) == 0.0
  {}

  /** Powers of a base of at least one are at least one. */
  lemma {:induction false} PowAtLeastOne(b: real, n: nat)
    requires b >= 1.0
    ensures Pow(b, n) >= 1.0
  {
    if n > 0 {
      PowAtLeastOne(b, n - 1);
    }
  }

  /** Multiplying both sides by a non-negative factor keeps the order. */
  lemma MulLeRight(a: real, b: real, c: real)
    requires a <= b && c >= 0.0
    ensures a * c <= b * c
  {}

  /** Multiplying both sides by a non-negative factor on the left keeps the order. */
  lemma MulLeLeft(c: real, a: real, b: real)
    requires a <= b && c >= 0.0
    ensures c * a <= c * b
  {}

  /** Powers are monotone in a positive base. */
  lemma {:induction false} PowMonotone(a: real, b: real, n: nat)
    requires 0.0 < a <= b
    ensures Pow(a, n) <= Pow(b, n)
  {
    if n > 0 {
      PowMonotone(a, b, n - 1);
      var pa, pb := Pow(a, n - 1), Pow(b, n - 1);
      calc {
        Pow(a, n);
      ==
        a * pa;
      <= { MulLeRight(a, b, pa); }
        b * pa;
      <= { MulLeLeft(b, pa, pb); }
        b * pb;
      ==
        Pow(b, n);
      }
    }
  }

  /** A convex combination of two values lies between them. */
  lemma ConvexCombination(w: real, v: real, a: real, b: real)
    requires 0.0 <= w && 0.0 <= v && w + v == 1.0
    ensures Min(a, b) <= w * a + v * b <= Max(a, b)
  {
    var d := a - b;
    assert w * a + v * b == b + w * d;
    assert (1.0 - w) * d == d - w * d;
    if d <= 0.0 {
      MulLeLeft(w, d, 0.0);
      MulLeLeft(1.0 - w, d, 0.0);
    } else {
      MulLeLeft(w, 0.0, d);
      MulLeLeft(1.0 - w, 0.0, d);
    }
  }

  /** Dividing by a non-zero number and multiplying back is the identity. */
  lemma DivMulCancel(a: real, b: real)
    requires b != 0.0
    ensures (a / b) * b == a
  {}

  /** Against a positive factor, a product keeps the sign and the order of
      the other factor. */
  lemma ScaleByPositive(r: real, s: real, p: real)
    requires p > 0.0
    ensures r < s <==> r * p < s * p
    ensures r == s <==> r * p == s * p
  {
    if r < s {
      calc { r * p; < { assert (s - r) * p > 0.0; } s * p; }
    } else if s < r {
      calc { s * p; < { assert (r - s) * p > 0.0; } r * p; }
    }
  }

  /** Python truthiness of an optional float: `None` and `0.0` are falsy. */
  predicate Truthy(x: Option<real>) {
    x.Some? && x.value != 0.0
  }

  /** Python's `x or d` on an optional float: a present `0.0` counts as
      missing, exactly like `None`. */
  function OrDefault(x: Option<real>, d: real): (r: real)
    ensures Truthy(x) ==> r == x.value
    ensures !Truthy(x) ==> r == d
  {
    if Truthy(x) then x.value else d
  }

  /** The defining property of `math.sqrt` on the non-negative reals. */
  ghost predicate IsSqrtFn(sqrt: real -> real) {
    forall x :: x >= 0.0 ==> sqrt(x) >= 0.0 && sqrt(x) * sqrt(x) == x
  }

  /** The defining property of `x ** (1/5)` on the non-negative reals. */
  ghost predicate IsFifthRootFn(root: real -> real) {
    forall x :: x >= 0.0 ==> root(x) >= 0.0 && Pow(root(x), 5) == x
  }

  /** Two distinct non-negative reals have distinct squares. */
  lemma SquaresDiffer(r: real, s: real)
    requires 0.0 <= r < s
    ensures r * r < s * s
  {
    calc {
      r * r;
    <= { MulLeLeft(r, r, s); }
      r * s;
    < s * s;
    }
  }

  /** A non-negative square root is unique: whichever function satisfies the
      defining property, it returns the same value. */
  lemma SqrtUnique(x: real, r: real, s: real)
    requires r >= 0.0 && s >= 0.0 && r * r == x && s * s == x
    ensures r == s
  {
    if r < s {
      SquaresDiffer(r, s);
    } else if s < r {
      SquaresDiffer(s, r);
    }
  }
}

=== FILE: screener.dfy ===
/** The filter and sort pipeline of the stock screener's list endpoint,
    over the summaries that passed validation. */
module Screener {
  import opened Wrappers
  import opened Errors
  import opened Strings
  import opened Sequences

  /** A validated summary row. `texts` holds the present optional text
      fields other than the ticker, `numbers` the present numeric ones,
      both by field name. */
  datatype StockSummary = StockSummary(ticker: string, texts: map<string, string>, numbers: map<string, real>)

  /** The text fields of a summary. */
  const TextFields: set<string> := {
    "ticker", "cik", "company_name", "sector", "industry", "country", "website",
    "collected_at", "data_sources", "treasury_yield_source"
  }

  /** The numeric (float or integer) fields of a summary. */
  const NumericFields: set<string> := {
    "current_price", "market_cap", "volume", "float_shares", "shares_outstanding",
    "pe_trailing", "pe_forward", "peg_ratio", "price_to_book",
    "eps_trailing", "eps_forward", "dividend_yield",
    "beta", "annual_volatility", "max_drawdown", "sharpe_ratio", "risk_free_rate_10y",
    "fifty_two_week_high", "fifty_two_week_low", "ma_50", "ma_200",
    "total_revenue", "net_income", "ebitda", "total_cash", "total_debt", "debt_to_equity",
    "profit_margin", "operating_margin", "return_on_equity", "return_on_assets",
    "revenue_growth", "cagr_5y", "total_return_5y",
    "calc_ebitda", "calc_ev", "calc_ev_to_ebitda", "calc_fcf", "calc_interest_coverage",
    "calc_net_debt", "calc_roic", "free_cash_flow", "employees",
    "insider_percent", "institutional_percent", "short_ratio",
    "sec_fiscal_year", "sec_net_income", "sec_operating_cash_flow", "sec_revenue",
    "sec_stockholders_equity", "sec_total_assets", "sec_total_liabilities",
    "error_count", "warning_count"
  }

  /** The CSV columns whose field names differ. */
  function ColumnFor(sortBy: string): string {
    if sortBy == "fifty_two_week_high" then "52_week_high"
    else if sortBy == "fifty_two_week_low" then "52_week_low"
    else sortBy
  }

  /** One attribute value, text or number. */
  datatype Value = Num(x: real) | Str(s: string)

  /** `getattr(stock, name, None)`. */
  function Attr(stock: StockSummary, name: string): (r: Option<Value>)
    ensures name in NumericFields ==> r == if name in stock.numbers then Some(Num(stock.numbers[name])) else None
    ensures r.Some? && r.value.Str? ==> name in TextFields
  {
    if name in NumericFields then
      if name in stock.numbers then Some(Num(stock.numbers[name])) else None
    else if name == "ticker" then Some(Str(stock.ticker))
    else if name in TextFields && name in stock.texts then Some(Str(stock.texts[name]))
    else None
  }

  function TextAttr(stock: StockSummary, name: string): Option<string> {
    if name in stock.texts then Some(stock.texts[name]) else None
  }

  function NumberAttr(stock: StockSummary, name: string): Option<real> {
    if name in stock.numbers then Some(stock.numbers[name]) else None
  }

  /** A query parameter that Python treats as given (`if sector:`). */
  predicate Given(o: Option<string>) {
    o.Some? && |o.value| > 0
  }

  datatype SortOrder = Asc | Desc

  /** The query parameters of the list endpoint. */
  datatype StockQuery = StockQuery(
    sortBy: Option<string>,
    sortOrder: SortOrder,
    sector: Option<string>,
    industry: Option<string>,
    search: Option<string>,
    minMarketCap: Option<real>,
    maxMarketCap: Option<real>,
    minPe: Option<real>,
    maxPe: Option<real>)

  /** FastAPI's `ge=0` on the two market-cap bounds: an absent bound
      passes, a given one must not be negative. */
  predicate MarketCapBoundsValid(q: StockQuery) {
    && (q.minMarketCap.None? || q.minMarketCap.value >= 0.0)
    && (q.maxMarketCap.None? || q.maxMarketCap.value >= 0.0)
  }

  /** The case-insensitive equality test of the sector and industry
      filters; a stock without the field never matches. */
  predicate FieldMatches(wanted: Option<string>, stock: StockSummary, field: string) {
    !Given(wanted) || (Given(TextAttr(stock, field)) && Lower(TextAttr(stock, field).value) == Lower(wanted.value))
  }

  /** The search filter: the term is in the ticker or the company name,
      ignoring case. */
  predicate SearchMatches(search: Option<string>, stock: StockSummary) {
    !Given(search)
    || Contains(Lower(stock.ticker), Lower(search.value))
    || (Given(TextAttr(stock, "company_name")) && Contains(Lower(TextAttr(stock, "company_name").value), Lower(search.value)))
  }

  /** An inclusive lower bound; a given bound drops stocks without the
      value. */
  predicate AtLeast(v: Option<real>, bound: Option<real>) {
    bound.None? || (v.Some? && v.value >= bound.value)
  }

  predicate AtMost(v: Option<real>, bound: Option<real>) {
    bound.None? || (v.Some? && v.value <= bound.value)
  }

  /** The number of filters the endpoint applies. */
  const FilterCount: nat := 7

  /** The endpoint's filters by position, in the order it applies them:
      sector, industry, search, minimum and maximum market cap, minimum and
      maximum trailing P/E. */
  function Stages(q: StockQuery): nat -> StockSummary -> bool {
    k => s =>
      if k == 1 then FieldMatches(q.sector, s, "sector")
      else if k == 2 then FieldMatches(q.industry, s, "industry")
      else if k == 3 then SearchMatches(q.search, s)
      else if k == 4 then AtLeast(NumberAttr(s, "market_cap"), q.minMarketCap)
      else if k == 5 then AtMost(NumberAttr(s, "market_cap"), q.maxMarketCap)
      else if k == 6 then AtLeast(NumberAttr(s, "pe_trailing"), q.minPe)
      else AtMost(NumberAttr(s, "pe_trailing"), q.maxPe)
  }

  /** A stock survives every filter of the query. */
  predicate Selected(q: StockQuery, stock: StockSummary) {
    && FieldMatches(q.sector, stock, "sector")
    && FieldMatches(q.industry, stock, "industry")
    && SearchMatches(q.search, stock)
    && AtLeast(NumberAttr(stock, "market_cap"), q.minMarketCap)
    && AtMost(NumberAttr(stock, "market_cap"), q.maxMarketCap)
    && AtLeast(NumberAttr(stock, "pe_trailing"), q.minPe)
    && AtMost(NumberAttr(stock, "pe_trailing"), q.maxPe)
  }

  /** The endpoint's filtering, one filter after the other. A filter whose
      parameter is absent keeps everything. */
  function ApplyFilters(q: StockQuery, stocks: seq<StockSummary>): (r: seq<StockSummary>)
    ensures |r| <= |stocks|
  {
    FilterChain(stocks, Stages(q), FilterCount)
  }

  /** Passing the seven stages is being selected. */
  lemma PassesAllSelected(q: StockQuery, stock: StockSummary)
    ensures PassesAll(Stages(q), FilterCount, stock) <==> Selected(q, stock)
  {
    var st := Stages(q);
    assert PassesAll(st, 7, stock) == (PassesAll(st, 6, stock) && st(7)(stock));
    assert PassesAll(st, 6, stock) == (PassesAll(st, 5, stock) && st(6)(stock));
    assert PassesAll(st, 5, stock) == (PassesAll(st, 4, stock) && st(5)(stock));
    assert PassesAll(st, 4, stock) == (PassesAll(st, 3, stock) && st(4)(stock));
    assert PassesAll(st, 3, stock) == (PassesAll(st, 2, stock) && st(3)(stock));
    assert PassesAll(st, 2, stock) == (PassesAll(st, 1, stock) && st(2)(stock));
    assert PassesAll(st, 1, stock) == st(1)(stock);
  }

  /** The filtering keeps, in order, exactly the stocks that pass every
      filter. */
  lemma ApplyFiltersIsSelection(q: StockQuery, stocks: seq<StockSummary>)
    ensures IsSubsequence(ApplyFilters(q, stocks), stocks)
    ensures forall s :: s in ApplyFilters(q, stocks) <==> s in stocks && Selected(q, s)
  {
    var all := AllStages(Stages(q), FilterCount);
    FilterChainIsOneFilter(stocks, Stages(q), FilterCount);
    FilterSubsequence(stocks, all);
    forall s
      ensures s in Filter(stocks, all) <==> s in stocks && Selected(q, s)
    {
      FilterMembership(stocks, all, s);
      PassesAllSelected(q, s);
    }
  }

  /** The sort column is accepted: its CSV name or itself is a CSV column,
      or it is a field name. */
  predicate SortColumnAccepted(sortBy: string, csvColumns: seq<string>) {
    ColumnFor(sortBy) in csvColumns || sortBy in csvColumns || sortBy in TextFields + NumericFields
  }

  /** The sort key `get_sort_key` builds: `(0, value)` for a present
      value, and `(1, 0)` descending or `(0, 0)` ascending for `None`. */
  datatype SortKey = SortKey(rank: int, value: Value)

  function KeyOf(stock: StockSummary, column: string, order: SortOrder): (k: SortKey)
    ensures Attr(stock, column).Some? ==> k == SortKey(0, Attr(stock, column).value)
    ensures Attr(stock, column).None? && order == Desc ==> k == SortKey(1, Num(0.0))
    ensures Attr(stock, column).None? && order == Asc ==> k == SortKey(0, Num(0.0))
  {
    match Attr(stock, column)
    case Some(v) => SortKey(0, v)
    case None => if order == Desc then SortKey(1, Num(0.0)) else SortKey(0, Num(0.0))
  }

  /** Python compares two keys only when their second components have the
      same kind or their ranks differ; a number against a string
      raises. */
  predicate Comparable(a: SortKey, b: SortKey) {
    a.rank != b.rank || a.value.Num? == b.value.Num?
  }

  /** Tuple order on keys. Across kinds, which Python never reaches,
      numbers come first. */
  predicate KeyLe(a: SortKey, b: SortKey) {
    || a.rank < b.rank
    || (a.rank == b.rank && match (a.value, b.value)
      case (Num(x), Num(y)) => x <= y
      case (Str(s), Str(t)) => LessEq(s, t)
      case (Num(_), Str(_)) => true
      case (Str(_), Num(_)) => false)
  }

  lemma KeyLeTotalPreorder()
    ensures forall a, b :: KeyLe(a, b) || KeyLe(b, a)
    ensures forall a, b, c :: KeyLe(a, b) && KeyLe(b, c) ==> KeyLe(a, c)
  {
    LessEqTotalOrder();
  }

  /** The comparison `sorted` uses for the query: key order, with the
      arguments swapped for `reverse=True`. */
  function StockLe(column: string, order: SortOrder): (le: (StockSummary, StockSummary) -> bool)
    ensures TotalPreorder(le)
  {
    KeyLeTotalPreorder();
    if order == Asc then (x, y) => KeyLe(KeyOf(x, column, order), KeyOf(y, column, order))
    else (x, y) => KeyLe(KeyOf(y, column, order), KeyOf(x, column, order))
  }

  /** Every pair of keys can be compared. A comparison sort must compare
      each pair that ends up adjacent, so when two incomparable kinds are
      present Python raises whichever way the sort proceeds. */
  predicate AllComparable(stocks: seq<StockSummary>, column: string, order: SortOrder) {
    forall i, j :: 0 <= i < |stocks| && 0 <= j < |stocks| ==>
      Comparable(KeyOf(stocks[i], column, order), KeyOf(stocks[j], column, order))
  }

  /** The response: the stocks and their count. */
  datatype StockList = StockList(stocks: seq<StockSummary>, total: nat)

  /** `get_stocks`: a negative market-cap bound is rejected with 422 before
      the handler runs; after loading, filter, then sort when a sort column
      is given. An unknown sort column is a 400. */
  function GetStocks(q: StockQuery, stocks: seq<StockSummary>, csvColumns: seq<string>): (r: Result<StockList, Error>)
    ensures r == Failure(HttpError(422)) <==> !MarketCapBoundsValid(q)
    ensures r == Failure(HttpError(400)) <==>
      MarketCapBoundsValid(q) && Given(q.sortBy) && !SortColumnAccepted(q.sortBy.value, csvColumns)
    ensures r.Failure? ==> r.error == HttpError(422) || r.error == HttpError(400) || r.error == TypeError
    ensures r == Failure(TypeError) <==>
      (&& MarketCapBoundsValid(q)
       && Given(q.sortBy)
       && SortColumnAccepted(q.sortBy.value, csvColumns)
       && !AllComparable(ApplyFilters(q, stocks), q.sortBy.value, q.sortOrder))
    ensures r.Success? ==> r.value.total == |r.value.stocks|
    ensures r.Success? ==> multiset(r.value.stocks) == multiset(ApplyFilters(q, stocks))
    ensures r.Success? && !Given(q.sortBy) ==> r.value.stocks == ApplyFilters(q, stocks)
    ensures r.Success? && Given(q.sortBy) ==> SortedBy(r.value.stocks, StockLe(q.sortBy.value, q.sortOrder))
  {
    if !MarketCapBoundsValid(q) then Failure(HttpError(422))
    else
    var filtered := ApplyFilters(q, stocks);
    if !Given(q.sortBy) then Success(StockList(filtered, |filtered|))
    else
      var column := q.sortBy.value;
      if !SortColumnAccepted(column, csvColumns) then Failure(HttpError(400))
      else if !AllComparable(filtered, column, q.sortOrder) then Failure(TypeError)
      else
        var sorted := Sort(filtered, StockLe(column, q.sortOrder));
        Success(StockList(sorted, |sorted|))
  }

  /** The sort is stable: stocks whose keys tie keep the order the filters
      left them in. */
  lemma GetStocksStable(q: StockQuery, stocks: seq<StockSummary>, csvColumns: seq<string>, y: StockSummary)
    ensures GetStocks(q, stocks, csvColumns).Success? && Given(q.sortBy) ==>
      var le := StockLe(q.sortBy.value, q.sortOrder);
      Filter(GetStocks(q, stocks, csvColumns).value.stocks, TiedWith(le, y)) ==
        Filter(ApplyFilters(q, stocks), TiedWith(le, y))
  {
    if GetStocks(q, stocks, csvColumns).Success? && Given(q.sortBy) {
      SortStable(ApplyFilters(q, stocks), StockLe(q.sortBy.value, q.sortOrder), y);
    }
  }

  /** Descending, stocks without a value come first: the key `(1, 0)` is
      above every `(0, value)` and `reverse=True` puts it in front. */
  lemma DescendingNoneFirst(q: StockQuery, stocks: seq<StockSummary>, csvColumns: seq<string>, i: nat, j: nat)
    requires Given(q.sortBy) && q.sortOrder == Desc
    requires GetStocks(q, stocks, csvColumns).Success?
    requires i < j < |GetStocks(q, stocks, csvColumns).value.stocks|
    requires Attr(GetStocks(q, stocks, csvColumns).value.stocks[j], q.sortBy.value).None?
    ensures Attr(GetStocks(q, stocks, csvColumns).value.stocks[i], q.sortBy.value).None?
  {
    var r := GetStocks(q, stocks, csvColumns).value.stocks;
    assert StockLe(q.sortBy.value, Desc)(r[i], r[j]);
  }

  /** Ascending on a numeric column, a stock without a value sorts as if
      its value were `0.0`: after the negative values and before the
      positive ones. */
  lemma AscendingNoneAsZero(q: StockQuery, stocks: seq<StockSummary>, csvColumns: seq<string>, i: nat, j: nat)
    requires Given(q.sortBy) && q.sortOrder == Asc && q.sortBy.value in NumericFields
    requires GetStocks(q, stocks, csvColumns).Success?
    requires i < j < |GetStocks(q, stocks, csvColumns).value.stocks|
    ensures var r := GetStocks(q, stocks, csvColumns).value.stocks;
      && (Attr(r[i], q.sortBy.value).None? && Attr(r[j], q.sortBy.value).Some? ==> Attr(r[j], q.sortBy.value).value.x >= 0.0)
      && (Attr(r[i], q.sortBy.value).Some? && Attr(r[j], q.sortBy.value).None? ==> Attr(r[i], q.sortBy.value).value.x <= 0.0)
  {
    var r := GetStocks(q, stocks, csvColumns).value.stocks;
    assert StockLe(q.sortBy.value, Asc)(r[i], r[j]);
  }

  /** Ascending on a text column, one stock with the field and one
      without make the sort raise, once the market-cap bounds pass. */
  lemma AscendingTextWithNoneRaises(q: StockQuery, stocks: seq<StockSummary>, csvColumns: seq<string>, i: nat, j: nat)
    requires Given(q.sortBy) && q.sortOrder == Asc
    requires SortColumnAccepted(q.sortBy.value, csvColumns)
    requires i < |ApplyFilters(q, stocks)| && j < |ApplyFilters(q, stocks)|
    requires Attr(ApplyFilters(q, stocks)[i], q.sortBy.value).None?
    requires Attr(ApplyFilters(q, stocks)[j], q.sortBy.value).Some?
    requires Attr(ApplyFilters(q, stocks)[j], q.sortBy.value).value.Str?
    ensures GetStocks(q, stocks, csvColumns) ==
      if MarketCapBoundsValid(q) then Failure(TypeError) else Failure(HttpError(422))
  {
    var f := ApplyFilters(q, stocks);
    assert !Comparable(KeyOf(f[i], q.sortBy.value, Asc), KeyOf(f[j], q.sortBy.value, Asc));
  }

  /** A numeric sort column never raises: all its keys are numbers, so
      the request succeeds exactly when its market-cap bounds pass. */
  lemma NumericSortSucceeds(q: StockQuery, stocks: seq<StockSummary>, csvColumns: seq<string>)
    requires Given(q.sortBy) && q.sortBy.value in NumericFields
    ensures GetStocks(q, stocks, csvColumns).Success? <==> MarketCapBoundsValid(q)
  {}
}

=== FILE: sequences.dfy ===
/** Order-preserving filtering and stable sorting of sequences, the two list
    operations the screener and the loaders build on (Python's list
    comprehension with a condition and `sorted(..., key=..., reverse=...)`). */
module Sequences {

  /** `le` is a total preorder: any two elements compare, and the comparison
      chains. Keys that tie compare both ways. */
  ghost predicate TotalPreorder<T(!new)>(le: (T, T) -> bool) {
    && (forall a, b :: le(a, b) || le(b, a))
    && (forall a, b, c :: le(a, b) && le(b, c) ==> le(a, c))
  }

  ghost predicate SortedBy<T>(s: seq<T>, le: (T, T) -> bool) {
    forall i, j :: 0 <= i < j < |s| ==> le(s[i], s[j])
  }

  /** `[x for x in s if p(x)]`. */
  function Filter<T>(s: seq<T>, p: T -> bool): (r: seq<T>)
    ensures |r| <= |s|
    ensures forall k :: 0 <= k < |r| ==> p(r[k])
    ensures forall x :: x in s && p(x) ==> x in r
    ensures multiset(r) <= multiset(s)
  {
    if |s| == 0 then []
    else
      var rest := Filter(s[1..], p);
      assert s == [s[0]] + s[1..];
      if p(s[0]) then [s[0]] + rest else rest
  }

  /** Filtering keeps the original order: filtering a concatenation is
      concatenating the filtered pieces. */
  lemma {:induction false} FilterAppend<T>(a: seq<T>, b: seq<T>, p: T -> bool)
    ensures Filter(a + b, p) == Filter(a, p) + Filter(b, p)
  {
    if |a| > 0 {
      assert (a + b)[1..] == a[1..] + b;
      FilterAppend(a[1..], b, p);
    } else {
      assert a + b == b;
    }
  }

  /** Filtering keeps exactly the elements that pass, each as often as it
      occurs. */
  lemma {:induction false} FilterCount<T>(s: seq<T>, p: T -> bool, x: T)
    ensures multiset(Filter(s, p))[x] == if p(x) then multiset(s)[x] else 0
  {
    if |s| > 0 {
      assert s == [s[0]] + s[1..];
      FilterCount(s[1..], p, x);
    }
  }

  /** An element is kept exactly when it occurs and passes. */
  lemma FilterMembership<T>(s: seq<T>, p: T -> bool, x: T)
    ensures x in Filter(s, p) <==> x in s && p(x)
  {
    FilterCount(s, p, x);
    assert x in Filter(s, p) <==> x in multiset(Filter(s, p));
    assert x in s <==> x in multiset(s);
  }

  /** `a` is `b` with some elements left out, the rest in their order. */
  predicate IsSubsequence<T(==)>(a: seq<T>, b: seq<T>)
    decreases |b|
  {
    if |a| == 0 then true
    else if |b| == 0 then false
    else if a[0] == b[0] then IsSubsequence(a[1..], b[1..])
    else IsSubsequence(a, b[1..])
  }

  /** Filtering keeps the survivors in their original order. */
  lemma {:induction false} FilterSubsequence<T>(s: seq<T>, p: T -> bool)
    ensures IsSubsequence(Filter(s, p), s)
  {
    if |s| > 0 {
      FilterSubsequence(s[1..], p);
      assert s == [s[0]] + s[1..];
      if p(s[0]) {
        assert Filter(s, p)[1..] == Filter(s[1..], p);
      } else {
        SubsequenceSkip(Filter(s[1..], p), s[1..], s[0]);
      }
    }
  }

  /** Putting an element in front of `b` keeps every subsequence of `b`. */
  lemma {:induction false} SubsequenceSkip<T>(a: seq<T>, b: seq<T>, x: T)
    requires IsSubsequence(a, b)
    ensures IsSubsequence(a, [x] + b)
    decreases |b|, 1
  {
    assert ([x] + b)[1..] == b;
    if |a| > 0 && a[0] == x {
      SubsequenceDropHead(a, b);
    }
  }

  /** Dropping the first element of a subsequence leaves a subsequence. */
  lemma {:induction false} SubsequenceDropHead<T>(a: seq<T>, b: seq<T>)
    requires |a| > 0 && IsSubsequence(a, b)
    ensures IsSubsequence(a[1..], b)
    decreases |b|, 0
  {
    assert b == [b[0]] + b[1..];
    if a[0] == b[0] {
      SubsequenceSkip(a[1..], b[1..], b[0]);
    } else {
      SubsequenceDropHead(a, b[1..]);
      SubsequenceSkip(a[1..], b[1..], b[0]);
    }
  }

  /** A filter that keeps everything returns its input. */
  lemma {:induction false} FilterAll<T>(s: seq<T>, p: T -> bool)
    requires forall x :: p(x)
    ensures Filter(s, p) == s
  {
    if |s| > 0 {
      FilterAll(s[1..], p);
      assert s == [s[0]] + s[1..];
    }
  }

  /** Two filters in a row are one filter by the conjunction. */
  lemma {:induction false} FilterFilter<T>(s: seq<T>, p: T -> bool, q: T -> bool, pq: T -> bool)
    requires forall x :: pq(x) == (p(x) && q(x))
    ensures Filter(Filter(s, p), q) == Filter(s, pq)
  {
    if |s| > 0 {
      FilterFilter(s[1..], p, q, pq);
      if p(s[0]) {
        assert Filter(s, p) == [s[0]] + Filter(s[1..], p);
        assert Filter(s, p)[1..] == Filter(s[1..], p);
      }
    }
  }

  /** Filters that agree on every element give the same result. */
  lemma {:induction false} FilterCongruent<T>(s: seq<T>, p: T -> bool, q: T -> bool)
    requires forall x :: p(x) == q(x)
    ensures Filter(s, p) == Filter(s, q)
  {
    if |s| > 0 {
      FilterCongruent(s[1..], p, q);
    }
  }

  /** `x` passes stages `1..k`. */
  predicate PassesAll<T>(stages: nat -> T -> bool, k: nat, x: T) {
    k == 0 || (PassesAll(stages, k - 1, x) && stages(k)(x))
  }

  /** Stages `1..k` applied in turn, each to what the previous left. */
  function FilterChain<T>(s: seq<T>, stages: nat -> T -> bool, k: nat): (r: seq<T>)
    ensures |r| <= |s|
  {
    if k == 0 then s else Filter(FilterChain(s, stages, k - 1), stages(k))
  }

  /** The conjunction of stages `1..k`, as one predicate. */
  function AllStages<T>(stages: nat -> T -> bool, k: nat): T -> bool {
    x => PassesAll(stages, k, x)
  }

  /** A chain of filters is one filter by the conjunction of its stages. */
  lemma {:induction false} FilterChainIsOneFilter<T>(s: seq<T>, stages: nat -> T -> bool, k: nat)
    ensures FilterChain(s, stages, k) == Filter(s, AllStages(stages, k))
    decreases k, 1
  {
    if k == 0 {
      FilterAll(s, AllStages(stages, 0));
    } else {
      FilterChainStep(s, stages, k);
    }
  }

  /** One more stage: filtering by the first `k - 1` stages and then by
      stage `k` is filtering by all `k`. */
  lemma FilterChainStep<T>(s: seq<T>, stages: nat -> T -> bool, k: nat)
    requires k > 0
    ensures FilterChain(s, stages, k) == Filter(s, AllStages(stages, k))
    decreases k, 0
  {
    FilterChainIsOneFilter(s, stages, k - 1);
    FilterFilter(s, AllStages(stages, k - 1), stages(k), AllStages(stages, k));
  }

  /** Inserts `x` before the first element it is `le` to. Inserting the
      earlier element in front of every element it ties with keeps the sort
      stable. */
  function Insert<T(!new)>(x: T, s: seq<T>, le: (T, T) -> bool): (r: seq<T>)
    requires TotalPreorder(le)
    ensures multiset(r) == multiset(s) + multiset{x}
    ensures SortedBy(s, le) ==> SortedBy(r, le)
  {
    if |s| == 0 then [x]
    else if le(x, s[0]) then
      assert SortedBy(s, le) ==> SortedBy([x] + s, le) by {
        if SortedBy(s, le) { ConsSorted(x, s, le); }
      }
      [x] + s
    else
      var rest := Insert(x, s[1..], le);
      assert s == [s[0]] + s[1..];
      assert SortedBy(s, le) ==> SortedBy([s[0]] + rest, le) by {
        if SortedBy(s, le) {
          HeadBelowInserted(x, s, rest, le);
          ConsSorted(s[0], rest, le);
        }
      }
      [s[0]] + rest
  }

  /** Putting in front of a sorted sequence an element `le` to all of its
      elements keeps it sorted. */
  lemma ConsSorted<T(!new)>(a: T, s: seq<T>, le: (T, T) -> bool)
    requires TotalPreorder(le) && SortedBy(s, le)
    requires |s| == 0 || le(a, s[0])
    ensures SortedBy([a] + s, le)
  {
    var r := [a] + s;
    forall i, j | 0 <= i < j < |r| ensures le(r[i], r[j]) {
      if i == 0 && j > 1 { assert le(s[0], s[j - 1]); }
    }
  }

  /** When `x` goes after the head of a sorted sequence, the head stays
      `le` to the first element of the rest with `x` inserted. */
  lemma HeadBelowInserted<T(!new)>(x: T, s: seq<T>, rest: seq<T>, le: (T, T) -> bool)
    requires TotalPreorder(le) && SortedBy(s, le)
    requires |s| > 0 && !le(x, s[0])
    requires multiset(rest) == multiset(s[1..]) + multiset{x}
    ensures |rest| == 0 || le(s[0], rest[0])
  {
    if |rest| > 0 {
      assert rest[0] in multiset(rest);
      if rest[0] != x {
        assert rest[0] in s[1..];
        var k :| 0 <= k < |s[1..]| && s[1..][k] == rest[0];
        assert le(s[0], s[k + 1]);
      }
    }
  }

  /** `sorted(s)` with `le` as the comparison: a permutation of `s` in
      non-decreasing order. `reverse=True` is sorting with the arguments of
      `le` swapped. */
  function Sort<T(!new)>(s: seq<T>, le: (T, T) -> bool): (r: seq<T>)
    requires TotalPreorder(le)
    ensures |r| == |s|
    ensures multiset(r) == multiset(s)
    ensures SortedBy(r, le)
  {
    if |s| == 0 then []
    else
      assert s == [s[0]] + s[1..];
      var r := Insert(s[0], Sort(s[1..], le), le);
      assert |r| == |multiset(r)| == |s|;
      r
  }

  /** Sorting already sorted input changes nothing. */
  lemma {:induction false} SortSorted<T(!new)>(s: seq<T>, le: (T, T) -> bool)
    requires TotalPreorder(le)
    requires SortedBy(s, le)
    ensures Sort(s, le) == s
  {
    if |s| > 0 {
      SortSorted(s[1..], le);
      assert Sort(s[1..], le) == s[1..];
      if |s| > 1 {
        assert le(s[0], s[1]);
      }
      assert s == [s[0]] + s[1..];
    }
  }

  /** The elements `le` ranks equal to `y`: its tie class. */
  function TiedWith<T>(le: (T, T) -> bool, y: T): T -> bool {
    x => le(x, y) && le(y, x)
  }

  /** Inserting into a sorted sequence puts `x` in front of the elements
      it ties with and leaves every other tie class as it was. */
  lemma {:induction false} InsertStable<T(!new)>(x: T, t: seq<T>, le: (T, T) -> bool, y: T)
    requires TotalPreorder(le) && SortedBy(t, le)
    ensures Filter(Insert(x, t, le), TiedWith(le, y)) ==
      if TiedWith(le, y)(x) then [x] + Filter(t, TiedWith(le, y)) else Filter(t, TiedWith(le, y))
  {
    var p := TiedWith(le, y);
    if |t| == 0 {
      assert Insert(x, t, le) == [x];
      assert [x][1..] == t;
    } else if le(x, t[0]) {
      assert Insert(x, t, le) == [x] + t;
      assert ([x] + t)[1..] == t;
    } else {
      var rest := Insert(x, t[1..], le);
      assert Insert(x, t, le) == [t[0]] + rest;
      assert ([t[0]] + rest)[1..] == rest;
      InsertStable(x, t[1..], le, y);
      assert p(x) ==> !p(t[0]);
    }
  }

  /** `sorted` is stable: the elements of each tie class come out in the
      order they went in. */
  lemma {:induction false} SortStable<T(!new)>(s: seq<T>, le: (T, T) -> bool, y: T)
    requires TotalPreorder(le)
    ensures Filter(Sort(s, le), TiedWith(le, y)) == Filter(s, TiedWith(le, y))
  {
    if |s| > 0 {
      SortStable(s[1..], le, y);
      InsertStable(s[0], Sort(s[1..], le), le, y);
    }
  }

  /** No element occurs twice. */
  predicate Distinct<T(==)>(s: seq<T>) {
    forall i, j :: 0 <= i < j < |s| ==> s[i] != s[j]
  }

  lemma {:induction false} DistinctCount<T>(s: seq<T>, x: T)
    requires Distinct(s)
    ensures multiset(s)[x] <= 1
  {
    if |s| > 0 {
      DistinctCount(s[1..], x);
      assert s == [s[0]] + s[1..];
      if s[0] == x {
        assert forall p :: 0 <= p < |s[1..]| ==> s[1..][p] == s[p + 1] != x;
        assert x !in s[1..];
      }
    }
  }

  lemma TwoPositionsCount<T>(s: seq<T>, i: nat, j: nat)
    requires i < j < |s|
    ensures s[i] == s[j] ==> multiset(s)[s[i]] >= 2
  {
    assert s == s[..j] + s[j..];
    assert s[..j][i] == s[i] && s[j..][0] == s[j];
  }

  /** A permutation of a sequence without repeats, or of part of one, has
      none either. */
  lemma DistinctPermutation<T>(a: seq<T>, b: seq<T>)
    requires multiset(b) <= multiset(a) && Distinct(a)
    ensures Distinct(b)
  {
    forall i, j | 0 <= i < j < |b|
      ensures b[i] != b[j]
    {
      DistinctCount(a, b[i]);
      TwoPositionsCount(b, i, j);
    }
  }

  /** Two sequences without repeats and without common elements join into
      one without repeats. */
  lemma DistinctAppend<T>(a: seq<T>, b: seq<T>)
    requires Distinct(a) && Distinct(b)
    requires forall x :: x in b ==> x !in a
    ensures Distinct(a + b)
  {
    forall i, j | 0 <= i < j < |a + b|
      ensures (a + b)[i] != (a + b)[j]
    {
      if j < |a| {
        assert (a + b)[i] == a[i] && (a + b)[j] == a[j];
      } else if |a| <= i {
        assert (a + b)[i] == b[i - |a|] && (a + b)[j] == b[j - |a|];
      } else {
        assert (a + b)[i] == a[i] && (a + b)[j] == b[j - |a|] && b[j - |a|] in b;
      }
    }
  }

  /** A filtered sequence without repeats, after a disjoint prefix without
      repeats, has none. */
  lemma DistinctFilterAppend<T>(a: seq<T>, b: seq<T>, p: T -> bool)
    requires Distinct(a) && Distinct(b)
    requires forall x :: x in b ==> x !in a
    ensures Distinct(a + Filter(b, p))
  {
    var kept := Filter(b, p);
    DistinctPermutation(b, kept);
    forall x | x in kept
      ensures x !in a
    {
      assert x in multiset(b);
    }
    DistinctAppend(a, kept);
  }

  /** The first `n` elements (`s[:n]`), fewer when `s` is shorter. */
  function Take<T>(s: seq<T>, n: nat): (r: seq<T>)
    ensures |r| == if n < |s| then n else |s|
    ensures forall k :: 0 <= k < |r| ==> r[k] == s[k]
  {
    if n < |s| then s[..n] else s
  }
}

=== FILE: strings.dfy ===
/** The Python `str` operations the repository relies on, over `seq<char>`:
    `strip`, ASCII `upper`/`lower`, `startswith`/`endswith`, `in`, `find`,
    `rfind`, `split` on one separator character, and the code-point order
    `sorted` uses on strings. */
module Strings {
  import opened Wrappers

  /** Python's `str.isspace()` for one character: the characters `strip()`
      removes when called without arguments. */
  predicate IsSpace(c: char) {
    var n := c as int;
    || 9 <= n <= 13
    || 28 <= n <= 32
    || n == 0x85 || n == 0xA0 || n == 0x1680
    || 0x2000 <= n <= 0x200A
    || n == 0x2028 || n == 0x2029 || n == 0x202F || n == 0x205F || n == 0x3000
  }

  predicate AllSpace(s: string) {
    forall k :: 0 <= k < |s| ==> IsSpace(s[k])
  }

  /** `r` is what `s.strip()` returns: a contiguous piece of `s`, all of
      whose surroundings are whitespace, and which neither starts nor ends
      with whitespace. */
  ghost predicate IsStripOf(r: string, s: string) {
    && (|r| == 0 || (!IsSpace(r[0]) && !IsSpace(r[|r| - 1])))
    && exists i :: 0 <= i <= |s| - |r| && r == s[i..i + |r|]
         && AllSpace(s[..i]) && AllSpace(s[i + |r|..])
  }

  /** Index of the first non-whitespace character at or after `i`. */
  function SkipSpaces(s: string, i: nat): (j: nat)
    requires i <= |s|
    ensures i <= j <= |s|
    ensures forall k :: i <= k < j ==> IsSpace(s[k])
    ensures j < |s| ==> !IsSpace(s[j])
    decreases |s| - i
  {
    if i < |s| && IsSpace(s[i]) then SkipSpaces(s, i + 1) else i
  }

  /** Index just past the last non-whitespace character before `j`, not
      going below `lo`. */
  function BackSpaces(s: string, lo: nat, j: nat): (e: nat)
    requires lo <= j <= |s|
    ensures lo <= e <= j
    ensures forall k :: e <= k < j ==> IsSpace(s[k])
    ensures e > lo ==> !IsSpace(s[e - 1])
    decreases j
  {
    if j > lo && IsSpace(s[j - 1]) then BackSpaces(s, lo, j - 1) else j
  }

  /** Python's `s.strip()`. */
  function Strip(s: string): (r: string)
    ensures |r| <= |s|
  {
    var i := SkipSpaces(s, 0);
    s[i..BackSpaces(s, i, |s|)]
  }

  /** `Strip` returns what `str.strip()` is defined to return. */
  lemma StripSpec(s: string)
    ensures IsStripOf(Strip(s), s)
  {
    var i := SkipSpaces(s, 0);
    var e := BackSpaces(s, i, |s|);
    var r := s[i..e];
    assert r == s[i..i + |r|];
    assert AllSpace(s[..i]) && AllSpace(s[i + |r|..]);
    assert |r| > 0 ==> r[0] == s[i] && r[|r| - 1] == s[e - 1];
  }

  /** Stripping is idempotent: a stripped string has nothing left to strip. */
  lemma StripIdempotent(s: string)
    ensures Strip(Strip(s)) == Strip(s)
  {
    StripOfStripped(Strip(s));
  }

  /** A string that starts and ends with a non-space character strips to itself. */
  lemma StripOfStripped(s: string)
    requires |s| == 0 || (!IsSpace(s[0]) && !IsSpace(s[|s| - 1]))
    ensures Strip(s) == s
  {
    if |s| > 0 {
      assert SkipSpaces(s, 0) == 0;
      assert BackSpaces(s, 0, |s|) == |s|;
    }
  }

  /** Stripping removes exactly the whitespace padding around a string
      that starts and ends with a non-space character. */
  lemma StripPadded(pre: string, x: string, post: string)
    requires AllSpace(pre) && AllSpace(post)
    requires |x| > 0 && !IsSpace(x[0]) && !IsSpace(x[|x| - 1])
    ensures Strip(pre + x + post) == x
  {
    var s := pre + x + post;
    SkipSpacesPadded(s, |pre|, 0);
    BackSpacesPadded(s, |pre|, |pre| + |x|, |s|);
    assert s[|pre|..|pre| + |x|] == x;
  }

  lemma {:induction false} SkipSpacesPadded(s: string, stop: nat, i: nat)
    requires i <= stop < |s| && !IsSpace(s[stop])
    requires forall k :: i <= k < stop ==> IsSpace(s[k])
    ensures SkipSpaces(s, i) == stop
    decreases stop - i
  {
    if i < stop {
      SkipSpacesPadded(s, stop, i + 1);
    }
  }

  lemma {:induction false} BackSpacesPadded(s: string, lo: nat, stop: nat, j: nat)
    requires lo < stop <= j <= |s| && !IsSpace(s[stop - 1])
    requires forall k :: stop <= k < j ==> IsSpace(s[k])
    ensures BackSpaces(s, lo, j) == stop
    decreases j
  {
    if j > stop {
      BackSpacesPadded(s, lo, stop, j - 1);
    }
  }

  /** ASCII upper-casing of one character. */
  function UpperChar(c: char): char {
    if 'a' <= c <= 'z' then (c as int - 32) as char else c
  }

  /** ASCII lower-casing of one character. */
  function LowerChar(c: char): char {
    if 'A' <= c <= 'Z' then (c as int + 32) as char else c
  }

  /** `s.upper()` restricted to the ASCII letters. */
  function Upper(s: string): (r: string)
    ensures |r| == |s|
    ensures forall k :: 0 <= k < |s| ==> r[k] == UpperChar(s[k])
  {
    seq(|s|, k requires 0 <= k < |s| => UpperChar(s[k]))
  }

  /** `s.lower()` restricted to the ASCII letters. */
  function Lower(s: string): (r: string)
    ensures |r| == |s|
    ensures forall k :: 0 <= k < |s| ==> r[k] == LowerChar(s[k])
  {
    seq(|s|, k requires 0 <= k < |s| => LowerChar(s[k]))
  }

  /** Upper-casing twice is upper-casing once. */
  lemma UpperIdempotent(s: string)
    ensures Upper(Upper(s)) == Upper(s)
  {
    assert forall k :: 0 <= k < |s| ==> UpperChar(UpperChar(s[k])) == UpperChar(s[k]);
  }

  /** Whitespace is untouched by case mapping, so upper-casing commutes with
      stripping. */
  lemma StripUpperCommute(s: string)
    ensures Strip(Upper(s)) == Upper(Strip(s))
  {
    var u := Upper(s);
    var i := SkipSpaces(s, 0);
    var e := BackSpaces(s, i, |s|);
    SkipSpacesUpper(s, 0);
    BackSpacesUpper(s, i, |s|);
    UpperSlice(s, i, e);
  }

  /** Upper-casing a slice is slicing the upper-cased string. */
  lemma UpperSlice(s: string, i: nat, e: nat)
    requires i <= e <= |s|
    ensures Upper(s[i..e]) == Upper(s)[i..e]
  {
  }

  lemma {:induction false} SkipSpacesUpper(s: string, i: nat)
    requires i <= |s|
    ensures SkipSpaces(Upper(s), i) == SkipSpaces(s, i)
    decreases |s| - i
  {
    if i < |s| {
      assert IsSpace(Upper(s)[i]) <==> IsSpace(s[i]);
      if IsSpace(s[i]) {
        SkipSpacesUpper(s, i + 1);
      }
    }
  }

  lemma {:induction false} BackSpacesUpper(s: string, lo: nat, j: nat)
    requires lo <= j <= |s|
    ensures BackSpaces(Upper(s), lo, j) == BackSpaces(s, lo, j)
    decreases j
  {
    if j > lo {
      assert IsSpace(Upper(s)[j - 1]) <==> IsSpace(s[j - 1]);
      if IsSpace(s[j - 1]) {
        BackSpacesUpper(s, lo, j - 1);
      }
    }
  }

  predicate StartsWith(s: string, p: string) {
    |p| <= |s| && s[..|p|] == p
  }

  predicate EndsWith(s: string, p: string) {
    |p| <= |s| && s[|s| - |p|..] == p
  }

  /** Python's `sub in s` for strings. */
  predicate Contains(s: string, sub: string) {
    exists i | 0 <= i <= |s| - |sub| :: OccursAt(s, sub, i)
  }

  /** `sub` occurs in `s` starting at index `i`. */
  predicate OccursAt(s: string, sub: string, i: int) {
    0 <= i <= |s| - |sub| && s[i..i + |sub|] == sub
  }

  /** `s.find(c)`, with `None` for Python's `-1`. */
  function Find(s: string, c: char): (r: Option<nat>)
    ensures r.None? <==> c !in s
    ensures r.Some? ==> r.value < |s| && s[r.value] == c && c !in s[..r.value]
    ensures r.Some? ==> forall k :: 0 <= k < r.value ==> s[k] != c
  {
    if |s| == 0 then None
    else if s[0] == c then Some(0)
    else match Find(s[1..], c)
      case None => None
      case Some(i) => assert s[1..][..i] == s[1..i + 1]; Some(i + 1)
  }

  /** `s.rfind(c)`, with `None` for Python's `-1`. */
  function RFind(s: string, c: char): (r: Option<nat>)
    ensures r.None? <==> c !in s
    ensures r.Some? ==> r.value < |s| && s[r.value] == c && c !in s[r.value + 1..]
    ensures r.Some? ==> forall k :: r.value < k < |s| ==> s[k] != c
  {
    if |s| == 0 then None
    else if s[|s| - 1] == c then Some(|s| - 1)
    else
      var r := RFind(s[..|s| - 1], c);
      assert r.Some? ==> s[r.value + 1..] == s[..|s| - 1][r.value + 1..] + [s[|s| - 1]];
      assert s == s[..|s| - 1] + [s[|s| - 1]];
      r
  }

  /** The first occurrence of `c` is where `Find` stops. */
  lemma FindAt(s: string, c: char, i: nat)
    requires i < |s| && s[i] == c && c !in s[..i]
    ensures Find(s, c) == Some(i)
  {
    var r := Find(s, c);
    assert c in s;
    assert forall k :: 0 <= k < i ==> s[k] != c by {
      forall k | 0 <= k < i ensures s[k] != c { assert s[k] == s[..i][k]; }
    }
    assert forall k :: 0 <= k < r.value ==> s[k] != c by {
      forall k | 0 <= k < r.value ensures s[k] != c { assert s[k] == s[..r.value][k]; }
    }
  }

  /** Joins the parts with one separator character between neighbours:
      the inverse of `Split`. */
  function Join(parts: seq<string>, sep: char): string
    requires |parts| >= 1
  {
    if |parts| == 1 then parts[0] else parts[0] + [sep] + Join(parts[1..], sep)
  }

  /** Python's `s.split(sep)` for a one-character separator: every
      separator ends a part, so the result always has at least one part and
      neighbouring separators give empty parts. */
  function Split(s: string, sep: char): (parts: seq<string>)
    ensures |parts| >= 1
    ensures forall k :: 0 <= k < |parts| ==> sep !in parts[k]
    ensures Join(parts, sep) == s
    decreases |s|
  {
    match Find(s, sep)
    case None => [s]
    case Some(i) =>
      var rest := Split(s[i + 1..], sep);
      assert s == s[..i] + [sep] + s[i + 1..];
      [s[..i]] + rest
  }

  /** Splitting a join gives the parts back when no part contains the
      separator: the other half of the round trip. */
  lemma {:induction false} SplitJoin(parts: seq<string>, sep: char)
    requires |parts| >= 1
    requires forall k :: 0 <= k < |parts| ==> sep !in parts[k]
    ensures Split(Join(parts, sep), sep) == parts
  {
    if |parts| > 1 {
      var s := Join(parts, sep);
      var tail := Join(parts[1..], sep);
      assert s == parts[0] + [sep] + tail;
      assert s[..|parts[0]|] == parts[0];
      assert s[|parts[0]|] == sep;
      FindAt(s, sep, |parts[0]|);
      assert s[|parts[0]| + 1..] == tail;
      SplitJoin(parts[1..], sep);
    } else {
      assert Find(parts[0], sep) == None;
    }
  }

  /** Python's `<` on strings: lexicographic by code point, a proper
      prefix being smaller. */
  function Less(a: string, b: string): bool
    decreases |a|
  {
    if |b| == 0 then false
    else if |a| == 0 then true
    else if a[0] != b[0] then a[0] < b[0]
    else Less(a[1..], b[1..])
  }

  /** Python's `<=` on strings. */
  predicate LessEq(a: string, b: string) {
    !Less(b, a)
  }

  lemma {:induction false} LessIrreflexive(a: string)
    ensures !Less(a, a)
    decreases |a|
  {
    if |a| > 0 {
      LessIrreflexive(a[1..]);
    }
  }

  lemma {:induction false} LessTransitive(a: string, b: string, c: string)
    requires Less(a, b) && Less(b, c)
    ensures Less(a, c)
    decreases |a|
  {
    if |a| > 0 && a[0] == b[0] && b[0] == c[0] {
      LessTransitive(a[1..], b[1..], c[1..]);
    }
  }

  /** Two different strings are ordered one way or the other. */
  lemma {:induction false} LessTotal(a: string, b: string)
    requires a != b
    ensures Less(a, b) || Less(b, a)
    decreases |a|
  {
    if |a| > 0 && |b| > 0 && a[0] == b[0] {
      assert a == [a[0]] + a[1..] && b == [b[0]] + b[1..];
      LessTotal(a[1..], b[1..]);
    }
  }

  lemma {:induction false} LessAsymmetric(a: string, b: string)
    requires Less(a, b)
    ensures !Less(b, a)
  {
    if Less(b, a) {
      LessTransitive(a, b, a);
      LessIrreflexive(a);
    }
  }

  /** `LessEq` is a total preorder (indeed a total order) on strings, the
      property `sorted` relies on. */
  lemma LessEqTotalOrder()
    ensures forall a, b :: LessEq(a, b) || LessEq(b, a)
    ensures forall a, b, c :: LessEq(a, b) && LessEq(b, c) ==> LessEq(a, c)
    ensures forall a, b :: LessEq(a, b) && LessEq(b, a) ==> a == b
  {
    forall a, b
      ensures LessEq(a, b) || LessEq(b, a)
    {
      if Less(a, b) { LessAsymmetric(a, b); }
    }
    forall a, b, c | LessEq(a, b) && LessEq(b, c)
      ensures LessEq(a, c)
    {
      if Less(c, a) {
        if a == b {
        } else if b == c {
        } else {
          LessTotal(a, b);
          LessTotal(b, c);
          LessTransitive(c, a, b);
        }
      }
    }
    forall a, b | LessEq(a, b) && LessEq(b, a)
      ensures a == b
    {
      if a != b { LessTotal(a, b); }
    }
  }
}

=== FILE: valuation_engine.dfy ===
/** Result assembly: the composite of the DCF and Graham values, the five
    verdict bands, the margin of safety, the confidence score, the ordered
    list of risk factors, and the calculation core of `calculate_valuation`
    that ties the engine's parts into one `ValuationResult`. */
module Valuation {
  import opened Wrappers
  import opened Errors
  import opened Strings
  import opened RealMath
  import opened Sequences
  import opened EngineView
  import opened ValuationOutput
  import opened Dcf
  import opened Graham

  const CompositeDcfWeight: real := 0.60
  const CompositeGrahamWeight: real := 0.40

  /** `calculate_composite`: 60% DCF and 40% Graham number when the Graham
      number applies (is positive), otherwise the DCF value alone. */
  function Composite(dcfValue: real, grahamNumber: real): (r: (real, CompositeMethod))
    ensures r.1 == DcfAndGraham <==> grahamNumber > 0.0
    ensures grahamNumber <= 0.0 ==> r.0 == dcfValue
    ensures grahamNumber > 0.0 ==> Min(dcfValue, grahamNumber) <= r.0 <= Max(dcfValue, grahamNumber)
    ensures grahamNumber > 0.0 ==> (r.0 > dcfValue <==> grahamNumber > dcfValue)
    ensures dcfValue >= 0.0 ==> r.0 >= 0.0
  {
    if grahamNumber > 0.0 then
      var v := dcfValue * CompositeDcfWeight + grahamNumber * CompositeGrahamWeight;
      ConvexCombination(CompositeDcfWeight, CompositeGrahamWeight, dcfValue, grahamNumber);
      assert v - dcfValue == CompositeGrahamWeight * (grahamNumber - dcfValue);
      (v, DcfAndGraham)
    else (dcfValue, DcfOnly)
  }

  /** The range of upsides each verdict stands for: above 40%, above 15% up
      to 40%, from -15% to 15%, from -40% up to (not including) -15%, and
      below -40%. */
  predicate InBand(u: real, v: Verdict) {
    match v
    case SignificantlyUndervalued => u > 0.40
    case Undervalued => 0.15 < u <= 0.40
    case FairlyValued => -0.15 <= u <= 0.15
    case Overvalued => -0.40 <= u < -0.15
    case SignificantlyOvervalued => u < -0.40
  }

  /** `determine_verdict`: the cascade of threshold tests picks the one
      verdict whose band holds the upside. */
  function DetermineVerdict(u: real): (v: Verdict)
    ensures InBand(u, v)
    ensures forall w :: InBand(u, w) ==> w == v
  {
    if u > 0.40 then SignificantlyUndervalued
    else if u > 0.15 then Undervalued
    else if u >= -0.15 then FairlyValued
    else if u >= -0.40 then Overvalued
    else SignificantlyOvervalued
  }

  /** A larger upside never earns a less attractive verdict. */
  lemma VerdictMonotone(a: real, b: real)
    requires a <= b
    ensures VerdictRank(DetermineVerdict(b)) <= VerdictRank(DetermineVerdict(a))
  {
    var va, vb := DetermineVerdict(a), DetermineVerdict(b);
    assert InBand(a, va) && InBand(b, vb);
  }

  /** The band edges: exactly 40% is merely undervalued, exactly 15% and
      exactly -15% are fairly valued, and exactly -40% is overvalued. */
  lemma VerdictEdges()
    ensures DetermineVerdict(0.40) == Undervalued
    ensures DetermineVerdict(0.15) == FairlyValued
    ensures DetermineVerdict(-0.15) == FairlyValued
    ensures DetermineVerdict(-0.40) == Overvalued
  {}

  /** Upsides at or below this count as a nearly worthless stock. */
  const NearlyWorthless: real := -0.99

  /** The margin of safety `u / (1 + u)`, or `-1.0` for a nearly worthless
      stock. It has the sign of the upside and stays below 1. */
  function MarginOfSafety(u: real): (m: real)
    ensures u > NearlyWorthless ==> m * (1.0 + u) == u
    ensures u <= NearlyWorthless ==> m == -1.0
    ensures m < 1.0
    ensures m > 0.0 <==> u > 0.0
    ensures m == 0.0 <==> u == 0.0
  {
    if u > NearlyWorthless then
      var m := u / (1.0 + u);
      DivMulCancel(u, 1.0 + u);
      ScaleByPositive(m, 1.0, 1.0 + u);
      ScaleByPositive(m, 0.0, 1.0 + u);
      m
    else -1.0
  }

  /** Above the cut-off, a larger upside gives a larger margin of safety. */
  lemma MarginOfSafetyMonotone(a: real, b: real)
    requires NearlyWorthless < a <= b
    ensures MarginOfSafety(a) <= MarginOfSafety(b)
  {
    var ma, mb := MarginOfSafety(a), MarginOfSafety(b);
    // m = 1 - 1 / (1 + u), and 1 / (1 + u) shrinks as u grows.
    assert ma == 1.0 - 1.0 / (1.0 + a) by {
      DivMulCancel(1.0, 1.0 + a);
      ScaleByPositive(ma, 1.0 - 1.0 / (1.0 + a), 1.0 + a);
    }
    assert mb == 1.0 - 1.0 / (1.0 + b) by {
      DivMulCancel(1.0, 1.0 + b);
      ScaleByPositive(mb, 1.0 - 1.0 / (1.0 + b), 1.0 + b);
    }
    ReciprocalAntitone(1.0 + a, 1.0 + b);
  }

  lemma ReciprocalAntitone(p: real, q: real)
    requires 0.0 < p <= q
    ensures 1.0 / q <= 1.0 / p
  {
    DivMulCancel(1.0, p);
    DivMulCancel(1.0, q);
    ScaleByPositive(0.0, 1.0 / q, q);
    if 1.0 / p < 1.0 / q {
      ScaleByPositive(1.0 / p, 1.0 / q, p);
      MulLeLeft(1.0 / q, p, q);
      assert false;
    }
  }

  /** The cut-off is a jump: just above it the margin of safety is near
      -99, just below it is -1, so a slightly worse upside reports a much
      better margin. */
  lemma MarginOfSafetyJump()
    ensures MarginOfSafety(-0.98) == -49.0
    ensures MarginOfSafety(-0.995) == -1.0
  {
    var m := MarginOfSafety(-0.98);
    assert m * 0.02 == -0.98;
  }

  /** History completeness: the share of the ten expected years present. */
  function HistoryScore(years: nat): (r: real)
    ensures 0.0 <= r <= 1.0
    ensures years >= 10 ==> r == 1.0
    ensures years < 10 ==> r * 10.0 == years as real
  {
    Min(years as real / 10.0, 1.0)
  }

  /** For a positive denominator, a ratio is at most `t` exactly when the
      numerator is at most `t` times the denominator. */
  lemma RatioAtMost(a: real, b: real, t: real)
    requires b > 0.0
    ensures a / b <= t <==> a <= t * b
  {
    DivMulCancel(a, b);
    ScaleByPositive(a / b, t, b);
  }

  /** Scenario consistency: 1.0 when the optimistic value is at most three
      times the conservative one, 0.8 up to five times, 0.5 beyond that or
      when either value is not positive. */
  function Consistency(conservativeIv: real, optimisticIv: real): (k: real)
    ensures k == 1.0 <==>
      conservativeIv > 0.0 && optimisticIv > 0.0 && optimisticIv <= 3.0 * conservativeIv
    ensures k == 0.8 <==> (conservativeIv > 0.0 && optimisticIv > 0.0
      && 3.0 * conservativeIv < optimisticIv <= 5.0 * conservativeIv)
    ensures k == 0.5 <==>
      conservativeIv <= 0.0 || optimisticIv <= 0.0 || optimisticIv > 5.0 * conservativeIv
  {
    if conservativeIv > 0.0 && optimisticIv > 0.0 then
      var ratio := optimisticIv / conservativeIv;
      RatioAtMost(optimisticIv, conservativeIv, 3.0);
      RatioAtMost(optimisticIv, conservativeIv, 5.0);
      if ratio <= 3.0 then 1.0 else if ratio <= 5.0 then 0.8 else 0.5
    else 0.5
  }

  /** `_calculate_confidence_score`: half data quality, a quarter history
      completeness, a quarter scenario consistency, clamped to [0, 1]. */
  function ConfidenceScore(dataConfidence: real, years: nat, conservativeIv: real,
                           optimisticIv: real): (r: real)
    ensures 0.0 <= r <= 1.0
    ensures dataConfidence >= 0.0 ==> r >= 0.125
    ensures dataConfidence <= 1.0 ==> (r == 1.0 <==>
      dataConfidence == 1.0 && years >= 10 && Consistency(conservativeIv, optimisticIv) == 1.0)
  {
    var k := Consistency(conservativeIv, optimisticIv);
    var raw := dataConfidence * 0.50 + HistoryScore(years) * 0.25 + k * 0.25;
    Clamp(raw, 0.0, 1.0)
  }

  /** More trustworthy data and a longer history never lower the score. */
  lemma ConfidenceMonotone(d1: real, d2: real, y1: nat, y2: nat, c: real, o: real)
    requires d1 <= d2 && y1 <= y2
    ensures ConfidenceScore(d1, y1, c, o) <= ConfidenceScore(d2, y2, c, o)
  {
    assert HistoryScore(y1) <= HistoryScore(y2);
  }

  /** Where each kind of risk factor sits in the list: data anomalies
      first, then the warnings in a fixed order. */
  function KindRank(f: RiskFactor): (k: nat)
    ensures k <= 7
    ensures k == 0 <==> f.Anomaly?
  {
    match f
    case Anomaly(_) => 0
    case HighLeverage(_) => 1
    case LiquidityConcern(_) => 2
    case LowInterestCoverage(_) => 3
    case AggressiveGrowth => 4
    case LowDiscountRate => 5
    case FailsGrahamScreen(_) => 6
    case MissingData(_) => 7
  }

  /** Ranks strictly increase along the list, so no kind appears twice. */
  predicate StrictlyRanked(fs: seq<RiskFactor>) {
    forall i, j :: 0 <= i < j < |fs| ==> KindRank(fs[i]) < KindRank(fs[j])
  }

  /** The warning `f` is raised for this input, valuation and screen:
      leverage above 2x, a positive current ratio below 1, a reported
      interest coverage below 3x, base-case growth above 20%, a WACC below
      6%, a failed Graham screen, or any missing fields (the first three
      are named). */
  predicate Triggered(x: EngineInput, d: DCFValuation, screen: GrahamDefensiveCriteria, f: RiskFactor) {
    match f
    case Anomaly(_) => false
    case HighLeverage(v) => v == x.debtToEquity && v > 2.0
    case LiquidityConcern(v) => v == x.currentRatio && 0.0 < v < 1.0
    case LowInterestCoverage(v) => x.interestCoverage == Some(v) && v < 3.0
    case AggressiveGrowth => d.baseCase.revenueGrowthRate > 0.20
    case LowDiscountRate => d.wacc < 0.06
    case FailsGrahamScreen(n) => n == screen.criteriaPassed && !screen.passesScreen
    case MissingData(fs) => |x.missingFields| > 0 && fs == Take(x.missingFields, 3)
  }

  /** The warning `f` when `b` holds, nothing otherwise. */
  function When(b: bool, f: RiskFactor): (r: Option<RiskFactor>)
    ensures r.Some? <==> b
    ensures r.Some? ==> r.value == f
  {
    if b then Some(f) else None
  }

  /** The seven warning checks of `_generate_risk_factors`, in the order
      the source makes them; `debt_to_equity or 0` and `current_ratio or 0`
      change no value, since `0.0 or 0` is zero too. */
  function Candidates(x: EngineInput, d: DCFValuation, screen: GrahamDefensiveCriteria)
    : (cs: seq<Option<RiskFactor>>)
    ensures |cs| == 7
  {
    var coverage := x.interestCoverage.GetOr(0.0);
    [ When(x.debtToEquity > 2.0, HighLeverage(x.debtToEquity)),
      When(0.0 < x.currentRatio < 1.0, LiquidityConcern(x.currentRatio)),
      When(x.interestCoverage.Some? && coverage < 3.0, LowInterestCoverage(coverage)),
      When(d.baseCase.revenueGrowthRate > 0.20, AggressiveGrowth),
      When(d.wacc < 0.06, LowDiscountRate),
      When(!screen.passesScreen, FailsGrahamScreen(screen.criteriaPassed)),
      When(|x.missingFields| > 0, MissingData(Take(x.missingFields, 3))) ]
  }

  /** The values of the present entries, in order. */
  function Present(cs: seq<Option<RiskFactor>>): (r: seq<RiskFactor>)
    ensures |r| <= |cs|
  {
    if |cs| == 0 then []
    else (if cs[0].Some? then [cs[0].value] else []) + Present(cs[1..])
  }

  lemma {:induction false} PresentMembership(cs: seq<Option<RiskFactor>>, f: RiskFactor)
    ensures f in Present(cs) <==> Some(f) in cs
  {
    if |cs| > 0 {
      PresentMembership(cs[1..], f);
      assert cs == [cs[0]] + cs[1..];
    }
  }

  /** Entries ranked by position come out strictly ranked. */
  lemma {:induction false} PresentRanked(cs: seq<Option<RiskFactor>>, base: nat)
    requires forall i :: 0 <= i < |cs| && cs[i].Some? ==> KindRank(cs[i].value) == base + i
    ensures StrictlyRanked(Present(cs))
    ensures forall f :: f in Present(cs) ==> KindRank(f) >= base
  {
    if |cs| > 0 {
      var tail := cs[1..];
      assert forall i :: 0 <= i < |tail| ==> tail[i] == cs[i + 1];
      PresentRanked(tail, base + 1);
      var head := if cs[0].Some? then [cs[0].value] else [];
      var rest := Present(tail);
      assert Present(cs) == head + rest;
      forall f | f in Present(cs) ensures KindRank(f) >= base {
        if f in rest {} else { assert f in head; }
      }
      forall i, j | 0 <= i < j < |head + rest|
        ensures KindRank((head + rest)[i]) < KindRank((head + rest)[j])
      {
        if i < |head| {
          assert (head + rest)[j] == rest[j - |head|];
          assert rest[j - |head|] in rest;
        }
      }
    }
  }

  /** The warnings raised, in the source's order. */
  function Warnings(x: EngineInput, d: DCFValuation, screen: GrahamDefensiveCriteria): (w: seq<RiskFactor>)
    ensures |w| <= 7
  {
    Present(Candidates(x, d, screen))
  }

  /** A warning is in the list exactly when its condition holds. */
  lemma WarningsMembership(x: EngineInput, d: DCFValuation, screen: GrahamDefensiveCriteria, f: RiskFactor)
    ensures f in Warnings(x, d, screen) <==> Triggered(x, d, screen, f)
  {
    var cs := Candidates(x, d, screen);
    PresentMembership(cs, f);
    assert Some(f) in cs <==> exists i :: 0 <= i < 7 && cs[i] == Some(f);
  }

  /** Each kind of warning appears at most once, in the fixed order, and
      never as a data anomaly. */
  lemma WarningsRanked(x: EngineInput, d: DCFValuation, screen: GrahamDefensiveCriteria)
    ensures StrictlyRanked(Warnings(x, d, screen))
    ensures forall f :: f in Warnings(x, d, screen) ==> !f.Anomaly?
  {
    var cs := Candidates(x, d, screen);
    assert cs[0].Some? ==> KindRank(cs[0].value) == 1;
    assert cs[1].Some? ==> KindRank(cs[1].value) == 2;
    assert cs[2].Some? ==> KindRank(cs[2].value) == 3;
    assert cs[3].Some? ==> KindRank(cs[3].value) == 4;
    assert cs[4].Some? ==> KindRank(cs[4].value) == 5;
    assert cs[5].Some? ==> KindRank(cs[5].value) == 6;
    assert cs[6].Some? ==> KindRank(cs[6].value) == 7;
    PresentRanked(cs, 1);
  }

  /** `_generate_risk_factors`: the extraction's data anomalies verbatim,
      then the warnings. */
  function RiskFactors(x: EngineInput, d: DCFValuation, screen: GrahamDefensiveCriteria): (r: seq<RiskFactor>)
    ensures |r| >= |x.dataAnomalies|
    ensures forall i :: 0 <= i < |x.dataAnomalies| ==> r[i] == Anomaly(x.dataAnomalies[i])
    ensures r[|x.dataAnomalies|..] == Warnings(x, d, screen)
  {
    var anomalies := seq(|x.dataAnomalies|, i requires 0 <= i < |x.dataAnomalies| => Anomaly(x.dataAnomalies[i]));
    var w := Warnings(x, d, screen);
    assert (anomalies + w)[|anomalies|..] == w;
    anomalies + w
  }

  /** The upside of the composite value over the price, its margin of
      safety and verdict. */
  datatype Assessment = Assessment(
    compositeValue: real,
    compositeMethod: CompositeMethod,
    upside: real,
    marginOfSafety: real,
    verdict: Verdict)

  function Assess(dcfValue: real, grahamNumber: real, price: real): (a: Assessment)
    ensures a.compositeMethod == DcfAndGraham <==> grahamNumber > 0.0
    ensures a.compositeValue == Composite(dcfValue, grahamNumber).0
    ensures a.upside == Upside(a.compositeValue, price)
    ensures a.marginOfSafety == MarginOfSafety(a.upside)
    ensures InBand(a.upside, a.verdict)
  {
    var (value, how) := Composite(dcfValue, grahamNumber);
    var upside := Upside(value, price);
    Assessment(value, how, upside, MarginOfSafety(upside), DetermineVerdict(upside))
  }

  /** Builds the `ValuationResult` from a finished DCF valuation and Graham
      number: the screen, the composite assessment, the confidence score
      and the risk factors, then the result's own validation. */
  function Assemble(x: EngineInput, d: DCFValuation, g: GrahamNumber): (r: Result<ValuationResult, Error>)
    requires d.weightedIntrinsicValue >= 0.0 && g.grahamNumber >= 0.0
    ensures r.Success? <==> (x.currentPrice > 0.0 && x.marketCap > 0.0
      && x.sharesOutstanding > 0.0 && 0.0 <= x.dataConfidenceScore <= 1.0)
    ensures r.Failure? ==> r.error.ValidationError?
    ensures r.Success? ==> ValidResult(r.value) && ValidCriteria(r.value.grahamDefensiveScreen)
    ensures r.Success? ==> r.value.dcfValuation == d && r.value.grahamNumber == g
    ensures r.Success? ==> r.value.compositeIntrinsicValue >= 0.0
    ensures r.Success? ==> InBand(r.value.upsideDownsidePct, r.value.verdict)
    ensures r.Success? ==>
      r.value.upsideDownsidePct == Upside(r.value.compositeIntrinsicValue, x.currentPrice)
    ensures r.Success? ==> (r.value.compositeMethod == DcfAndGraham <==> g.grahamNumber > 0.0)
    ensures r.Success? ==> r.value.dataQualityScore == x.dataConfidenceScore
    ensures r.Success? ==> r.value.riskFactors == StripRiskFactors(RiskFactors(x, d, GrahamScreen(x)))
  {
    var screen := GrahamScreen(x);
    var a := Assess(d.weightedIntrinsicValue, g.grahamNumber, x.currentPrice);
    var confidence := ConfidenceScore(x.dataConfidenceScore, |x.history|,
                                      d.conservative.intrinsicValuePerShare,
                                      d.optimistic.intrinsicValuePerShare);
    MakeResult(ValuationResult(
      x.ticker, x.companyName, x.currentPrice, x.marketCap, x.enterpriseValue,
      x.sharesOutstanding, d, g, screen, a.compositeValue, a.compositeMethod, a.upside,
      a.marginOfSafety, a.verdict, confidence, RiskFactors(x, d, screen), x.dataConfidenceScore))
  }

  /** Stripping keeps every non-anomaly entry, so a tail of warnings
      survives it unchanged. */
  lemma StripKeepsWarnings(raw: seq<RiskFactor>, n: nat, w: seq<RiskFactor>)
    requires n <= |raw| && raw[n..] == w
    requires forall f :: f in w ==> !f.Anomaly?
    ensures StripRiskFactors(raw)[n..] == w
  {
    var fs := StripRiskFactors(raw);
    forall i | n <= i < |raw| ensures fs[i] == raw[i] {
      assert raw[i] == w[i - n];
    }
  }

  /** The risk factors of an assembled result: each extraction anomaly,
      stripped of surrounding whitespace by the result model, in its
      original order, then the warnings unchanged. */
  lemma AssembleRiskFactors(x: EngineInput, d: DCFValuation, g: GrahamNumber)
    requires d.weightedIntrinsicValue >= 0.0 && g.grahamNumber >= 0.0
    ensures Assemble(x, d, g).Success? ==>
      var fs := Assemble(x, d, g).value.riskFactors;
      && |fs| == |x.dataAnomalies| + |Warnings(x, d, GrahamScreen(x))|
      && (forall i :: 0 <= i < |x.dataAnomalies| ==>
            fs[i].Anomaly? && IsStripOf(fs[i].text, x.dataAnomalies[i]))
      && fs[|x.dataAnomalies|..] == Warnings(x, d, GrahamScreen(x))
  {
    var screen := GrahamScreen(x);
    var raw := RiskFactors(x, d, screen);
    WarningsRanked(x, d, screen);
    StripKeepsWarnings(raw, |x.dataAnomalies|, Warnings(x, d, screen));
  }

  /** The calculation core of `calculate_valuation`: the DCF valuation and
      the Graham number, then the assembled result. The first failing
      step's error is the result's. */
  function CalculateValuation(x: EngineInput, sqrt: real -> real): (r: Result<ValuationResult, Error>)
    requires IsSqrtFn(sqrt)
    ensures r.Success? <==> (CalculateDcf(x).Success? && x.marketCap > 0.0
      && x.sharesOutstanding > 0.0 && 0.0 <= x.dataConfidenceScore <= 1.0)
    ensures CalculateDcf(x).Failure? ==> r == Failure(CalculateDcf(x).error)
    ensures x.currentPrice <= 0.0 ==> r.Failure?
    ensures r.Success? ==> r.value.dcfValuation == CalculateDcf(x).value
    ensures r.Success? ==> ValidResult(r.value) && InBand(r.value.upsideDownsidePct, r.value.verdict)
  {
    match CalculateDcf(x)
    case Failure(e) => Failure(e)
    case Success(d) =>
    match CalculateGrahamNumber(x, sqrt)
    case Failure(e) => Failure(e)
    case Success(g) => Assemble(x, d, g)
  }
}

=== FILE: valuation_input.dfy ===
/** `StandardizedValuationInput`: the strict, fully typed input record, its
    field bounds, its two field validators, and the view the valuation
    engine reads through. Only the fields the engine reads are kept. */
module ValuationInput {
  import opened Wrappers
  import opened Errors
  import opened RealMath
  import opened Strings
  import opened Sequences
  import opened EngineView
  import opened CostOfCapital
  import opened ValuationOutput
  import opened Dcf

  const MinFiscalYear: int := 1900
  const MaxFiscalYear: int := 2100
  const MinHistoryYears: nat := 1
  const MaxHistoryYears: nat := 15
  const MaxTickerLength: nat := 10
  const MaxRiskFreeRate: real := 0.20
  const MinEquityRiskPremium: real := 0.01
  const MaxEquityRiskPremium: real := 0.15

  /** `equity_risk_premium` when the extraction gives none. */
  const DefaultEquityRiskPremium: real := 0.05

  /** One year of `historical_financials`: every figure is required. */
  datatype HistoricalFinancials = HistoricalFinancials(
    fiscalYear: int,
    revenue: real,
    netIncome: real,
    eps: real)

  predicate ValidYear(h: HistoricalFinancials) {
    MinFiscalYear <= h.fiscalYear <= MaxFiscalYear
  }

  /** The record as the model holds it. Fields without a bound or a
      validator cannot make validation fail in a typed record and are not
      kept, except where the engine reads them. */
  datatype StandardizedValuationInput = StandardizedValuationInput(
    ticker: string,
    companyName: string,
    sector: string,
    industry: string,
    dataConfidenceScore: real,
    currentPrice: real,
    sharesOutstanding: real,
    marketCap: real,
    enterpriseValue: real,
    ttmRevenue: real,
    ttmEps: real,
    cashAndEquivalents: real,
    shortTermInvestments: Option<real>,
    totalCash: real,
    accountsReceivable: real,
    inventory: Option<real>,
    totalCurrentAssets: real,
    propertyPlantEquipment: real,
    goodwill: Option<real>,
    intangibleAssets: Option<real>,
    totalAssets: real,
    accountsPayable: real,
    shortTermDebt: real,
    totalCurrentLiabilities: real,
    longTermDebt: real,
    totalDebt: real,
    totalLiabilities: real,
    shareholdersEquity: real,
    netDebt: real,
    operatingMargin: real,
    roic: Option<real>,
    debtToEquity: real,
    interestCoverage: Option<real>,
    currentRatio: real,
    peRatio: Option<real>,
    priceToBook: Option<real>,
    revenueGrowth5yCagr: Option<real>,
    earningsGrowth10yCagr: Option<real>,
    beta: Option<real>,
    riskFreeRate: real,
    equityRiskPremium: real,
    dividendPerShare: Option<real>,
    dividendYield: Option<real>,
    payoutRatio: Option<real>,
    yearsOfDividendGrowth: Option<int>,
    historicalFinancials: seq<HistoricalFinancials>,
    missingFields: seq<string>,
    estimatedFields: seq<string>,
    dataAnomalies: seq<string>)

  /** `ge=0` on an optional field: `None` passes. */
  predicate NonNegative(o: Option<real>) {
    match o
    case None => true
    case Some(x) => x >= 0.0
  }

  predicate NonNegativeCount(o: Option<int>) {
    match o
    case None => true
    case Some(n) => n >= 0
  }

  /** The `ge=0` and `gt=0` bounds on the balance sheet, in declaration
      order. */
  predicate BalanceSheetValid(v: StandardizedValuationInput) {
    && v.cashAndEquivalents >= 0.0
    && NonNegative(v.shortTermInvestments)
    && v.totalCash >= 0.0
    && v.accountsReceivable >= 0.0
    && NonNegative(v.inventory)
    && v.totalCurrentAssets >= 0.0
    && v.propertyPlantEquipment >= 0.0
    && NonNegative(v.goodwill)
    && NonNegative(v.intangibleAssets)
    && v.totalAssets > 0.0
    && v.accountsPayable >= 0.0
    && v.shortTermDebt >= 0.0
    && v.totalCurrentLiabilities >= 0.0
    && v.longTermDebt >= 0.0
    && v.totalDebt >= 0.0
    && v.totalLiabilities >= 0.0
  }

  /** The bounds on the risk inputs and the dividend figures. */
  predicate RiskAndDividendsValid(v: StandardizedValuationInput) {
    && 0.0 <= v.riskFreeRate <= MaxRiskFreeRate
    && MinEquityRiskPremium <= v.equityRiskPremium <= MaxEquityRiskPremium
    && NonNegative(v.dividendPerShare)
    && NonNegative(v.dividendYield)
    && NonNegative(v.payoutRatio)
    && NonNegativeCount(v.yearsOfDividendGrowth)
  }

  /** The numeric field constraints, in declaration order. */
  predicate NumbersValid(v: StandardizedValuationInput) {
    && 0.0 <= v.dataConfidenceScore <= 1.0
    && v.currentPrice > 0.0
    && v.sharesOutstanding > 0.0
    && v.marketCap > 0.0
    && BalanceSheetValid(v)
    && RiskAndDividendsValid(v)
  }

  /** The history constraint: 1 to 15 rows, each year in [1900, 2100]. */
  predicate HistoryValid(hs: seq<HistoricalFinancials>) {
    && MinHistoryYears <= |hs| <= MaxHistoryYears
    && forall i :: 0 <= i < |hs| ==> ValidYear(hs[i])
  }

  predicate NewestFirst(hs: seq<HistoricalFinancials>) {
    forall i, j :: 0 <= i < j < |hs| ==> hs[i].fiscalYear >= hs[j].fiscalYear
  }

  /** Every constraint a validated record satisfies: the field bounds, a
      stripped upper-case ticker of 1 to 10 characters, a non-empty company
      name, and the history newest first. */
  predicate Valid(v: StandardizedValuationInput) {
    && 1 <= |v.ticker| <= MaxTickerLength
    && Upper(v.ticker) == v.ticker
    && Strip(v.ticker) == v.ticker
    && |v.companyName| >= 1
    && NumbersValid(v)
    && HistoryValid(v.historicalFinancials)
    && NewestFirst(v.historicalFinancials)
  }

  /** The `validate_ticker` validator: `v.upper().strip()`. */
  function ValidateTicker(v: string): (r: string)
    ensures r == Upper(Strip(v))
    ensures |r| <= |v|
  {
    StripUpperCommute(v);
    Strip(Upper(v))
  }

  /** Validating a validated ticker changes nothing. */
  lemma ValidateTickerIdempotent(v: string)
    ensures ValidateTicker(ValidateTicker(v)) == ValidateTicker(v)
  {
    var r := ValidateTicker(v);
    StripUpperCommute(r);
    StripIdempotent(v);
    UpperIdempotent(Strip(v));
    StripUpperCommute(Strip(v));
    StripUpperCommute(v);
    StripIdempotent(Upper(v));
  }

  function NewerOrSame(a: HistoricalFinancials, b: HistoricalFinancials): bool {
    a.fiscalYear >= b.fiscalYear
  }

  lemma NewerOrSameTotalPreorder()
    ensures TotalPreorder(NewerOrSame)
  {}

  /** The `validate_historical_order` validator: the rows sorted by fiscal
      year, most recent first. */
  function ValidateHistoricalOrder(v: seq<HistoricalFinancials>): (r: seq<HistoricalFinancials>)
    ensures multiset(r) == multiset(v)
    ensures NewestFirst(r)
  {
    NewerOrSameTotalPreorder();
    Sort(v, NewerOrSame)
  }

  function SameYear(year: int): HistoricalFinancials -> bool {
    (h: HistoricalFinancials) => h.fiscalYear == year
  }

  /** `sorted` is stable: rows of the same fiscal year keep the order they
      were given in. */
  lemma ValidateHistoricalOrderStable(v: seq<HistoricalFinancials>, y: HistoricalFinancials)
    ensures Filter(ValidateHistoricalOrder(v), SameYear(y.fiscalYear)) == Filter(v, SameYear(y.fiscalYear))
  {
    NewerOrSameTotalPreorder();
    SortStable(v, NewerOrSame, y);
    FilterCongruent(ValidateHistoricalOrder(v), SameYear(y.fiscalYear), TiedWith(NewerOrSame, y));
    FilterCongruent(v, SameYear(y.fiscalYear), TiedWith(NewerOrSame, y));
  }

  /** Reordering rows keeps every row's year constraint and the count. */
  lemma HistoryValidPermutation(a: seq<HistoricalFinancials>, b: seq<HistoricalFinancials>)
    requires multiset(a) == multiset(b)
    ensures HistoryValid(a) <==> HistoryValid(b)
  {
    assert |a| == |multiset(a)| == |multiset(b)| == |b|;
    if HistoryValid(a) {
      forall i | 0 <= i < |b| ensures ValidYear(b[i]) {
        assert b[i] in multiset(b);
      }
    }
    if HistoryValid(b) {
      forall i | 0 <= i < |a| ensures ValidYear(a[i]) {
        assert a[i] in multiset(a);
      }
    }
  }

  /** The first balance-sheet field whose bound fails, in declaration
      order. */
  function FirstInvalidBalanceSheetField(raw: StandardizedValuationInput): (f: Option<string>)
    ensures f.None? <==> BalanceSheetValid(raw)
  {
    if raw.cashAndEquivalents < 0.0 then Some("cash_and_equivalents")
    else if !NonNegative(raw.shortTermInvestments) then Some("short_term_investments")
    else if raw.totalCash < 0.0 then Some("total_cash")
    else if raw.accountsReceivable < 0.0 then Some("accounts_receivable")
    else if !NonNegative(raw.inventory) then Some("inventory")
    else if raw.totalCurrentAssets < 0.0 then Some("total_current_assets")
    else if raw.propertyPlantEquipment < 0.0 then Some("property_plant_equipment")
    else if !NonNegative(raw.goodwill) then Some("goodwill")
    else if !NonNegative(raw.intangibleAssets) then Some("intangible_assets")
    else if raw.totalAssets <= 0.0 then Some("total_assets")
    else if raw.accountsPayable < 0.0 then Some("accounts_payable")
    else if raw.shortTermDebt < 0.0 then Some("short_term_debt")
    else if raw.totalCurrentLiabilities < 0.0 then Some("total_current_liabilities")
    else if raw.longTermDebt < 0.0 then Some("long_term_debt")
    else if raw.totalDebt < 0.0 then Some("total_debt")
    else if raw.totalLiabilities < 0.0 then Some("total_liabilities")
    else None
  }

  /** The first risk or dividend field whose bound fails, in declaration
      order. */
  function FirstInvalidRiskField(raw: StandardizedValuationInput): (f: Option<string>)
    ensures f.None? <==> RiskAndDividendsValid(raw)
  {
    if !(0.0 <= raw.riskFreeRate <= MaxRiskFreeRate) then Some("risk_free_rate")
    else if !(MinEquityRiskPremium <= raw.equityRiskPremium <= MaxEquityRiskPremium) then
      Some("equity_risk_premium")
    else if !NonNegative(raw.dividendPerShare) then Some("dividend_per_share")
    else if !NonNegative(raw.dividendYield) then Some("dividend_yield")
    else if !NonNegative(raw.payoutRatio) then Some("payout_ratio")
    else if !NonNegativeCount(raw.yearsOfDividendGrowth) then Some("years_of_dividend_growth")
    else None
  }

  /** The constraint a raw record's first failing field violates, in
      declaration order. */
  function FirstInvalidField(raw: StandardizedValuationInput): (f: Option<string>)
  {
    var t := Strip(raw.ticker);
    if !(1 <= |t| <= MaxTickerLength) then Some("ticker")
    else if |Strip(raw.companyName)| < 1 then Some("company_name")
    else if !(0.0 <= raw.dataConfidenceScore <= 1.0) then Some("data_confidence_score")
    else if raw.currentPrice <= 0.0 then Some("current_price")
    else if raw.sharesOutstanding <= 0.0 then Some("shares_outstanding")
    else if raw.marketCap <= 0.0 then Some("market_cap")
    else if FirstInvalidBalanceSheetField(raw).Some? then FirstInvalidBalanceSheetField(raw)
    else if FirstInvalidRiskField(raw).Some? then FirstInvalidRiskField(raw)
    else if !HistoryValid(raw.historicalFinancials) then Some("historical_financials")
    else None
  }

  /** No field is flagged exactly when the raw strings strip to acceptable
      lengths and the numbers and history are in bounds. */
  lemma FirstInvalidFieldNone(raw: StandardizedValuationInput)
    ensures FirstInvalidField(raw).None? <==>
      (1 <= |Strip(raw.ticker)| <= MaxTickerLength && |Strip(raw.companyName)| >= 1
       && NumbersValid(raw) && HistoryValid(raw.historicalFinancials))
  {}

  /** `str_strip_whitespace` on the items of a `List[str]` field. */
  function StripAll(xs: seq<string>): (r: seq<string>)
    ensures |r| == |xs|
    ensures forall i :: 0 <= i < |xs| ==> IsStripOf(r[i], xs[i])
  {
    var r := seq(|xs|, i requires 0 <= i < |xs| => Strip(xs[i]));
    assert forall i :: 0 <= i < |xs| ==> IsStripOf(r[i], xs[i]) by {
      forall i | 0 <= i < |xs| ensures IsStripOf(r[i], xs[i]) {
        StripSpec(xs[i]);
      }
    }
    r
  }

  /** pydantic validation of a raw record: strings are stripped, the
      bounds checked, and the two field validators applied. */
  function Create(raw: StandardizedValuationInput): (r: Result<StandardizedValuationInput, Error>)
    ensures r.Success? <==> FirstInvalidField(raw).None?
    ensures r.Failure? ==> r.error == ValidationError(FirstInvalidField(raw).GetOr(""))
    ensures r.Success? ==> Valid(r.value)
    ensures r.Success? ==> r.value.ticker == Upper(Strip(raw.ticker))
    ensures r.Success? ==> r.value.companyName == Strip(raw.companyName)
    ensures r.Success? ==> r.value.sector == Strip(raw.sector) && r.value.industry == Strip(raw.industry)
    ensures r.Success? ==>
      && r.value.missingFields == StripAll(raw.missingFields)
      && r.value.estimatedFields == StripAll(raw.estimatedFields)
      && r.value.dataAnomalies == StripAll(raw.dataAnomalies)
    ensures r.Success? ==>
      multiset(r.value.historicalFinancials) == multiset(raw.historicalFinancials)
    ensures r.Success? ==> r.value == raw.(ticker := r.value.ticker,
      companyName := r.value.companyName, sector := r.value.sector, industry := r.value.industry,
      missingFields := r.value.missingFields, estimatedFields := r.value.estimatedFields,
      dataAnomalies := r.value.dataAnomalies, historicalFinancials := r.value.historicalFinancials)
  {
    match FirstInvalidField(raw)
    case Some(f) => Failure(ValidationError(f))
    case None =>
      FirstInvalidFieldNone(raw);
      var stripped := Strip(raw.ticker);
      var ticker := ValidateTicker(stripped);
      StripIdempotent(raw.ticker);
      StripIdempotent(Upper(stripped));
      StripUpperCommute(stripped);
      UpperIdempotent(stripped);
      var history := ValidateHistoricalOrder(raw.historicalFinancials);
      HistoryValidPermutation(history, raw.historicalFinancials);
      Success(raw.(ticker := ticker, companyName := Strip(raw.companyName),
                   sector := Strip(raw.sector), industry := Strip(raw.industry),
                   missingFields := StripAll(raw.missingFields),
                   estimatedFields := StripAll(raw.estimatedFields),
                   dataAnomalies := StripAll(raw.dataAnomalies),
                   historicalFinancials := history))
  }

  function Row(h: HistoricalFinancials): HistoryRow {
    HistoryRow(h.fiscalYear, Some(h.revenue), Some(h.netIncome), Some(h.eps))
  }

  /** The attributes the engine reads, as this record answers them. */
  function ToEngineInput(v: StandardizedValuationInput): (x: EngineInput)
    ensures |x.history| == |v.historicalFinancials|
    ensures forall i :: 0 <= i < |x.history| ==>
      x.history[i].fiscalYear == v.historicalFinancials[i].fiscalYear
      && x.history[i].eps == Some(v.historicalFinancials[i].eps)
    ensures x.totalDebt == v.totalDebt && x.marketCap == v.marketCap
    ensures x.currentPrice == v.currentPrice && x.beta == v.beta
    ensures x.riskFreeRate == v.riskFreeRate && x.equityRiskPremium == v.equityRiskPremium
  {
    EngineInput(
      v.ticker, v.companyName, v.dataConfidenceScore,
      v.currentPrice, v.sharesOutstanding, v.marketCap, v.enterpriseValue,
      v.ttmRevenue, v.ttmEps, v.shareholdersEquity, v.totalDebt, v.netDebt,
      v.operatingMargin, v.roic, v.debtToEquity, v.interestCoverage, v.currentRatio,
      v.peRatio, v.priceToBook, v.dividendYield,
      v.revenueGrowth5yCagr, v.earningsGrowth10yCagr, v.beta, v.riskFreeRate,
      v.equityRiskPremium,
      seq(|v.historicalFinancials|, i requires 0 <= i < |v.historicalFinancials| =>
        Row(v.historicalFinancials[i])),
      v.dataAnomalies, v.missingFields)
  }

  /** On a validated record the engine's clamps of market capitalization
      and debt at zero change nothing: the capital weights are the plain
      proportions of the two. */
  lemma CapitalWeightsUnclamped(v: StandardizedValuationInput)
    requires Valid(v)
    ensures var w := CapitalWeights(v.marketCap, v.totalDebt);
      w.0 * (v.marketCap + v.totalDebt) == v.marketCap
      && w.1 * (v.marketCap + v.totalDebt) == v.totalDebt
  {
    assert Max(v.marketCap, 0.0) == v.marketCap && Max(v.totalDebt, 0.0) == v.totalDebt;
  }

  /** On a validated record with a non-negative beta the WACC is positive,
      so no discount factor is zero and, with the positive price, the DCF
      valuation always succeeds. A negative beta can defeat this. */
  lemma StandardDcfSucceeds(v: StandardizedValuationInput)
    requires Valid(v) && v.beta.GetOr(1.0) >= 0.0
    ensures CalculateDcf(ToEngineInput(v)).Success?
  {
    var x := ToEngineInput(v);
    var c := CalculateWacc(x);
    assert c.costOfEquity >= x.riskFreeRate >= 0.0;
    assert c.costOfDebtAftertax > 0.0;
    assert c.wacc >= 0.0;
  }
}

=== FILE: valuation_output.dfy ===
/** The valuation output records and the field constraints pydantic
    enforces when the engine builds them. Each `Make...` function is the
    model's constructor call: it either returns the record or fails with
    the validation error the source would raise. Every output model strips
    surrounding whitespace from its string fields. */
module ValuationOutput {
  import opened Wrappers
  import opened Errors
  import opened Strings

  /** `ValuationVerdict`, from most to least attractive. */
  datatype Verdict =
    | SignificantlyUndervalued
    | Undervalued
    | FairlyValued
    | Overvalued
    | SignificantlyOvervalued

  /** The enum's string value, as serialized. */
  function VerdictValue(v: Verdict): string {
    match v
    case SignificantlyUndervalued => "significantly_undervalued"
    case Undervalued => "undervalued"
    case FairlyValued => "fairly_valued"
    case Overvalued => "overvalued"
    case SignificantlyOvervalued => "significantly_overvalued"
  }

  /** Position of a verdict from most attractive (0) to least (4). */
  function VerdictRank(v: Verdict): (k: nat)
    ensures k < 5
  {
    match v
    case SignificantlyUndervalued => 0
    case Undervalued => 1
    case FairlyValued => 2
    case Overvalued => 3
    case SignificantlyOvervalued => 4
  }

  /** There are exactly five verdicts, told apart by rank and by string value. */
  lemma VerdictsDistinct(v: Verdict, w: Verdict)
    ensures VerdictRank(v) == VerdictRank(w) <==> v == w
    ensures VerdictValue(v) == VerdictValue(w) <==> v == w
  {}

  /** `DCFScenario`. */
  datatype DCFScenario = DCFScenario(
    scenarioName: string,
    revenueGrowthRate: real,
    operatingMarginAssumption: real,
    terminalGrowthRate: real,
    wacc: real,
    projectionYears: int,
    projectedRevenue: seq<real>,
    projectedEbit: seq<real>,
    projectedNopat: seq<real>,
    projectedFcf: seq<real>,
    terminalFcf: real,
    terminalValue: real,
    pvExplicitPeriod: real,
    pvTerminalValue: real,
    enterpriseValue: real,
    equityValue: real,
    intrinsicValuePerShare: real,
    currentPrice: real,
    upsideDownsidePct: real)

  /** `projection_years` lies in [3, 10] and `current_price` is positive. */
  predicate ValidScenario(s: DCFScenario) {
    3 <= s.projectionYears <= 10 && s.currentPrice > 0.0
  }

  function MakeScenario(s: DCFScenario): (r: Result<DCFScenario, Error>)
    ensures r.Success? <==> ValidScenario(s)
    ensures r.Success? ==> r.value == s
    ensures !(3 <= s.projectionYears <= 10) ==> r == Failure(ValidationError("projection_years"))
    ensures 3 <= s.projectionYears <= 10 && s.currentPrice <= 0.0 ==>
      r == Failure(ValidationError("current_price"))
  {
    if !(3 <= s.projectionYears <= 10) then Failure(ValidationError("projection_years"))
    else if s.currentPrice <= 0.0 then Failure(ValidationError("current_price"))
    else Success(s)
  }

  /** The probability weights of the three scenarios. */
  datatype ScenarioWeights = ScenarioWeights(conservative: real, baseCase: real, optimistic: real)

  const DefaultScenarioWeights: ScenarioWeights := ScenarioWeights(0.25, 0.50, 0.25)

  /** The default weights form a probability distribution, symmetric about
      the base case. */
  lemma DefaultWeightsDistribution()
    ensures var w := DefaultScenarioWeights;
      w.conservative + w.baseCase + w.optimistic == 1.0
      && w.conservative == w.optimistic
      && w.conservative > 0.0 && w.baseCase > w.conservative
  {}

  /** A pair of sensitivity results, one each side of the base assumption. */
  datatype Sensitivity = Sensitivity(minus1pct: real, plus1pct: real)

  /** `DCFValuation`. */
  datatype DCFValuation = DCFValuation(
    riskFreeRate: real,
    beta: real,
    equityRiskPremium: real,
    costOfEquity: real,
    costOfDebtPretax: real,
    taxRate: real,
    costOfDebtAftertax: real,
    debtWeight: real,
    equityWeight: real,
    wacc: real,
    conservative: DCFScenario,
    baseCase: DCFScenario,
    optimistic: DCFScenario,
    scenarioWeights: ScenarioWeights,
    weightedIntrinsicValue: real,
    sensitivityToWacc: Sensitivity,
    sensitivityToGrowth: Sensitivity)

  predicate ValidDcf(d: DCFValuation) {
    ValidScenario(d.conservative) && ValidScenario(d.baseCase) && ValidScenario(d.optimistic)
  }

  /** `GrahamNumber`. */
  datatype GrahamNumber = GrahamNumber(
    epsTtm: real,
    bookValuePerShare: real,
    grahamMultiplier: real,
    grahamNumber: real,
    currentPrice: real,
    upsidePct: real)

  /** `graham_number` is non-negative and `current_price` positive. */
  predicate ValidGraham(g: GrahamNumber) {
    g.grahamNumber >= 0.0 && g.currentPrice > 0.0
  }

  function MakeGrahamNumber(g: GrahamNumber): (r: Result<GrahamNumber, Error>)
    ensures r.Success? <==> ValidGraham(g)
    ensures r.Success? ==> r.value == g
    ensures g.grahamNumber < 0.0 ==> r == Failure(ValidationError("graham_number"))
    ensures g.grahamNumber >= 0.0 && g.currentPrice <= 0.0 ==>
      r == Failure(ValidationError("current_price"))
  {
    if g.grahamNumber < 0.0 then Failure(ValidationError("graham_number"))
    else if g.currentPrice <= 0.0 then Failure(ValidationError("current_price"))
    else Success(g)
  }

  /** `GrahamDefensiveCriteria`, without the threshold fields that only
      echo the engine's constants. */
  datatype GrahamDefensiveCriteria = GrahamDefensiveCriteria(
    adequateSize: bool,
    actualRevenue: real,
    strongFinancialCondition: bool,
    actualCurrentRatio: real,
    earningsStability: bool,
    yearsPositiveEarnings: int,
    dividendRecord: bool,
    yearsDividendsPaid: int,
    earningsGrowth: bool,
    eps10yGrowth: Option<real>,
    moderatePe: bool,
    actualPe: Option<real>,
    moderatePb: bool,
    actualPb: Option<real>,
    grahamProduct: Option<real>,
    grahamProductPasses: bool,
    criteriaPassed: int,
    passesScreen: bool)

  /** `criteria_passed` lies in [0, 7]; the year counts are non-negative. */
  predicate ValidCriteria(c: GrahamDefensiveCriteria) {
    0 <= c.criteriaPassed <= 7 && c.yearsPositiveEarnings >= 0 && c.yearsDividendsPaid >= 0
  }

  /** How the composite value was formed. */
  datatype CompositeMethod = DcfAndGraham | DcfOnly

  /** One entry of `risk_factors`, in place of its message text. */
  datatype RiskFactor =
    | Anomaly(text: string)
    | HighLeverage(debtToEquity: real)
    | LiquidityConcern(currentRatio: real)
    | LowInterestCoverage(coverage: real)
    | AggressiveGrowth
    | LowDiscountRate
    | FailsGrahamScreen(criteriaPassed: int)
    | MissingData(fields: seq<string>)

  /** `ValuationResult`, without the timestamp, the fixed list of methods
      used and the formatted key assumptions. */
  datatype ValuationResult = ValuationResult(
    ticker: string,
    companyName: string,
    currentPrice: real,
    marketCap: real,
    enterpriseValue: real,
    sharesOutstanding: real,
    dcfValuation: DCFValuation,
    grahamNumber: GrahamNumber,
    grahamDefensiveScreen: GrahamDefensiveCriteria,
    compositeIntrinsicValue: real,
    compositeMethod: CompositeMethod,
    upsideDownsidePct: real,
    marginOfSafety: real,
    verdict: Verdict,
    confidenceScore: real,
    riskFactors: seq<RiskFactor>,
    dataQualityScore: real)

  /** Price, market capitalization and share count are positive; both
      scores lie in [0, 1]. */
  predicate ValidResult(v: ValuationResult) {
    && v.currentPrice > 0.0
    && v.marketCap > 0.0
    && v.sharesOutstanding > 0.0
    && 0.0 <= v.confidenceScore <= 1.0
    && 0.0 <= v.dataQualityScore <= 1.0
  }

  /** The `risk_factors` list as `str_strip_whitespace` leaves it: each
      anomaly text is stripped, and every other entry, whose message is
      fixed text around a figure, is kept. */
  function StripRiskFactors(fs: seq<RiskFactor>): (r: seq<RiskFactor>)
    ensures |r| == |fs|
    ensures forall i :: 0 <= i < |fs| ==> (r[i].Anomaly? <==> fs[i].Anomaly?)
    ensures forall i :: 0 <= i < |fs| && fs[i].Anomaly? ==> IsStripOf(r[i].text, fs[i].text)
    ensures forall i :: 0 <= i < |fs| && !fs[i].Anomaly? ==> r[i] == fs[i]
  {
    var r := seq(|fs|, i requires 0 <= i < |fs| =>
      if fs[i].Anomaly? then Anomaly(Strip(fs[i].text)) else fs[i]);
    assert forall i :: 0 <= i < |fs| && fs[i].Anomaly? ==> IsStripOf(r[i].text, fs[i].text) by {
      forall i | 0 <= i < |fs| && fs[i].Anomaly? ensures IsStripOf(r[i].text, fs[i].text) {
        StripSpec(fs[i].text);
      }
    }
    r
  }

  /** Stripping the risk factors a second time changes nothing, so a
      validated result re-validates to itself. */
  lemma StripRiskFactorsIdempotent(fs: seq<RiskFactor>)
    ensures StripRiskFactors(StripRiskFactors(fs)) == StripRiskFactors(fs)
  {
    var r := StripRiskFactors(fs);
    forall i | 0 <= i < |fs| && fs[i].Anomaly?
      ensures StripRiskFactors(r)[i] == r[i]
    {
      StripIdempotent(fs[i].text);
    }
  }

  /** Builds the result: strings, including each anomaly text among the
      risk factors, are stripped, then the numeric constraints are checked
      in field order. */
  function MakeResult(v: ValuationResult): (r: Result<ValuationResult, Error>)
    ensures r.Success? <==> ValidResult(v)
    ensures r.Success? ==>
      r.value == v.(ticker := Strip(v.ticker), companyName := Strip(v.companyName),
                    riskFactors := StripRiskFactors(v.riskFactors))
    ensures v.currentPrice <= 0.0 ==> r == Failure(ValidationError("current_price"))
    ensures r.Failure? ==> r.error.ValidationError?
  {
    if v.currentPrice <= 0.0 then Failure(ValidationError("current_price"))
    else if v.marketCap <= 0.0 then Failure(ValidationError("market_cap"))
    else if v.sharesOutstanding <= 0.0 then Failure(ValidationError("shares_outstanding"))
    else if !(0.0 <= v.confidenceScore <= 1.0) then Failure(ValidationError("confidence_score"))
    else if !(0.0 <= v.dataQualityScore <= 1.0) then Failure(ValidationError("data_quality_score"))
    else Success(v.(ticker := Strip(v.ticker), companyName := Strip(v.companyName),
                    riskFactors := StripRiskFactors(v.riskFactors)))
  }
}

=== FILE: wrappers.dfy ===
/** Option and Result: the model's stand-ins for Python's `None` and for
    raised exceptions. */
module Wrappers {

  /** `None` or a present value, as a Python `Optional[...]` field. */
  datatype Option<+T> = None | Some(value: T) {

    /** The value, or `default` when absent (`x if x is not None else d`). */
    function GetOr(default: T): T {
      match this
      case Some(v) => v
      case None => default
    }
  }

  /** A computed value, or the error the source would have raised. */
  datatype Result<+R, +E> = Success(value: R) | Failure(error: E) {

    predicate IsFailure() {
      Failure?
    }

    function PropagateFailure<U>(): Result<U, E>
      requires Failure?
    {
      Failure(error)
    }

    function Extract(): R
      requires Success?
    {
      value
    }
  }
}
